=== FILE: README.md ===
# go-djvulibre image core in Dafny

This project models the image core of go-djvulibre, a Go port of DjVuLibre.
It covers:

- **Rectangles.** `Rect` is a half-open, axis-aligned rectangle with int32 bounds. The model covers its algebra: construction, area, containment, inflation, translation, intersection and normalisation.
- **Ratios.** Exact ratios (`newRatio`), the rounding scaled multiply and divide (`rmul`, `rdiv`) and the `RectMapper` constructor.
- **Bitmaps.** The pixel store: `NewEmptyBitmap`, `NewBitmap`, `Init` with its overflow guard as written, `Rows`, `Cols` and `destroy`.
- **The stream decoder.** `NewBitmapFromStream` reads two magic bytes, then a width and a height, allocates the bitmap, and fills it with the reader the magic selects:
  - `P1`: text PBM;
  - `P2`: text PGM;
  - `P4`: packed PBM;
  - `P5`: raw PGM;
  - `R4`: run-length bilevel.
- **The byte readers.** The one-byte reader of `internal/bytestream`, the buffered one of `image/io.go`, and the decimal integer scan both of them run.
- **The chaining writers.** `Write8` and `Write16` skip every write once an error is recorded.
- **The INFO chunk** of a DjVu file: decoding its ten bytes, with defaults and clamping, and encoding it.

The model uses immutable datatypes and pure functions:

- **Input streams.** An input stream is a `Source`: the bytes it delivers, followed by either the ordinary end of data or an I/O failure. A reader is a position in that stream.
- **Output streams.** A writer is the bytes already written plus an optional capacity. A write that does not fit stores the prefix that fits and records a short-write error.
- **Go integers.** int32 wrap-around (`Wrap32`, `Neg32`), uint32 wrap-around (`U32`) and Go's truncating division (`Quo`) are written out. The bitmap's size fields are 8 or 16 bits wide (`FieldWidth`).

Each operation is paired with an independent description and a lemma that connects the two:

- **The integer scan.** The loops of `ReadInteger` are proved equal, on every input and for both byte readers, to a declarative grammar, `ExpectedScan`: blanks and `#` comments, then digits and one terminator. A number written in decimal is proved to be read back.
- **The pixel readers.** For the bilevel formats, writers are defined: the text digits of P1, eight pixels per byte for P4, and maximal runs for R4. Every reader is proved to read back what its writer produced. That gives a whole-stream round trip: header, allocation and rows.
- **Pixel placement.** The readers compute a pixel's index `rr*bytesPerRow + border + cc` in 16-bit arithmetic, and so does the model (`GoIndex`, `StoreAsWritten`). The intended layout puts file row `i`, column `c` at byte `(nrows-1-i)*bytesPerRow + border + c` and never touches a border byte (`Store`). The readers' store is proved equal to it whenever `nrows*bytesPerRow <= 65536`. Beyond that bound the index wraps; see Findings.
- **Bitmap.Init.** The overflow guard is characterised exactly. It accepts a size exactly when the border equals the row count and `ncols + nrows` does not wrap.
- **INFO.** Decoding what `Encode` wrote restores each field, within the limits the decoder imposes.
- **Ratios.** `newRatio` keeps the value of p/q, except when q is negative and p or q is MinInt32. It reduces a positive result to lowest terms and leaves a negative numerator unreduced. `rmul` and `rdiv` are proved to round to nearest, half away from zero, and to be odd functions.

Where the code and its comments disagree, the model follows the code:

- **Rectangles.** `rect.go`'s doc comment calls `xmax` inclusive. `Contains` excludes it, and so does the model.
- **P5.** A raw PGM sample always takes two bytes, because `maxbin` is 256 or 65536 and so always exceeds 255. This holds even for an 8-bit maxval; the one-byte branch is modelled but is never taken. `Pgm.EightBitSamplesReadAsPairs` shows the consequence.
- **Row order.** All readers, R4 included, fill bitmap rows from the top row of the file downward. The first row of the file goes to bitmap row `nrows-1`.
- **Oversized headers.** A width or height above 65535 makes `NewBitmapFromStream` return no bitmap and no error (`Ok(None)`). The code wraps the nil error of the scan that succeeded.
- **Bitmap sizes.** `bitmap.go` declares the size fields `uint8`. `bitmap_stream.go` passes `uint16` values to `NewBitmap` and stores 256 in `grays`. The model keeps the field width as a parameter and runs the decoder with 16-bit fields.
- **Border.** `Init`'s guard compares `ncols + border` with `ncols + nrows`, so it only ever accepts `border == nrows`. The guard is modelled as written. The stream round trip therefore uses `border = |rows|`.

## Model

| member | source | states |
|---|---|---|
| Rects.Min | djvu/image/rect.go:160-165 | the result is one of the two arguments and no greater than either |
| Rects.Max | djvu/image/rect.go:167-172 | the result is one of the two arguments and no smaller than either |
| Rects.NewRect | djvu/image/rect.go:36-43 | the bounds come out ordered for any sign of width or height; the given corner is one bound on each axis; without int32 overflow the width and height are the absolute values of the arguments |
| Rects.Area | djvu/image/rect.go:56-61 | an empty rectangle has area 0; a non-empty one whose area fits an int32 has exactly its positive area |
| Rects.Width | djvu/image/rect.go:46-48 | the int32 difference of the x bounds: exact when it fits, and for a non-empty rectangle positive exactly when it fits |
| Rects.Height | djvu/image/rect.go:51-53 | the int32 difference of the y bounds: exact when it fits, and for a non-empty rectangle positive exactly when it fits |
| Rects.IsEmpty | djvu/image/rect.go:64-70 | a rectangle with xmin >= xmax or ymin >= ymax; Rects.ContainsIsHalfOpen shows it is exactly the rectangle that does not hold its lower corner, and holds no point at all |
| Rects.Contains | djvu/image/rect.go:73-76 | half-open membership, lower bounds included and upper bounds excluded; see Rects.ContainsIsHalfOpen and Rects.IntersectIsPointwiseAnd |
| Rects.ContainsIsHalfOpen | djvu/image/rect.go:72-76 | the upper bounds are excluded; a rectangle holds its lower corner exactly when it is non-empty; an empty rectangle holds no point |
| Rects.Sanitize | djvu/image/rect.go:148-158 | degenerate bounds give exactly the zero rectangle; any other bounds are kept unchanged |
| Rects.Inflate | djvu/image/rect.go:84-94 | the result is the zero rectangle or a non-empty one |
| Rects.InflateGrows | djvu/image/rect.go:84-94 | inflating a non-empty rectangle outward without overflow keeps every point it held |
| Rects.InflateByZero | djvu/image/rect.go:90-94 | inflating a non-empty rectangle by zero returns it unchanged |
| Rects.Translate | djvu/image/rect.go:96-101 | the result is the zero rectangle or a non-empty one |
| Rects.TranslateKeepsSize | djvu/image/rect.go:96-101 | without overflow, translation keeps width and height and moves each point by (dx, dy) |
| Rects.TranslateEmpty | djvu/image/rect.go:97-101 | without overflow, translating an empty rectangle gives the zero rectangle |
| Rects.TranslateEmptyCanWrap | djvu/image/rect.go:97-101 | with int32 wrap-around, a translated empty rectangle can come out non-empty (a concrete case) |
| Rects.Intersect | djvu/image/rect.go:103-110 | the result is the zero rectangle or a non-empty one |
| Rects.IntersectIsPointwiseAnd | djvu/image/rect.go:103-110 | a point lies in the intersection exactly when it lies in both rectangles |
| Rects.IntersectCommutes | djvu/image/rect.go:104-110 | intersection does not depend on argument order |
| Rects.ContainsRectBounds | djvu/image/rect.go:78-82 | `ContainsRect` holds exactly for the zero rectangle and for non-empty rectangles whose bounds lie within r |
| Rects.ContainsRect | djvu/image/rect.go:80-82 | r2 lies inside r when their intersection is r2; Rects.ContainsRectBounds characterises it by bounds, and Rects.ContainsRectHoldsPoints with Rects.PointsInsideGiveContainsRect by points |
| Rects.ContainsRectHoldsPoints | djvu/image/rect.go:78-82 | a non-empty rectangle contained in r has all its points in r |
| Rects.PointsInsideGiveContainsRect | djvu/image/rect.go:78-82 | a non-empty rectangle whose points all lie in r is contained in r |
| Ratios.EuclidLoop | djvu/image/rect_mapper.go:64-77 | when the loop runs, it ends with the positive gcd of the two numbers; otherwise the initial gcd is kept |
| Ratios.Normalize | djvu/image/rect_mapper.go:56-62 | a zero numerator gets denominator 1; a negative denominator flips the signs of both parts; a denominator other than MinInt32 ends up positive |
| Ratios.Reduce | djvu/image/rect_mapper.go:64-77 | the reduced pair has the same value (cross-multiplication), and is coprime when both parts are positive; a non-positive numerator is left as it is |
| Ratios.ReduceByGcd | djvu/image/rect_mapper.go:76-77 | dividing two positive numbers by their gcd gives positive, coprime parts of the same ratio |
| Ratios.NewRatio | djvu/image/rect_mapper.go:50-80 | 0/q is 0/1; the denominator is positive unless q is MinInt32; the value p/q is kept, except for MinInt32 operands when q is negative; a positive result is in lowest terms; a negative normalised numerator is left unreduced |
| Ratios.RoundDivIsOdd | djvu/image/rect_mapper.go:83-91 | the rounding division satisfies f(-x) = -f(x) |
| Ratios.RoundDiv | djvu/image/rect_mapper.go:83-102 | the 64-bit rounded division shared by rmul and rdiv, truncated to int32; Ratios.RoundDivIsOdd and Ratios.RoundDivBounds state that it rounds to nearest, half away from zero |
| Ratios.RoundDivBounds | djvu/image/rect_mapper.go:83-91 | for a positive divisor and no overflow, the result times the divisor is within half a divisor of x, is exact when the divisor divides x, and rounds half up for x >= 0 |
| Ratios.RMul | djvu/image/rect_mapper.go:82-91 | rmul(n, p/q) is n*p/q rounded to nearest, half away from zero: within q/2 after scaling back, and exact when q divides n*p |
| Ratios.RDiv | djvu/image/rect_mapper.go:93-102 | rdiv(n, p/q) is n*q/p rounded to nearest, half away from zero: within p/2 after scaling back, and exact when p divides n*q |
| Ratios.RMulIsOdd | djvu/image/rect_mapper.go:83-91 | rmul(-n, r) == -rmul(n, r) |
| Ratios.RDivIsOdd | djvu/image/rect_mapper.go:94-102 | rdiv(-n, r) == -rdiv(n, r) |
| Ratios.DivAfterMulWithinOne | djvu/image/rect_mapper.go:82-102 | for a ratio of at least one, rdiv(rmul(n, r), r) is within one of n |
| Ratios.DivAfterMulCanDrift | djvu/image/rect_mapper.go:82-102 | for a ratio below one, the round trip can be off by more than one (r = 1/5, n = 3 gives 5) |
| RectMappers.NonEmptyHasExtent | djvu/image/rect_mapper.go:50-54 | a non-empty rectangle has non-zero int32 width and height, so the constructor's ratios never reach the division-by-zero panic |
| RectMappers.PositiveRatio | djvu/image/rect_mapper.go:50-80 | the ratio of two positive numbers is positive, in lowest terms, and equal in value |
| RectMappers.WidthRatio | djvu/image/rect_mapper.go:35 | the width ratio of two non-empty rectangles is positive, reduced, and equal to dst width / src width when the widths fit int32 |
| RectMappers.HeightRatio | djvu/image/rect_mapper.go:36 | the same for the heights |
| RectMappers.NewRectMapper | djvu/image/rect_mapper.go:26-38 | fails exactly when either rectangle is empty; otherwise keeps both rectangles with code 0, and holds the reduced, value-preserving width and height ratios of dst to src |
| RectMappers.HalvingExample | djvu/image/rect_mapper.go:26-38 | mapping the 10x10 square onto the 5x5 one gives ratio 1/2, and rmul sends 10 to 5 and 0 to 0 |
| Bitmaps.NewEmptyBitmap | djvu/image/bitmap.go:46-50 | zero rows, zero columns, no pixel store |
| Bitmaps.InitAcceptsExactly | djvu/image/bitmap.go:97-103 | the overflow guard, as written, accepts exactly the sizes whose border equals the row count and whose ncols + nrows does not wrap the field width |
| Bitmaps.Init | djvu/image/bitmap.go:92-122 | on rejection, the bitmap is unchanged and an error is returned; otherwise it is valid with the requested size, bytesPerRow = ncols + border, two gray levels, nrows*bytesPerRow + border white bytes and no run-length data |
| Bitmaps.Resized | djvu/image/bitmap.go:105-119 | after destroy and re-allocation: valid shape, requested size, all bytes white, run-length data empty |
| Bitmaps.SizeFits | djvu/image/bitmap.go:115 | with fields below 2^16, the pixel count fits uint32, so `npixels` does not wrap |
| Bitmaps.Destroy | djvu/image/bitmap.go:143-150 | drops the pixel store and the run-length data and keeps every size field |
| Bitmaps.NewBitmap | djvu/image/bitmap.go:52-64 | succeeds exactly when Init accepts the size, and then returns the initialised bitmap of that size with two gray levels |
| Bitmaps.Rows | djvu/image/bitmap.go:129-134 | the image height |
| Bitmaps.Cols | djvu/image/bitmap.go:136-141 | the image width |
| Bitmaps.NewBitmapReportsSize | djvu/image/bitmap.go:129-141 | a bitmap NewBitmap accepts reports the height and width it was asked for |
| Bitmaps.InitAgainWhitens | djvu/image/bitmap.go:92-122 | re-initialising a bitmap with its own size succeeds, keeps its shape and whitens every byte |
| PixelStore.OffsetTarget | djvu/image/bitmap_stream.go:112-113 | the intended byte of pixel (r, c), `r*bytesPerRow + border + c` without wrap, lies inside the store and maps back to file row nrows-1-r, column c |
| PixelStore.TargetOffset | djvu/image/bitmap_stream.go:112-113 | a byte that maps to a pixel is that pixel's intended offset |
| PixelStore.StoreRowsWrites | djvu/image/bitmap_stream.go:112-134 | after the intended row loops from file row i on, every pixel byte of those rows holds its pixel and every other byte is unchanged |
| PixelStore.Store | djvu/image/bitmap_stream.go:112-134 | writing an image at the intended offsets changes only the bytes, and leaves them equal to the reference layout: pixel bytes hold their pixel, border bytes keep their value |
| PixelStore.StorePlacesPixels | djvu/image/bitmap_stream.go:112-129 | at the intended offsets, file row i, column c lands at bitmap row nrows-1-i, column c |
| PixelStore.StoreOnlyWritesPixels | djvu/image/bitmap.go:27-30 | a byte the intended store changes is the byte of some pixel, so the white border is never written |
| PixelStore.GoIndex | djvu/image/bitmap_stream.go:112-129 | the index the readers write a pixel to, `row+cc` in 16 bits (the R4 reader adds `c` to the 16-bit `row` as a uint32, lines 231-259), always lies inside the store and is the intended offset whenever that offset is below 2^16 |
| PixelStore.GoIndexUnwrapped | djvu/image/bitmap_stream.go:112-113 | when nrows*bytesPerRow <= 2^16, every reader's index is the intended offset |
| PixelStore.PutRowsUnwrapped | djvu/image/bitmap_stream.go:112-134 | when nrows*bytesPerRow <= 2^16, the readers' row and column loops write exactly what the intended loops write |
| PixelStore.PutRows | djvu/image/bitmap_stream.go:112-134 | the readers' row loop, file row i going to bitmap row nrows-1-i at PixelStore.GoIndex; it keeps the store's length, and PixelStore.PutRowsUnwrapped and PixelStore.PutRowsSource describe what it writes |
| PixelStore.PutRowsSource | djvu/image/bitmap_stream.go:112-134 | every byte the readers' row loops change holds a pixel whose index is that byte |
| PixelStore.StoreAsWritten | djvu/image/bitmap_stream.go:112-134 | the store as the code computes its indices: only the bytes change, every changed byte holds a pixel written at that index, and the result is the intended Store whenever no index wraps |
| PixelStore.WrapWritesBorder | djvu/image/bitmap_stream.go:112-113 | for a 256-row, one-column bitmap with border 256, the readers' index of file row 0 wraps to border byte 255, which ends up holding that pixel; the intended Store leaves it white |
| Sources.ReadFull | djvu/image/bitmap_stream.go:16-19 | `io.ReadAtLeast` with an n-byte buffer returns exactly the next n bytes; otherwise EOF when none were left, unexpected EOF when only some were, and the reader's own error when it fails |
| ByteReaders.NewByteReader | djvu/internal/bytestream/byte_reader.go:19-26 | no error, B = 0, nothing consumed |
| ByteReaders.Advance | djvu/internal/bytestream/byte_reader.go:28-40 | does nothing once an error is set; otherwise reads the next byte into B, or records the stream's failure and leaves in B the previous byte (internal reader) or 0 (buffered reader) |
| ByteReaders.FailureIsSticky | djvu/internal/bytestream/byte_reader.go:28-35 | after a failure, any number of further advances changes nothing |
| ByteReaders.AdvanceTimesDelivers | djvu/internal/bytestream/byte_reader.go:32-40 | k advances deliver the next k bytes in order; running past the data leaves the end fault, the position at the end, and the documented byte in B |
| ImageIo.NewBytereader | djvu/image/io.go:57-61 | no error, B = 0, nothing consumed |
| ImageIo.ReadInteger | djvu/image/io.go:10-46 | the scan over the buffered reader returns the value or error, and consumes the bytes, that the integer grammar prescribes |
| ImageIo.ScannersAgree | djvu/image/io.go:63-71 | the two byte readers leave different bytes in B after a failure, yet their integer scans agree in value, error and bytes consumed on every input |
| ImageIo.ReadsPastComment | djvu/image/io.go:15-43 | a comment line and blanks are skipped, "42" is read as 42, and its terminator is consumed |
| IntReaders.NewReader | djvu/internal/bytestream/reader.go:14-16 | no error recorded |
| IntReaders.Error | djvu/internal/bytestream/reader.go:62 | the recorded error |
| IntReaders.ClearError | djvu/internal/bytestream/reader.go:64 | forgets the error and keeps the stream position |
| IntReaders.SkipComment | djvu/internal/bytestream/reader.go:28-37 | the comment loop stops on CR or LF or on a failure, and never moves back |
| IntReaders.SkipLayout | djvu/internal/bytestream/reader.go:26-43 | the blank loop stops on a byte that is neither blank nor `#`, or on a failure |
| IntReaders.ReadDigits | djvu/internal/bytestream/reader.go:50-57 | the digit loop stops on a non-digit or on a failure |
| IntReaders.CommentEndsAtEol | djvu/internal/bytestream/reader.go:28-37 | a comment loop over bytes without a line end stops just after the first CR or LF |
| IntReaders.CommentRunsOut | djvu/internal/bytestream/reader.go:28-33 | a comment without a line end runs into the end of the data and records its fault |
| IntReaders.DigitStep | djvu/internal/bytestream/reader.go:52 | accumulating one more digit modulo 2^32 keeps the value of the digits so far, modulo 2^32 |
| IntReaders.DigitsValue | djvu/internal/bytestream/reader.go:50-57 | the digit loop accumulates the whole digit run modulo 2^32 and stops just past the byte that ends it, or fails at the end of data |
| IntReaders.LayoutAfterBlank | djvu/internal/bytestream/reader.go:26-43 | a blank is skipped: the scan continues as though it started one byte later |
| IntReaders.LayoutAfterHash | djvu/internal/bytestream/reader.go:26-43 | a `#` skips to just past the next line end, or fails at the end of data |
| IntReaders.LayoutAfterDigit | djvu/internal/bytestream/reader.go:45-59 | a scan that reaches a digit reads the digit run and the byte after it |
| IntReaders.ScanMatchesGrammar | djvu/internal/bytestream/reader.go:21-60 | for either byte reader, the scan loops give the same result and end position as the declarative grammar: blanks, comments to end of line, digits and one terminator; running out of data is a read failure; any other first byte is "no integer" |
| IntReaders.ScanInteger | djvu/internal/bytestream/reader.go:21-60 | the scan from a reader whose B is preset to LF never moves back; IntReaders.ScanMatchesGrammar proves it equal to the declarative grammar |
| IntReaders.ReadInteger | djvu/internal/bytestream/reader.go:18-60 | returns the grammar's value or error and consumes its bytes; a read failure is recorded in the Reader, while a missing integer leaves its recorded error alone |
| IntReaders.ScanReadsDecimal | djvu/internal/bytestream/reader.go:45-59 | any number below 2^32, written in decimal and ended by a non-digit, is read back as itself, and the scan stops just past the terminator |
| IntReaders.ScanReadsDigits | djvu/internal/bytestream/reader.go:45-59 | any digit run ended by a non-digit is read as its decimal value modulo 2^32 |
| Pbm.SkipBlanksFinds | djvu/image/bitmap_stream.go:119-123 | the blank loop of the P1 reader stops on the first non-blank byte, or fails at the end of data |
| Pbm.SkipBlanks | djvu/image/bitmap_stream.go:119-123 | the P1 blank loop never moves back and keeps the reader's failure mode; Pbm.SkipBlanksFinds states where it stops |
| Pbm.TextPixel | djvu/image/bitmap_stream.go:116-132 | a P1 pixel is the first non-blank byte: '1' is black and '0' white, and the byte is consumed; any other byte is a bad PBM; no such byte is a read failure |
| Pbm.MaskTest | djvu/image/bitmap_stream.go:175 | testing the k-th single-bit mask with `&` reads bit k of the byte, most significant bit first |
| Pbm.MaskShift | djvu/image/bitmap_stream.go:180 | shifting the mask right walks the eight masks in order, then reaches 0 |
| Pbm.PackedStep | djvu/image/bitmap_stream.go:168-180 | one column of the P4 loop reads bit c mod 8 of byte c / 8 of the row and moves on to the next column's state |
| Pbm.PackedRowReads | djvu/image/bitmap_stream.go:168-181 | the P4 column loop returns the row's bits when its bytes are there, and otherwise fails the way the stream does |
| Pbm.PackedRow | djvu/image/bitmap_stream.go:168-181 | the P4 column loop, a new byte whenever the mask runs out: a success adds one pixel per remaining column and stays within the data; Pbm.PackedRowReads states the bits it returns |
| Pbm.RawRowReads | djvu/image/bitmap_stream.go:165-182 | a P4 row succeeds exactly when its ceil(ncols/8) bytes are there; it then returns their bits, most significant first, and stops right after them; otherwise it fails with the stream's fault |
| Pbm.RawRow | djvu/image/bitmap_stream.go:165-182 | one P4 row with the mask restarted at 0: a success has ncols pixels and ends within the data; Pbm.RawRowReads states exactly when it succeeds and what it returns |
| Pbm.PackedBitsOfPackRow | djvu/image/bitmap_stream.go:175-180 | unpacking a packed bilevel row gives the row back |
| Pbm.RawRowReadsPackedRow | djvu/image/bitmap_stream.go:162-185 | reading a packed row, wherever it sits, gives the row and consumes exactly its packed bytes |
| Pgm.GraysFor | djvu/image/bitmap_stream.go:59-63 | one gray level per sample value, capped at 256 |
| Pgm.MaxBin | djvu/image/bitmap_stream.go:189-192 | 256 or 65536, always above any maxval the decoder accepts |
| Pgm.TextRamp | djvu/image/bitmap_stream.go:140-143 | the P2 ramp has maxval + 1 entries |
| Pgm.RawRamp | djvu/image/bitmap_stream.go:194-197 | the P5 ramp has maxbin - 1 entries, one fewer than there are samples |
| Pgm.RampEntryExact | djvu/image/bitmap_stream.go:142 | no uint32 or byte conversion in a ramp entry wraps: the entry is the rounded rescaled distance from white, at most grays - 1 |
| Pgm.RampShape | djvu/image/bitmap_stream.go:140-143 | ramp entries are at most grays - 1 and non-increasing; entry 0 is black when maxval >= 1; entries from maxval on are white |
| Pgm.TextRampEndsWhite | djvu/image/bitmap_stream.go:140-143 | the sample maxval maps to white, and the sample 0 to black |
| Pgm.OfIntError | djvu/image/bitmap_stream.go:151-154 | a failed scan stays a read failure with the same fault; a missing integer is its own error |
| Pgm.TextGray | djvu/image/bitmap_stream.go:150-156 | a P2 pixel is the ramp entry of the next integer on the stream; a sample past the ramp is the index panic; a scan failure is passed on |
| Pgm.RawGray | djvu/image/bitmap_stream.go:201-220 | a P5 pixel is the ramp entry of the next big-endian byte pair (or single byte, in the branch never taken); a sample past the ramp is the index panic; too few bytes is a read failure |
| Pgm.RawGrayReadsSample | djvu/image/bitmap_stream.go:202-212 | a stored 16-bit sample reads as its ramp entry and consumes two bytes; 65535 lies past the ramp |
| Pgm.EightBitSamplesReadAsPairs | djvu/image/bitmap_stream.go:189-212 | with an 8-bit maxval, the samples 0 and 255 are read together as index 255, one past the ramp |
| Rle.RunLength | djvu/image/bitmap_stream.go:235-245 | a first byte below 0xC0 is the run length; otherwise the length is (first - 0xC0) * 256 + second; a length never exceeds 0x3FFF; running out of data is a read failure |
| Rle.RunRow | djvu/image/bitmap_stream.go:234-261 | a completed row has exactly ncols pixels, and the scan moves forward |
| Rle.RunRowExtends | djvu/image/bitmap_stream.go:251-255 | the run loop only appends to the row built so far, and only 0s and 1s |
| Rle.RleRow | djvu/image/bitmap_stream.go:227-262 | a decoded row has ncols pixels and consumes at least one byte |
| Rle.RleRowBilevel | djvu/image/bitmap_stream.go:229-255 | an R4 row holds only the two colours |
| Rle.RunLengthReadsRunBytes | djvu/image/bitmap_stream.go:238-245 | a run length of at most 0x3FFF, in one byte or two, reads back as itself |
| Rle.OvershootLosesSync | djvu/image/bitmap_stream.go:247-249 | a run longer than the rest of the row is a lost-sync error |
| Rle.TwoWhiteTwoBlack | djvu/image/bitmap_stream.go:251-256 | the runs [2, 2] decode to the row [0, 0, 1, 1], white first |
| Rle.RunRowReadsEncoding | djvu/image/bitmap_stream.go:234-262 | reading the maximal-run encoding of the rest of a row completes the row and stops right after the encoding |
| Rle.CutRunReadsBack | djvu/image/bitmap_stream.go:244-256 | a run longer than 0x3FFF, stored as 0x3FFF pixels, an empty run of the other colour and the rest, is read back |
| Rle.NextRunReadsBack | djvu/image/bitmap_stream.go:251-255 | a run that leaves part of the row is read back, and the loop continues with the other colour |
| Rle.LastRunReadsBack | djvu/image/bitmap_stream.go:256-261 | the run that fills the row is read back, and the row ends after it |
| Rle.RleRowReadsEncodedRow | djvu/image/bitmap_stream.go:227-262 | reading an encoded bilevel row, wherever it sits, gives the row and stops right after its encoding |
| BitmapStream.Pixel | djvu/image/bitmap_stream.go:115-156 | a P1, P2 or P5 pixel that reads successfully consumes at least one byte and is a value the format allows: 0 or 1, or a ramp entry |
| BitmapStream.PixelRow | djvu/image/bitmap_stream.go:115-133 | a completed row of single pixels has ncols pixels |
| BitmapStream.ReadRow | djvu/image/bitmap_stream.go:109-265 | a row read by any format has ncols pixels and never moves back in the stream |
| BitmapStream.ReadRowAllowed | djvu/image/bitmap_stream.go:109-265 | every pixel of a row read is a value the format allows |
| BitmapStream.ReadRowsShape | djvu/image/bitmap_stream.go:112-134 | the row loop yields nrows rows of ncols allowed values each |
| BitmapStream.ReadRows | djvu/image/bitmap_stream.go:112-134 | the row loop, top row first, each row starting where the last ended: a success has k rows and ends within the data; BitmapStream.ReadRowsShape and BitmapStream.ReadRowsReadsImage describe the rows |
| BitmapStream.ReadImage | djvu/image/bitmap_stream.go:109-265 | a successful read changes only the bytes of the bitmap, and each byte keeps its value or holds a value the format allows; when no index wraps, border bytes keep their value and every pixel byte holds an allowed value |
| BitmapStream.StoredAllowed | djvu/image/bitmap_stream.go:109-265 | storing rows of allowed values leaves each byte unchanged or allowed, and, without the wrap, the border unchanged |
| BitmapStream.ReadHeader | djvu/image/bitmap_stream.go:16-35 | a header read in full yields two magic bytes and width and height below 2^16 |
| BitmapStream.NewBitmapFromStream | djvu/image/bitmap_stream.go:15-107 | a decoded bitmap is valid and has at least one row |
| BitmapStream.Allocate | djvu/image/bitmap_stream.go:36-39 | a decoded image has exactly the header's size and the requested border |
| BitmapStream.Dispatch | djvu/image/bitmap_stream.go:41-106 | fails with invalid magic exactly when the magic is none of P1, P2, P4, P5, R4; a decoded image keeps the allocated size |
| BitmapStream.ReadGray | djvu/image/bitmap_stream.go:51-92 | a maxval that does not scan fails with its scan error; a maxval above 65535 fails as too deep; a decoded image has min(maxval, 255) + 1 gray levels for the maxval scanned, and keeps its size |
| BitmapStream.Decode | djvu/image/bitmap_stream.go:112 | the pixel stage fails with NoRows exactly when the bitmap has no rows; otherwise only the bytes change |
| BitmapStream.PlainPixelReads | djvu/image/bitmap_stream.go:116-132 | a '0' or '1' written for a pixel reads back as that pixel |
| BitmapStream.PlainRowRead | djvu/image/bitmap_stream.go:115-133 | a row written as P1 digits reads back and consumes exactly its digits |
| BitmapStream.PackedRowRead | djvu/image/bitmap_stream.go:162-185 | a row packed as P4 reads back and consumes exactly its bytes |
| BitmapStream.RleRowRead | djvu/image/bitmap_stream.go:227-262 | a row run-length encoded as R4 reads back and consumes exactly its encoding |
| BitmapStream.ReadRowsReadsImage | djvu/image/bitmap_stream.go:112-134 | the rows of an encoded bilevel image read back in order, and reading ends right after the encoding |
| BitmapStream.ReadImageReadsEncoding | djvu/image/bitmap_stream.go:109-265 | decoding an encoded bilevel image into a bitmap of its size stores exactly that image at the readers' indices |
| BitmapStream.ReadHeaderReadsHeader | djvu/image/bitmap_stream.go:16-35 | a written header (magic, width, blank, height, newline) reads back with an error-free Reader just past it |
| BitmapStream.WidthScan | djvu/image/bitmap_stream.go:22-25 | the first scan reads the width and stops just past the blank |
| BitmapStream.HeightScan | djvu/image/bitmap_stream.go:29-32 | the second scan reads the height and stops just past the header |
| BitmapStream.WideHeaderGivesNothing | djvu/image/bitmap_stream.go:26-28 | a width of 65536 or more yields neither a bitmap nor an error |
| BitmapStream.TallHeaderGivesNothing | djvu/image/bitmap_stream.go:33-35 | so does a height of 65536 or more |
| BitmapStream.UnknownMagicRejected | djvu/image/bitmap_stream.go:106 | an unknown magic is rejected after allocation, whatever follows the header |
| BitmapStream.NoRowsRejected | djvu/image/bitmap_stream.go:112 | a bilevel header with zero rows fails with NoRows |
| BitmapStream.DispatchBilevel | djvu/image/bitmap_stream.go:41-104 | P1, P4 and R4 each select their own bilevel reader |
| BitmapStream.BilevelStreamRoundTrip | djvu/image/bitmap_stream.go:15-107 | a bilevel image written as a P1, P4 or R4 stream decodes to the bitmap NewBitmap allocates, with exactly those rows stored in it at the readers' indices (the intended layout when no index wraps) |
| BitmapStream.P1WrapWritesBorder | djvu/image/bitmap_stream.go:109-134 | decoding `P1 1 256` followed by 256 pixels, with border 256, gives a bitmap whose border byte 255 holds the first pixel of the file |
| Writers.NewWriter | djvu/internal/bytestream/writer.go:11-16 | no error, nothing written |
| Writers.Put | djvu/internal/bytestream/writer.go:23 | the underlying write appends the prefix of the bytes that fits, and reports an error exactly when that is not all of them |
| Writers.Write8 | djvu/internal/bytestream/writer.go:18-25 | does nothing after an error; otherwise appends the byte, or records a short write when the writer is full |
| Writers.Write16 | djvu/internal/bytestream/writer.go:27-39 | does nothing after an error; otherwise appends two bytes that read back big-endian as v, or records a short write |
| Writers.Error | djvu/internal/bytestream/writer.go:41 | reports whether an error is recorded |
| Writers.ClearError | djvu/internal/bytestream/writer.go:43 | forgets the error and keeps what was written |
| Writers.Write16IsTwoWrite8 | djvu/internal/bytestream/writer.go:27-39 | writing 16 bits is writing the high byte then the low byte, even when the writer fills up in between |
| Writers.ErrorIsSticky | djvu/bytestream/bytestream.go:23-25 | once an error is recorded, a chain of writes changes nothing |
| Writers.RunStoresPrefix | djvu/bytestream/bytestream.go:38-64 | a chain of writes on a healthy writer stores the longest prefix of its bytes that fits, and ends in error exactly when they do not all fit |
| InfoChunk.NewInfo | djvu/info.go:42 | every field zero |
| InfoChunk.BytesToUint16 | djvu/info.go:218-221 | the first byte is the high byte: splitting the result gives the two bytes back |
| InfoChunk.JoinSplit | djvu/info.go:218-221 | joining the high and low bytes of a 16-bit value gives the value |
| InfoChunk.OrientationOfFlags | djvu/info.go:94-107 | the low three bits of the flags, when they name an orientation, are that orientation; any other code is ORIENTATION_0 |
| InfoChunk.DecodeBuffer | djvu/info.go:67-107 | width and height high byte first; version low byte first, with its high byte ignored when 0xff; dpi low byte first, with 300 used when its high byte is 0xff or the value lies outside [25, 6000]; gamma clamped to [0.3, 5.0], a byte below taking 0.3 and one above taking 5.0; the orientation is `flags & 7` when that names one, and 0 otherwise |
| InfoChunk.Decode | djvu/info.go:47-110 | succeeds exactly when ten bytes are there, decodes them and consumes them; on failure it keeps the defaults (version 26, 300 dpi, gamma 2.2, orientation 0) and has consumed the bytes that were left; either way the orientation has a name other than "unknown" |
| InfoChunk.ShortChunkIsConsumed | djvu/info.go:56-59 | fewer than ten bytes before the end of data give an unexpected-EOF failure, the defaults, and a position past those bytes |
| InfoChunk.FlagsOf | djvu/info.go:116-126 | a named orientation is written as itself, anything else as ORIENTATION_0 |
| InfoChunk.EncodedBytes | djvu/info.go:128-135 | ten bytes: width and height high byte first, version and dpi low byte first, then gamma and flags |
| InfoChunk.Encode | djvu/info.go:115-137 | on a writer that already holds an error, nothing is written and that error is returned; otherwise all ten bytes are written exactly when they fit, and an error is returned otherwise, with the part that fit written |
| InfoChunk.EncodingOfInfo | djvu/info.go:128-135 | the chain of writes Encode issues produces exactly the ten encoded bytes |
| InfoChunk.DecodeEncode | djvu/info.go:47-137 | decoding what Encode wrote restores width, height and any named orientation; the version unless its high byte is 0xff; the dpi when it lies in [25, 6000], and 300 otherwise; gamma when it lies in [0.3, 5.0] |
| InfoChunk.OrientationName | djvu/info.go:203-216 | exactly the four named orientations have a name other than "unknown" |

## Left out

- `Rect.Scale` and `Rect.ScaleXY` work on float64 factors, which the model does not represent. `Rect.Recthull` only panics ("unimplemented").
- `Bitmap.Copy`, `CopyWithBorder`, `CopySection`, `Fill` and the `NewBitmapFromStream` of bitmap.go only panic ("unimplemented"). The mutex and the `zerobuffer` of `Init` are left out too: locking has no single-threaded meaning, and the buffer is never read by the modelled code.
- The `Gamma` field of `Info` is a float64. The model keeps it in tenths, as a byte. It assumes `0.1 * b` and `uint8(10*g + 0.5)` are exact for the bytes involved; floating-point rounding is not modelled.
- `Info.GetParamtags` (string formatting) and `GetMemoryUsage` (`unsafe.Sizeof`) are left out.
- `Info.Decode`'s branches for fewer than ten bytes (`size == 0`, `size < 5`, `size > k`) are dead code, because `io.ReadAtLeast` succeeds only with all ten bytes. They are not modelled separately.
- Streams are a byte sequence followed by a failure. The model does not cover:
  - an `io.Reader` that returns a byte and an error together;
  - short reads in the middle of the data;
  - the read-ahead of `bufio`.
  Each pixel reader runs to the end of the image on its own reader, so the read-ahead changes nothing the model observes.
- The wording of errors is not modelled. Errors are datatype constructors.
- Writers fail in one way only: the underlying `io.Writer` has a fixed capacity, stores the prefix that fits and then reports a short write. A writer that fails before it is full, or that fails without storing that prefix, is not modelled. Writers.RunStoresPrefix's "longest prefix that fits" rests on this choice.
- BitmapStream.Decode and BitmapStream.NoRowsRejected: a bitmap with zero rows is not decoded; the model returns `NoRows`. In Go, `nrows-1` wraps to 65535 when nrows is 0, so the row-loop test `rr <= nrows-1` never fails and the loops do not end by themselves. With zero columns too, the P1, P2, P4 and P5 readers loop forever without reading, and the R4 reader reads runs until one is nonzero (lost sync) or the stream fails. With columns, a reader stops at the first read failure, malformed pixel, lost sync or gray sample beyond its ramp; otherwise it panics at its first write, because the store is empty. The model does not describe these outcomes.
- A failing pixel reader has already written part of the bitmap in Go. The model returns no bitmap, as the decoder does, so those partial writes are not modelled.
- PixelStore.OffsetTarget: states the intended offset. The readers compute that offset only while `nrows*bytesPerRow <= 65536`; their index is PixelStore.GoIndex, and Findings records the difference.
- PixelStore.TargetOffset: states the same intended offset as PixelStore.OffsetTarget.
- PixelStore.StoreRowsWrites: describes the intended row loops. The readers' loops are PixelStore.PutRows, which PixelStore.PutRowsUnwrapped proves equal to them when no index wraps.
- PixelStore.Store: the intended layout. The decoder stores with PixelStore.StoreAsWritten, which equals it when no index wraps.
- PixelStore.StorePlacesPixels: placement at the intended offsets. Once the index wraps, a pixel lands at PixelStore.GoIndex instead, and a later pixel with the same index overwrites it.
- PixelStore.StoreOnlyWritesPixels: holds for the intended store. The readers' store writes a border byte once the index wraps (PixelStore.WrapWritesBorder).
- BitmapStream.ReadImage: promises a white border and allowed values in every pixel byte only while no index wraps. Past that bound it promises only that each byte is unchanged or holds a value the format allows.
- The R4 writer used for the round trip counts any nonzero pixel as black. Only bilevel rows are fed to it.
- The P2 and P5 readers are covered by per-pixel and ramp properties, not by a whole-image round trip.
- The DjVu document, port and IW44 layers, and `RectMapper`'s mapping methods (`Map`, `Unmap`, `Rotate`), are not part of this model.
- Bitmaps.Rows and Bitmaps.Cols require a valid bitmap: every bitmap the model builds comes from `Init` or `NewEmptyBitmap`, which guarantees its fields fit.
- Rects.NewRect: the width and height equal the absolute values of the arguments only when `xmin + width` does not overflow and width is not MinInt32; with overflow, only the ordering of the bounds is stated.
- Rects.Area: the exact area is stated only when it fits an int32; otherwise the wrapped product is all that is promised.
- Rects.TranslateEmpty: holds only without overflow. Rects.TranslateEmptyCanWrap gives a wrapped translation of an empty rectangle that comes out non-empty.
- Rects.InflateGrows and Rects.TranslateKeepsSize: stated only without int32 overflow.
- Ratios.NewRatio: keeping the value is stated except when q is negative and p or q is MinInt32. Negation wraps there, and the denominator stays negative when q is MinInt32.
- Ratios.RMul and Ratios.RDiv: the rounding bounds are stated for a positive divisor and a result that fits an int32. The truncation of a larger result is modelled but not characterised.
- Ratios.DivAfterMulWithinOne: stated for ratios of at least one. Ratios.DivAfterMulCanDrift shows the round trip fails below one.
- InfoChunk.DecodeEncode: gamma outside [0.3, 5.0], a version whose high byte is 0xff, and a dpi outside [25, 6000] are not restored; the decoder replaces them by design.

## Findings

| source | as written | input that shows it | evidently intended | confidence | as-written member | corrected member |
|---|---|---|---|---|---|---|
| djvu/image/bitmap_stream.go:112-113 | `row := rr*b.bytesPerRow + b.border` and the index `row+cc` are uint16, as is the R4 reader's `row` (line 231). Once nrows*bytesPerRow exceeds 65536 the index wraps back to the start of the store. `Init` forces border == nrows, so this happens for every image of 256 or more rows and at least one column, and for smaller images with enough columns | `P1 1 256` and a newline, then 256 pixels, with border 256: file row 0 is written to byte (255*257 + 256) mod 65536 = 255, a border byte | pixel (file row i, column c) at (nrows-1-i)*bytesPerRow + border + c without wrap, so the border stays white | high; not executed | PixelStore.WrapWritesBorder | PixelStore.Store |

The decoder keeps the code's indices (`PixelStore.StoreAsWritten`), so the model decodes what the code decodes. `StoreAsWritten` is proved equal to the corrected `PixelStore.Store` whenever `nrows*bytesPerRow <= 65536`. That carries the corrected store's properties to the decoder on those images: placement, a white border, and the stream round trip. `BitmapStream.P1WrapWritesBorder` shows the same input at stream level.

=== FILE: arith.dfy ===
/** Facts about Euclidean division and greatest common divisors that
    the ratio arithmetic relies on. */
module Arith {

  /** Division and remainder are determined by any decomposition
      x == q*d + m with 0 <= m < d. */
  lemma DivModUnique(x: int, d: int, q: int, m: int)
    requires d > 0 && 0 <= m < d && x == q * d + m
    ensures x / d == q && x % d == m
  {
    var q', m' := x / d, x % d;
    assert q' * d + m' == x;
    assert (q - q') * d == m' - m;
    if q > q' {
      MulAtLeast(q - q', d);
      assert false;
    } else if q < q' {
      MulAtLeast(q' - q, d);
      assert false;
    }
  }

  lemma MulAtLeast(k: int, d: int)
    requires k >= 1 && d > 0
    ensures k * d >= d
  {
    assert k * d == (k - 1) * d + d;
    assert (k - 1) * d >= 0;
  }

  /** Multiplication by a non-negative factor is monotone. */
  lemma MulMono(a: int, b: int, k: int)
    requires a <= b && k >= 0
    ensures a * k <= b * k
  {
    assert b * k - a * k == (b - a) * k;
  }

  /** Monotonicity with the factor on the left. */
  lemma MulMonoLeft(k: int, a: int, b: int)
    requires a <= b && k >= 0
    ensures k * a <= k * b
  {
    MulMono(a, b, k);
  }

  /** Multiplying by n and dividing by n gives the number back. */
  lemma CancelLeft(n: int, k: int)
    requires n > 0
    ensures (n * k) / n == k
  {
    MultipleMod(k, n);
    assert n * k == k * n;
  }

  /** One more factor of m. */
  lemma MulSucc(k: int, m: int)
    ensures (k + 1) * m == k * m + m
  {
  }

  /** A multiple of d leaves no remainder, and quotient times divisor
      gives back the number. */
  lemma MultipleMod(k: int, d: int)
    requires d > 0
    ensures (k * d) % d == 0 && (k * d) / d == k
  {
    DivModUnique(k * d, d, k, 0);
  }

  /** The remainder of a natural number is at most the number, and is
      the number itself below the divisor. */
  lemma ModBelow(x: int, m: int)
    requires x >= 0 && m > 0
    ensures x % m <= x
    ensures x < m ==> x % m == x
  {
    if x < m {
      DivModUnique(x, m, 0, x);
    }
  }

  /** Scaling both operands scales the remainder. */
  lemma ModScale(k: int, a: int, b: int)
    requires k > 0 && b > 0 && a >= 0
    ensures (k * a) % (k * b) == k * (a % b)
  {
    var q, m := a / b, a % b;
    assert a == q * b + m;
    assert k * a == q * (k * b) + k * m;
    assert k * m < k * b by {
      assert k * b - k * m == k * (b - m);
      assert k * (b - m) >= k by { MulAtLeast(b - m, k); }
    }
    DivModUnique(k * a, k * b, q, k * m);
  }

  /** Integer division is monotone in the dividend. */
  lemma DivMono(a: int, b: int, d: int)
    requires 0 <= a <= b && d > 0
    ensures a / d <= b / d
  {
    var qa, qb := a / d, b / d;
    assert a == qa * d + a % d && b == qb * d + b % d;
    if qa > qb {
      MulMono(qb + 1, qa, d);
    }
  }

  /** A dividend below k * d has a quotient below k. */
  lemma DivBelow(n: int, d: int, k: int)
    requires 0 <= n < k * d && d > 0
    ensures n / d < k
  {
    var q := n / d;
    assert n == q * d + n % d;
    if q >= k {
      MulMono(k, q, d);
    }
  }

  /** Greatest common divisor by Euclid's algorithm. */
  function Gcd(a: nat, b: nat): nat
    decreases b
  {
    if b == 0 then a else Gcd(b, a % b)
  }

  lemma {:induction false} GcdPositive(a: nat, b: nat)
    requires a > 0 || b > 0
    ensures Gcd(a, b) > 0
    decreases b
  {
    if b != 0 {
      GcdPositive(b, a % b);
    }
  }

  lemma {:induction false} GcdSymmetric(a: nat, b: nat)
    ensures Gcd(a, b) == Gcd(b, a)
  {
    if a < b {
      DivModUnique(a, b, 0, a);
      assert Gcd(a, b) == Gcd(b, a % b);
    } else if b < a {
      DivModUnique(b, a, 0, b);
      assert Gcd(b, a) == Gcd(a, b % a);
    }
  }

  /** A number that divides x and y divides c*x + y. */
  lemma DividesCombination(g: int, x: int, y: int, c: int)
    requires g > 0 && x % g == 0 && y % g == 0
    ensures (c * x + y) % g == 0
  {
    var s, t := x / g, y / g;
    assert x == s * g && y == t * g;
    assert c * x == (c * s) * g;
    assert c * x + y == (c * s + t) * g;
    MultipleMod(c * s + t, g);
  }

  /** gcd(k*a, k*b) == k*gcd(a, b). */
  lemma {:induction false} GcdScale(k: nat, a: nat, b: nat)
    requires k > 0
    ensures Gcd(k * a, k * b) == k * Gcd(a, b)
    decreases b
  {
    if b == 0 {
      assert k * b == 0;
    } else {
      assert k * b > 0 by { MulAtLeast(b, k); }
      ModScale(k, a, b);
      assert Gcd(k * a, k * b) == Gcd(k * b, k * (a % b));
      GcdScale(k, b, a % b);
    }
  }

  /** The gcd divides both of its arguments. */
  lemma {:induction false} GcdDivides(a: nat, b: nat)
    requires a > 0 || b > 0
    ensures Gcd(a, b) > 0 && a % Gcd(a, b) == 0 && b % Gcd(a, b) == 0
    decreases b
  {
    GcdPositive(a, b);
    if b == 0 {
      MultipleMod(1, a);
    } else {
      var g := Gcd(a, b);
      var q, r := a / b, a % b;
      assert g == Gcd(b, r);
      GcdDivides(b, r);
      assert b % g == 0 && r % g == 0;
      assert a == q * b + r;
      DividesCombination(g, b, r, q);
      assert (q * b + r) % g == 0;
    }
  }

  lemma CancelFactor(g: int, x: int)
    requires g > 0 && g * x == g
    ensures x == 1
  {
    if x > 1 {
      MulAtLeast(x, g);
      assert g * x == (x - 1) * g + g;
      MulAtLeast(x - 1, g);
    } else if x < 1 {
      assert g * x == g - (1 - x) * g;
      MulAtLeast(1 - x, g);
    }
  }

  /** A number divisible by g is g times its quotient. */
  lemma ExactQuotient(a: int, g: int)
    requires g > 0 && a % g == 0
    ensures a == g * (a / g)
  {
    assert a == (a / g) * g + a % g;
  }

  /** Dividing two positive numbers by their gcd leaves coprime numbers. */
  lemma {:induction false} ReducedIsCoprime(a: nat, b: nat)
    requires a > 0 && b > 0
    ensures Gcd(a, b) > 0 && a % Gcd(a, b) == 0 && b % Gcd(a, b) == 0
    ensures Gcd(a / Gcd(a, b), b / Gcd(a, b)) == 1
  {
    GcdDivides(a, b);
    var g := Gcd(a, b);
    ExactQuotient(a, g);
    ExactQuotient(b, g);
    var a': nat, b': nat := a / g, b / g;
    GcdScale(g, a', b');
    CancelFactor(g, Gcd(a', b'));
  }
}

=== FILE: ascii.dfy ===
/** Character classes and the decimal value of a digit run, shared by the
    two integer scanners. */
module Ascii {
  import opened BoundedInts

  const TAB: byte := 0x09
  const LF: byte := 0x0a
  const CR: byte := 0x0d
  const SPACE: byte := 0x20
  const HASH: byte := 0x23
  const ZERO: byte := 0x30
  const ONE: byte := 0x31
  const TWO: byte := 0x32
  const FOUR: byte := 0x34
  const FIVE: byte := 0x35
  const NINE: byte := 0x39
  const LETTER_P: byte := 0x50
  const LETTER_R: byte := 0x52

  /** Space, tab, carriage return or line feed. */
  predicate IsBlank(b: byte) {
    b == SPACE || b == TAB || b == CR || b == LF
  }

  predicate IsEol(b: byte) {
    b == LF || b == CR
  }

  predicate IsDigit(b: byte) {
    ZERO <= b <= NINE
  }

  /** The value of a run of decimal digits, most significant first. */
  function DecimalValue(s: seq<byte>): nat
    requires forall i :: 0 <= i < |s| ==> IsDigit(s[i])
  {
    if |s| == 0 then 0
    else
      assert IsDigit(s[|s| - 1]);
      DecimalValue(s[..|s| - 1]) * 10 + (s[|s| - 1] as int - ZERO as int)
  }

  /** The decimal digits of n, most significant first, with no leading
      zero: how an integer is written in a PNM header. */
  function Decimal(n: nat): (s: seq<byte>)
    ensures |s| >= 1
    ensures forall i :: 0 <= i < |s| ==> IsDigit(s[i])
  {
    if n < 10 then [(ZERO as nat + n) as byte]
    else Decimal(n / 10) + [(ZERO as nat + n % 10) as byte]
  }

  /** Writing n in decimal and reading the digits back gives n. */
  lemma {:induction false} DecimalValueOfDecimal(n: nat)
    ensures DecimalValue(Decimal(n)) == n
  {
    var s := Decimal(n);
    assert s[..|s| - 1] == (if n < 10 then [] else Decimal(n / 10));
    if n >= 10 {
      DecimalValueOfDecimal(n / 10);
    }
  }

  /** Reducing modulo 2^32 after every step of the decimal accumulation
      gives the same as reducing once at the end. */
  lemma AccumulateMod(a: int, d: int)
    requires a >= 0
    ensures ((a % TWO_TO_THE_32) * 10 + d) % TWO_TO_THE_32 == (a * 10 + d) % TWO_TO_THE_32
  {
    var q := a / TWO_TO_THE_32;
    assert a == q * TWO_TO_THE_32 + a % TWO_TO_THE_32;
    assert a * 10 + d == (a % TWO_TO_THE_32) * 10 + d + (q * 10) * TWO_TO_THE_32;
    ShiftByMultiple((a % TWO_TO_THE_32) * 10 + d, q * 10);
  }

  lemma ShiftByMultiple(x: int, k: int)
    ensures (x + k * TWO_TO_THE_32) % TWO_TO_THE_32 == x % TWO_TO_THE_32
  {
    var m := x % TWO_TO_THE_32;
    assert x == (x / TWO_TO_THE_32) * TWO_TO_THE_32 + m;
    assert x + k * TWO_TO_THE_32 == (x / TWO_TO_THE_32 + k) * TWO_TO_THE_32 + m;
  }
}

=== FILE: bitmap.dfy ===
/** image/bitmap.go: bilevel and gray-level images stored one byte per
    pixel in rows of bytesPerRow bytes, with a white border. */
module Bitmaps {
  import opened BoundedInts
  import opened Results
  import Arith

  /** The width of the size fields. bitmap.go declares them uint8, while
      bitmap_stream.go passes uint16 values to NewBitmap, which only fits
      16-bit fields; the model covers both. */
  datatype FieldWidth = W8 | W16

  function Modulus(w: FieldWidth): (m: nat)
    ensures m == TWO_TO_THE_8 || m == TWO_TO_THE_16
  {
    if w == W8 then TWO_TO_THE_8 else TWO_TO_THE_16
  }

  datatype Bitmap = Bitmap(
    width: FieldWidth,
    nrows: nat,
    ncols: nat,
    border: nat,
    bytesPerRow: nat,
    grays: nat,
    bytes: seq<byte>,
    rle: seq<byte>,
    rlerows: seq<seq<byte>>,
    rlelength: uint16)

  datatype BitmapError = SizeExceeded

  /** The shape every bitmap built by Init or NewEmptyBitmap has: fields
      fit their width, rows are ncols + border bytes apart, and the pixel
      store holds nrows rows plus one trailing border. */
  predicate Valid(b: Bitmap) {
    var m := Modulus(b.width);
    b.nrows < m && b.ncols < m && b.border < m && b.bytesPerRow < m && b.grays < m &&
    b.bytesPerRow == b.ncols + b.border &&
    |b.bytes| == b.nrows * b.bytesPerRow + b.border
  }

  /** `NewEmptyBitmap`: zero rows and columns and no pixel store. */
  function NewEmptyBitmap(w: FieldWidth): (b: Bitmap)
    ensures b.width == w
    ensures b.nrows == 0 && b.ncols == 0 && |b.bytes| == 0
  {
    Bitmap(w, 0, 0, 0, 0, 0, [], [], [], 0)
  }

  function Zeros(n: nat): (s: seq<byte>)
    ensures |s| == n && forall i :: 0 <= i < n ==> s[i] == 0
  {
    seq(n, _ => 0)
  }

  /** The overflow check at the top of Init, as written: it compares
      ncols + border with ncols + nrows (both computed in the field
      width), and checks that the pixel count divides back. */
  predicate InitRejects(w: FieldWidth, nrows: nat, ncols: nat, border: nat) {
    var m := Modulus(w);
    var np := U32(nrows * U32(ncols + border) + border);
    U32(ncols + border) != (ncols + nrows) % m ||
    (nrows > 0 && U32(np - border) / nrows != (ncols + border) % m)
  }

  /** With every field below 2^16, the pixel count fits 32 bits. */
  lemma SizeFits(nrows: nat, bpr: nat, border: nat)
    requires nrows < TWO_TO_THE_16 && bpr < TWO_TO_THE_16 && border < TWO_TO_THE_16
    ensures nrows * bpr + border < TWO_TO_THE_32
  {
    Arith.MulMono(nrows, 65535, bpr);
    Arith.MulMonoLeft(65535, bpr, 65535);
  }

  /** Sizes whose border equals the row count and whose ncols + nrows
      does not wrap pass the overflow guard. */
  lemma InitAccepts(w: FieldWidth, nrows: nat, ncols: nat, border: nat)
    requires nrows < Modulus(w) && ncols < Modulus(w) && border < Modulus(w)
    requires border == nrows && ncols + nrows < Modulus(w)
    ensures !InitRejects(w, nrows, ncols, border)
  {
    var m := Modulus(w);
    var k := ncols + border;
    Arith.DivModUnique(ncols + nrows, m, 0, ncols + nrows);
    if nrows > 0 {
      SizeFits(nrows, k, border);
      var np := U32(nrows * k + border);
      assert np - border == nrows * k;
      Arith.CancelLeft(nrows, k);
    }
  }

  /** Any other sizes fail the first comparison: ncols + border differs
      from ncols + nrows, or ncols + nrows wraps below ncols. */
  lemma InitRejectsOthers(w: FieldWidth, nrows: nat, ncols: nat, border: nat)
    requires nrows < Modulus(w) && ncols < Modulus(w) && border < Modulus(w)
    requires !(border == nrows && ncols + nrows < Modulus(w))
    ensures InitRejects(w, nrows, ncols, border)
  {
    var m := Modulus(w);
    assert U32(ncols + border) == ncols + border;
    if ncols + nrows < m {
      Arith.DivModUnique(ncols + nrows, m, 0, ncols + nrows);
    } else {
      Arith.DivModUnique(ncols + nrows, m, 1, ncols + nrows - m);
    }
  }

  /** What the overflow guard accepts: exactly the sizes whose border equals the
      row count and whose ncols + nrows does not wrap the field width. */
  lemma InitAcceptsExactly(w: FieldWidth, nrows: nat, ncols: nat, border: nat)
    requires nrows < Modulus(w) && ncols < Modulus(w) && border < Modulus(w)
    ensures !InitRejects(w, nrows, ncols, border) <==> border == nrows && ncols + nrows < Modulus(w)
  {
    if border == nrows && ncols + nrows < Modulus(w) {
      InitAccepts(w, nrows, ncols, border);
    } else {
      InitRejectsOthers(w, nrows, ncols, border);
    }
  }

  /** `Init`: resize to nrows by ncols with the given border, all pixels
      white, two gray levels, and no run-length data; when the size check
      rejects the sizes the bitmap is left as it was and an error returned. */
  function Init(b: Bitmap, nrows: nat, ncols: nat, border: nat): (r: (Bitmap, Option<BitmapError>))
    requires nrows < Modulus(b.width) && ncols < Modulus(b.width) && border < Modulus(b.width)
    ensures r.1.None? <==> border == nrows && ncols + nrows < Modulus(b.width)
    ensures r.1.Some? ==> r.0 == b && r.1 == Some(SizeExceeded)
    ensures r.1.None? ==> Valid(r.0) && r.0.width == b.width
    ensures r.1.None? ==> r.0.nrows == nrows && r.0.ncols == ncols && r.0.border == border
    ensures r.1.None? ==> r.0.bytesPerRow == ncols + border && r.0.grays == 2
    ensures r.1.None? ==> |r.0.bytes| == nrows * (ncols + border) + border
    ensures r.1.None? ==> forall i :: 0 <= i < |r.0.bytes| ==> r.0.bytes[i] == 0
    ensures r.1.None? ==> r.0.rle == [] && r.0.rlerows == [] && r.0.rlelength == 0
  {
    InitAcceptsExactly(b.width, nrows, ncols, border);
    if InitRejects(b.width, nrows, ncols, border) then (b, Some(SizeExceeded))
    else (Resized(b, nrows, ncols, border), None)
  }

  /** Unsigned arithmetic in a field of the given width. */
  function Field(w: FieldWidth, x: int): (r: nat)
    ensures r < Modulus(w)
    ensures 0 <= x < Modulus(w) ==> r == x
  {
    x % Modulus(w)
  }

  /** The part of Init after the overflow guard: destroy, then set the fields and
      allocate a zeroed store of nrows * bytesPerRow + border bytes (none
      when that is 0). */
  function Resized(b: Bitmap, nrows: nat, ncols: nat, border: nat): (r: Bitmap)
    requires nrows < Modulus(b.width) && ncols < Modulus(b.width) && border < Modulus(b.width)
    requires ncols + border < Modulus(b.width)
    ensures Valid(r) && r.width == b.width
    ensures r.nrows == nrows && r.ncols == ncols && r.border == border
    ensures r.bytesPerRow == ncols + border && r.grays == 2
    ensures forall i :: 0 <= i < |r.bytes| ==> r.bytes[i] == 0
    ensures r.rle == [] && r.rlerows == [] && r.rlelength == 0
  {
    var d := Destroy(b);
    var bpr := Field(b.width, ncols + border);
    SizeFits(nrows, bpr, border);
    var npixels := U32(nrows * bpr + border);
    var bytes := if npixels > 0 then Zeros(npixels) else d.bytes;
    Bitmap(d.width, nrows, ncols, border, bpr, 2, bytes, d.rle, d.rlerows, d.rlelength)
  }

  /** `destroy`: drop the pixel store and the run-length data. */
  function Destroy(b: Bitmap): (r: Bitmap)
    ensures r.bytes == [] && r.rle == [] && r.rlerows == [] && r.rlelength == 0
    ensures r.width == b.width && r.nrows == b.nrows && r.ncols == b.ncols && r.border == b.border
    ensures r.bytesPerRow == b.bytesPerRow && r.grays == b.grays
  {
    b.(bytes := [], rle := [], rlerows := [], rlelength := 0)
  }

  /** `NewBitmap`: a fresh bitmap of the given size, or an error exactly
      when Init rejects the size. */
  function NewBitmap(w: FieldWidth, nrows: nat, ncols: nat, border: nat): (r: Result<Bitmap, BitmapError>)
    requires nrows < Modulus(w) && ncols < Modulus(w) && border < Modulus(w)
    ensures r.Ok? <==> border == nrows && ncols + nrows < Modulus(w)
    ensures r.Ok? ==> r.value == Init(NewEmptyBitmap(w), nrows, ncols, border).0
    ensures r.Ok? ==> Valid(r.value) && r.value.width == w && r.value.grays == 2
    ensures r.Ok? ==> r.value.nrows == nrows && r.value.ncols == ncols && r.value.border == border
  {
    var res := Init(NewEmptyBitmap(w), nrows, ncols, border);
    if res.1.Some? then Err(res.1.value) else Ok(res.0)
  }

  /** `Rows` and `Cols`: the image height and width. */
  function Rows(b: Bitmap): (n: uint32)
    requires Valid(b)
    ensures n == b.nrows
  {
    b.nrows
  }

  function Cols(b: Bitmap): (n: uint32)
    requires Valid(b)
    ensures n == b.ncols
  {
    b.ncols
  }

  /** A bitmap that NewBitmap accepts reports the height and width it
      was asked for. */
  lemma NewBitmapReportsSize(w: FieldWidth, nrows: nat, ncols: nat)
    requires nrows < Modulus(w) && ncols < Modulus(w) && ncols + nrows < Modulus(w)
    ensures NewBitmap(w, nrows, ncols, nrows).Ok?
    ensures Rows(NewBitmap(w, nrows, ncols, nrows).value) as nat == nrows
    ensures Cols(NewBitmap(w, nrows, ncols, nrows).value) as nat == ncols
  {
  }

  /** Re-initialising with the size a bitmap already has whitens it and
      keeps its shape. */
  lemma InitAgainWhitens(b: Bitmap)
    requires Valid(b) && b.border == b.nrows
    ensures var (r, e) := Init(b, b.nrows, b.ncols, b.border);
      e.None? && r.nrows == b.nrows && r.ncols == b.ncols && |r.bytes| == |b.bytes| &&
      forall i :: 0 <= i < |r.bytes| ==> r.bytes[i] == 0
  {
  }
}

=== FILE: bitmap_stream.dfy ===
/** NewBitmapFromStream of image/bitmap_stream.go: read the two magic
    bytes and the width and height of a Netpbm (P1, P2, P4, P5) or RLE
    (R4) image, allocate the bitmap and fill it row by row with the
    reader the magic selects. */
module BitmapStream {
  import opened BoundedInts
  import opened Results
  import opened Sources
  import opened Ascii
  import opened Bitmaps
  import opened PixelStore
  import IntReaders
  import Pbm
  import Pgm
  import Rle

  /** The pixel encoding a magic number selects, with the ramp the gray
      readers map samples through. */
  datatype Format =
    | PbmText                                  // P1
    | PgmText(ramp: seq<byte>)                 // P2
    | PbmRaw                                   // P4
    | PgmRaw(ramp: seq<byte>, maxbin: nat)     // P5
    | RleRaw                                   // R4

  /** Why NewBitmapFromStream failed. */
  datatype StreamError =
    | MagicUnreadable(fault: Fault)
    | ColsUnreadable(intError: IntReaders.IntError)
    | RowsUnreadable(intError: IntReaders.IntError)
    | InitFailed(initError: BitmapError)
    | MaxvalUnreadable(intError: IntReaders.IntError)
    | DepthTooLarge(maxval: nat)
    | NoRows                                   // the row loops wrap around when nrows is 0
    | PixelsUnreadable(pixelError: PixelError)
    | InvalidMagic(magic: seq<byte>)

  /** The values a reader can store: 0 or 1 for the bilevel formats, a
      ramp entry for the gray ones. */
  predicate Allowed(fmt: Format, v: byte) {
    match fmt
    case PgmText(ramp) => v in ramp
    case PgmRaw(ramp, _) => v in ramp
    case _ => v <= 1
  }

  predicate AllAllowed(fmt: Format, row: seq<byte>) {
    forall c :: 0 <= c < |row| ==> Allowed(fmt, row[c])
  }

  /** The formats whose reader handles one pixel at a time. */
  predicate PerPixel(fmt: Format) {
    fmt.PbmText? || fmt.PgmText? || fmt.PgmRaw?
  }

  // ---------------------------------------------------------------------
  // Reading rows.

  /** One pixel of readPbmText, readPgmText or readPgmRaw: its value and
      the stream position after it. */
  function Pixel(src: Source, pos: nat, fmt: Format): (r: Result<(byte, nat), PixelError>)
    requires pos <= |src.data| && PerPixel(fmt)
    ensures r.Ok? ==> pos < r.value.1 <= |src.data| && Allowed(fmt, r.value.0)
  {
    match fmt
    case PbmText => Pbm.TextPixel(src, pos)
    case PgmText(ramp) => Pgm.TextGray(src, pos, ramp)
    case PgmRaw(ramp, maxbin) => Pgm.RawGray(src, pos, ramp, maxbin)
  }

  /** The column loop of the per-pixel readers: pixels |acc| .. ncols-1. */
  function PixelRow(src: Source, pos: nat, fmt: Format, ncols: nat, acc: seq<byte>)
    : (r: Result<(seq<byte>, nat), PixelError>)
    requires pos <= |src.data| && PerPixel(fmt) && |acc| <= ncols
    ensures r.Ok? ==> |r.value.0| == ncols && pos <= r.value.1 <= |src.data|
    decreases ncols - |acc|
  {
    if |acc| == ncols then Ok((acc, pos))
    else
      match Pixel(src, pos, fmt)
      case Err(e) => Err(e)
      case Ok((v, next)) => PixelRow(src, next, fmt, ncols, acc + [v])
  }

  /** The column loop adds only allowed pixels to allowed ones. */
  lemma {:induction false} PixelRowAllowed(src: Source, pos: nat, fmt: Format, ncols: nat, acc: seq<byte>)
    requires pos <= |src.data| && PerPixel(fmt) && |acc| <= ncols && AllAllowed(fmt, acc)
    ensures var r := PixelRow(src, pos, fmt, ncols, acc);
      r.Ok? ==> AllAllowed(fmt, r.value.0)
    decreases ncols - |acc|
  {
    var r := PixelRow(src, pos, fmt, ncols, acc);
    if |acc| < ncols && r.Ok? {
      var px := Pixel(src, pos, fmt);
      var v, next := px.value.0, px.value.1;
      PixelRowAllowed(src, next, fmt, ncols, acc + [v]);
    }
  }

  /** One row of the reader the format selects. */
  function ReadRow(src: Source, pos: nat, fmt: Format, ncols: nat): (r: Result<(seq<byte>, nat), PixelError>)
    requires pos <= |src.data|
    ensures r.Ok? ==> |r.value.0| == ncols && pos <= r.value.1 <= |src.data|
  {
    match fmt
    case PbmRaw => Pbm.RawRow(src, pos, ncols)
    case RleRaw => Rle.RleRow(src, pos, ncols)
    case _ => PixelRow(src, pos, fmt, ncols, [])
  }

  /** Every pixel of a row read is a value the format allows. */
  lemma ReadRowAllowed(src: Source, pos: nat, fmt: Format, ncols: nat)
    requires pos <= |src.data|
    ensures ReadRow(src, pos, fmt, ncols).Ok? ==> AllAllowed(fmt, ReadRow(src, pos, fmt, ncols).value.0)
  {
    match fmt
    case PbmRaw => Pbm.RawRowReads(src, pos, ncols);
    case RleRaw => Rle.RleRowBilevel(src, pos, ncols);
    case _ => PixelRowAllowed(src, pos, fmt, ncols, []);
  }

  /** The row loop: k rows, top row first, each starting where the last ended. */
  function ReadRows(src: Source, pos: nat, fmt: Format, ncols: nat, k: nat)
    : (r: Result<(seq<seq<byte>>, nat), PixelError>)
    requires pos <= |src.data|
    ensures r.Ok? ==> |r.value.0| == k && pos <= r.value.1 <= |src.data|
    decreases k
  {
    if k == 0 then Ok(([], pos))
    else
      match ReadRow(src, pos, fmt, ncols)
      case Err(e) => Err(e)
      case Ok((row, next)) =>
        match ReadRows(src, next, fmt, ncols, k - 1)
        case Err(e) => Err(e)
        case Ok((rest, end)) => Ok(([row] + rest, end))
  }

  /** A successful row loop read its first row, then the rest from
      where that row ended. */
  lemma ReadRowsFirst(src: Source, pos: nat, fmt: Format, ncols: nat, k: nat)
    requires pos <= |src.data| && k > 0 && ReadRows(src, pos, fmt, ncols, k).Ok?
    ensures var first := ReadRow(src, pos, fmt, ncols);
      && first.Ok?
      && ReadRows(src, first.value.1, fmt, ncols, k - 1).Ok?
      && ReadRows(src, pos, fmt, ncols, k).value.0
           == [first.value.0] + ReadRows(src, first.value.1, fmt, ncols, k - 1).value.0
  {
  }

  /** Rows of ncols pixels, each pixel a value the format allows. */
  predicate Shaped(fmt: Format, ncols: nat, rows: seq<seq<byte>>) {
    forall i :: 0 <= i < |rows| ==> |rows[i]| == ncols && AllAllowed(fmt, rows[i])
  }

  /** A shaped row in front of shaped rows. */
  lemma ShapedCons(fmt: Format, ncols: nat, row: seq<byte>, rest: seq<seq<byte>>)
    requires |row| == ncols && AllAllowed(fmt, row) && Shaped(fmt, ncols, rest)
    ensures Shaped(fmt, ncols, [row] + rest)
  {
    forall i | 0 < i < |rest| + 1
      ensures |([row] + rest)[i]| == ncols && AllAllowed(fmt, ([row] + rest)[i])
    {
      assert ([row] + rest)[i] == rest[i - 1];
    }
  }

  /** Every row read has ncols pixels, each one an allowed value. */
  lemma {:induction false} ReadRowsShape(src: Source, pos: nat, fmt: Format, ncols: nat, k: nat)
    requires pos <= |src.data|
    ensures var r := ReadRows(src, pos, fmt, ncols, k);
      r.Ok? ==> Shaped(fmt, ncols, r.value.0)
    decreases k
  {
    var r := ReadRows(src, pos, fmt, ncols, k);
    if k > 0 && r.Ok? {
      ReadRowsFirst(src, pos, fmt, ncols, k);
      var first := ReadRow(src, pos, fmt, ncols);
      ReadRowAllowed(src, pos, fmt, ncols);
      var next := first.value.1;
      ReadRowsShape(src, next, fmt, ncols, k - 1);
      ShapedCons(fmt, ncols, first.value.0, ReadRows(src, next, fmt, ncols, k - 1).value.0);
    }
  }

  /** A reader of image/bitmap_stream.go run on bitmap b: read nrows
      rows, then write them into the pixel store at the indices the code
      computes; a failure leaves no bitmap. Every byte keeps its value or
      holds a value the format allows. When no index wraps, the border
      bytes keep their value and every pixel byte holds an allowed value. */
  function ReadImage(src: Source, pos: nat, b: Bitmap, fmt: Format): (r: Result<Bitmap, PixelError>)
    requires Valid(b) && pos <= |src.data|
    ensures r.Ok? ==> Valid(r.value) && r.value == b.(bytes := r.value.bytes)
    ensures r.Ok? ==> forall j :: 0 <= j < |b.bytes| ==>
      r.value.bytes[j] == b.bytes[j] || Allowed(fmt, r.value.bytes[j])
    ensures r.Ok? && NoWrap(b) ==> forall j :: 0 <= j < |b.bytes| ==>
      (if Target(b, j).None? then r.value.bytes[j] == b.bytes[j] else Allowed(fmt, r.value.bytes[j]))
  {
    ReadRowsShape(src, pos, fmt, b.ncols, b.nrows);
    match ReadRows(src, pos, fmt, b.ncols, b.nrows)
    case Err(e) => Err(e)
    case Ok((rows, _)) =>
      StoredAllowed(b, rows, fmt);
      Ok(StoreAsWritten(b, rows, fmt.RleRaw?))
  }

  /** Storing rows of allowed values leaves every byte as it was or
      allowed; without the wrap, the border as it was. */
  lemma StoredAllowed(b: Bitmap, rows: seq<seq<byte>>, fmt: Format)
    requires Valid(b) && |rows| == b.nrows && Shaped(fmt, b.ncols, rows)
    ensures Fits(b, rows)
    ensures var s := StoreAsWritten(b, rows, fmt.RleRaw?).bytes;
      forall j :: 0 <= j < |b.bytes| ==> s[j] == b.bytes[j] || Allowed(fmt, s[j])
    ensures NoWrap(b) ==> var s := StoreAsWritten(b, rows, fmt.RleRaw?).bytes;
      forall j :: 0 <= j < |b.bytes| ==>
        (if Target(b, j).None? then s[j] == b.bytes[j] else Allowed(fmt, s[j]))
  {
    var s := StoreAsWritten(b, rows, fmt.RleRaw?).bytes;
    forall j | 0 <= j < |b.bytes|
      ensures s[j] == b.bytes[j] || Allowed(fmt, s[j])
    {
      if s[j] != b.bytes[j] {
        var i, c :| 0 <= i < |rows| && 0 <= c < b.ncols && rows[i][c] == s[j] &&
          GoIndex(b, b.nrows - 1 - i, c, fmt.RleRaw?) == j;
        assert Allowed(fmt, rows[i][c]);
      }
    }
    if NoWrap(b) {
      forall j | 0 <= j < |b.bytes|
        ensures if Target(b, j).None? then s[j] == b.bytes[j] else Allowed(fmt, s[j])
      {
        assert s[j] == Layout(b, rows)[j];
      }
    }
  }

  // ---------------------------------------------------------------------
  // The decoder.

  /** The magic bytes of each format. */
  const P1: seq<byte> := [LETTER_P, ONE]
  const P2: seq<byte> := [LETTER_P, TWO]
  const P4: seq<byte> := [LETTER_P, FOUR]
  const P5: seq<byte> := [LETTER_P, FIVE]
  const R4: seq<byte> := [LETTER_R, FOUR]

  /** A header integer too large for the uint16 bitmap sizes. */
  predicate TooLarge(v: uint32) {
    v as nat >= TWO_TO_THE_16
  }

  /** What the header gives: the magic bytes, the image size, and the
      integer Reader positioned after the height. */
  datatype Header = Header(magic: seq<byte>, cols: nat, rows: nat, rd: IntReaders.Reader)

  /** The magic bytes, then width and height with one Reader. A width or
      height above 65535 ends the decoder with neither a bitmap nor an
      error (Ok(None)): the source wraps the nil error of the scan that
      succeeded. */
  function ReadHeader(src: Source): (r: Result<Option<Header>, StreamError>)
    ensures r.Ok? && r.value.Some? ==> var h := r.value.value;
      |h.magic| == 2 && h.cols < TWO_TO_THE_16 && h.rows < TWO_TO_THE_16 && h.rd.pos <= |src.data|
  {
    match ReadFull(src, 0, 2)
    case Err(f) => Err(MagicUnreadable(f))
    case Ok(magic) =>
      var (rd1, cols) := IntReaders.ReadInteger(src, IntReaders.NewReader(2));
      if cols.Err? then Err(ColsUnreadable(cols.error))
      else if TooLarge(cols.value) then Ok(None)
      else
        var (rd2, rows) := IntReaders.ReadInteger(src, rd1);
        if rows.Err? then Err(RowsUnreadable(rows.error))
        else if TooLarge(rows.value) then Ok(None)
        else Ok(Some(Header(magic, cols.value as nat, rows.value as nat, rd2)))
  }

  /** `NewBitmapFromStream`: the header, the bitmap it sizes, then the
      reader the magic selects. */
  function NewBitmapFromStream(src: Source, border: uint16): (r: Result<Option<Bitmap>, StreamError>)
    ensures r.Ok? && r.value.Some? ==> Valid(r.value.value) && r.value.value.nrows >= 1
  {
    var hr := ReadHeader(src);
    if hr.Err? then Err(hr.error)
    else if hr.value.None? then Ok(None)
    else Allocate(src, hr.value.value, border)
  }

  /** `NewBitmap(rows, cols, border)`, then the reader the magic selects. */
  function Allocate(src: Source, h: Header, border: uint16): (r: Result<Option<Bitmap>, StreamError>)
    requires h.cols < TWO_TO_THE_16 && h.rows < TWO_TO_THE_16 && h.rd.pos <= |src.data|
    ensures r.Ok? ==> r.value.Some? && Valid(r.value.value) && r.value.value.nrows == h.rows >= 1
    ensures r.Ok? ==> r.value.value.ncols == h.cols && r.value.value.border == border as nat
  {
    var nb := NewBitmap(W16, h.rows, h.cols, border as nat);
    if nb.Err? then Err(InitFailed(nb.error))
    else
      var b := nb.value;
      assert b.nrows == h.rows && b.ncols == h.cols && b.border == border as nat;
      Dispatch(src, h.magic, h.rd, b)
  }

  /** The switch on the magic bytes. */
  function Dispatch(src: Source, magic: seq<byte>, rd: IntReaders.Reader, b: Bitmap)
    : (r: Result<Option<Bitmap>, StreamError>)
    requires Valid(b) && b.width == W16 && b.grays == 2 && rd.pos <= |src.data|
    ensures r.Ok? ==> r.value.Some? && Valid(r.value.value) && r.value.value.nrows >= 1
    ensures r.Ok? ==> var img := r.value.value;
      img.nrows == b.nrows && img.ncols == b.ncols && img.border == b.border
    ensures magic !in {P1, P2, P4, P5, R4} <==> r == Err(InvalidMagic(magic))
  {
    if magic == P1 then Decode(src, rd.pos, b, PbmText)
    else if magic == P2 then ReadGray(src, rd, b, false)
    else if magic == P4 then Decode(src, rd.pos, b, PbmRaw)
    else if magic == P5 then ReadGray(src, rd, b, true)
    else if magic == R4 then Decode(src, rd.pos, b, RleRaw)
    else Err(InvalidMagic(magic))
  }

  /** The P2 and P5 branches: maxval, the gray count it implies, then the
      text or raw gray reader with its ramp. */
  function ReadGray(src: Source, rd: IntReaders.Reader, b: Bitmap, raw: bool)
    : (r: Result<Option<Bitmap>, StreamError>)
    requires Valid(b) && b.width == W16 && rd.pos <= |src.data|
    ensures r.Ok? ==> r.value.Some? && Valid(r.value.value) && r.value.value.nrows >= 1
    ensures r.Ok? ==> var img := r.value.value;
      img.nrows == b.nrows && img.ncols == b.ncols && img.border == b.border
    ensures var (_, maxval) := IntReaders.ExpectedScan(src, rd.pos);
      && (maxval.Err? ==> r == Err(MaxvalUnreadable(maxval.error)))
      && (maxval.Ok? && maxval.value as nat > Pgm.MAX_MAXVAL ==> r == Err(DepthTooLarge(maxval.value as nat)))
      && (r.Ok? ==> maxval.Ok? && r.value.value.grays == Pgm.GraysFor(maxval.value as nat))
    ensures r.Ok? ==> 1 <= r.value.value.grays <= 256
    ensures !r.Err? || !r.error.InvalidMagic?
  {
    var (rd', maxval) := IntReaders.ReadInteger(src, rd);
    if maxval.Err? then Err(MaxvalUnreadable(maxval.error))
    else if maxval.value as nat > Pgm.MAX_MAXVAL then Err(DepthTooLarge(maxval.value as nat))
    else
      var m := maxval.value as nat;
      var gray := b.(grays := Pgm.GraysFor(m));
      if raw then Decode(src, rd'.pos, gray, PgmRaw(Pgm.RawRamp(m), Pgm.MaxBin(m)))
      else Decode(src, rd'.pos, gray, PgmText(Pgm.TextRamp(m)))
  }

  /** The pixel stage of NewBitmapFromStream. */
  function Decode(src: Source, pos: nat, b: Bitmap, fmt: Format): (r: Result<Option<Bitmap>, StreamError>)
    requires Valid(b) && pos <= |src.data|
    ensures r.Ok? ==> r.value.Some? && Valid(r.value.value) && r.value.value.nrows >= 1
    ensures r.Ok? ==> r.value.value == b.(bytes := r.value.value.bytes)
    ensures b.nrows == 0 <==> r == Err(NoRows)
  {
    if b.nrows == 0 then Err(NoRows)
    else
      match ReadImage(src, pos, b, fmt)
      case Err(e) => Err(PixelsUnreadable(e))
      case Ok(img) => Ok(Some(img))
  }

  // ---------------------------------------------------------------------
  // Writing bilevel images: the reference the readers are checked against.

  /** The formats whose pixels are 0 or 1. */
  predicate BilevelFormat(fmt: Format) {
    fmt.PbmText? || fmt.PbmRaw? || fmt.RleRaw?
  }

  /** A bilevel row as P1 writes it: '1' for black, '0' for white. */
  function PlainRow(row: seq<byte>): (s: seq<byte>)
    requires Bilevel(row)
    ensures |s| == |row|
  {
    seq(|row|, c requires 0 <= c < |row| => if row[c] == 1 then ONE else ZERO)
  }

  /** A bilevel row in the format's encoding. */
  function EncodeRow(fmt: Format, row: seq<byte>): seq<byte>
    requires BilevelFormat(fmt) && Bilevel(row)
  {
    if fmt.PbmText? then PlainRow(row)
    else if fmt.PbmRaw? then Pbm.PackRow(row)
    else Rle.EncodeRow(row)
  }

  /** A bilevel image: every row bilevel and ncols wide. */
  predicate BilevelImage(rows: seq<seq<byte>>, ncols: nat) {
    forall i :: 0 <= i < |rows| ==> Bilevel(rows[i]) && |rows[i]| == ncols
  }

  /** The rows of an image one after the other, top row first. */
  function EncodeImage(fmt: Format, rows: seq<seq<byte>>): seq<byte>
    requires BilevelFormat(fmt) && forall i :: 0 <= i < |rows| ==> Bilevel(rows[i])
  {
    if |rows| == 0 then [] else EncodeRow(fmt, rows[0]) + EncodeImage(fmt, rows[1..])
  }

  /** A plain pixel is the '0' or '1' at the position itself. */
  lemma PlainPixelReads(row: seq<byte>, c: nat, src: Source, pos: nat)
    requires Bilevel(row) && c < |row| && pos < |src.data| && src.data[pos] == PlainRow(row)[c]
    ensures Pixel(src, pos, PbmText) == Ok((row[c], pos + 1))
  {
    assert Pbm.NonBlankFrom(src.data, pos) == pos;
  }

  /** The column loop reads a plain row back from column c on. */
  lemma {:induction false} PlainRowReads(row: seq<byte>, c: nat, src: Source, pos: nat)
    requires Bilevel(row) && c <= |row| && Holds(src.data, pos, PlainRow(row))
    ensures PixelRow(src, pos + c, PbmText, |row|, row[..c]) == Ok((row, pos + |row|))
    decreases |row| - c
  {
    if c < |row| {
      assert src.data[pos + c] == src.data[pos..pos + |row|][c] == PlainRow(row)[c];
      PlainPixelReads(row, c, src, pos + c);
      assert row[..c] + [row[c]] == row[..c + 1];
      PlainRowReads(row, c + 1, src, pos);
    } else {
      assert row[..c] == row;
    }
  }

  /** P1: a plain row is read back, wherever it sits. */
  lemma PlainRowRead(row: seq<byte>, src: Source, pos: nat)
    requires Bilevel(row) && Holds(src.data, pos, PlainRow(row))
    ensures ReadRow(src, pos, PbmText, |row|) == Ok((row, pos + |PlainRow(row)|))
  {
    PlainRowReads(row, 0, src, pos);
    assert row[..0] == [];
    ReadRowSelects(src, pos, PbmText, |row|);
  }

  /** P4: a packed row is read back, wherever it sits. */
  lemma PackedRowRead(row: seq<byte>, src: Source, pos: nat)
    requires Bilevel(row) && Holds(src.data, pos, Pbm.PackRow(row))
    ensures ReadRow(src, pos, PbmRaw, |row|) == Ok((row, pos + |Pbm.PackRow(row)|))
  {
    Pbm.RawRowReadsPackedRow(row, src, pos);
    ReadRowSelects(src, pos, PbmRaw, |row|);
  }

  /** R4: a run-length encoded row is read back, wherever it sits. */
  lemma RleRowRead(row: seq<byte>, src: Source, pos: nat)
    requires Bilevel(row) && Holds(src.data, pos, Rle.EncodeRow(row))
    ensures ReadRow(src, pos, RleRaw, |row|) == Ok((row, pos + |Rle.EncodeRow(row)|))
  {
    Rle.RleRowReadsEncodedRow(row, src, pos);
    ReadRowSelects(src, pos, RleRaw, |row|);
  }

  /** Every bilevel reader reads an encoded row back and stops right after it. */
  lemma ReadRowReadsEncoding(fmt: Format, row: seq<byte>, ncols: nat, src: Source, pos: nat, end: nat)
    requires BilevelFormat(fmt) && Bilevel(row) && |row| == ncols && Holds(src.data, pos, EncodeRow(fmt, row))
    requires end == pos + |EncodeRow(fmt, row)|
    ensures ReadRow(src, pos, fmt, ncols) == Ok((row, end))
  {
    match fmt
    case PbmText => PlainRowRead(row, src, pos);
    case PbmRaw => PackedRowRead(row, src, pos);
    case RleRaw => RleRowRead(row, src, pos);
  }

  /** Which reader ReadRow runs for each format. */
  lemma {:induction false} ReadRowSelects(src: Source, pos: nat, fmt: Format, ncols: nat)
    requires pos <= |src.data|
    ensures fmt.PbmRaw? ==> ReadRow(src, pos, fmt, ncols) == Pbm.RawRow(src, pos, ncols)
    ensures fmt.RleRaw? ==> ReadRow(src, pos, fmt, ncols) == Rle.RleRow(src, pos, ncols)
    ensures PerPixel(fmt) ==> ReadRow(src, pos, fmt, ncols) == PixelRow(src, pos, fmt, ncols, [])
  {
  }

  /** Row i is read from ends[i] and stops at ends[i + 1], for every i. */
  predicate Chained(src: Source, fmt: Format, ncols: nat, rows: seq<seq<byte>>, ends: seq<nat>) {
    |ends| == |rows| + 1 &&
    forall i :: 0 <= i < |rows| ==> ends[i] <= |src.data| && ReadRow(src, ends[i], fmt, ncols) == Ok((rows[i], ends[i + 1]))
  }

  /** Rows read one after the other are what the row loop reads, from
      the first end to the last. */
  lemma {:induction false} ReadRowsChain(src: Source, fmt: Format, ncols: nat, rows: seq<seq<byte>>, ends: seq<nat>, pos: nat, end: nat)
    requires Chained(src, fmt, ncols, rows, ends) && ends[0] == pos <= |src.data| && ends[|rows|] == end
    ensures ReadRows(src, pos, fmt, ncols, |rows|) == Ok((rows, end))
    decreases |rows|
  {
    if |rows| > 0 {
      assert ReadRow(src, pos, fmt, ncols) == Ok((rows[0], ends[1]));
      forall i | 0 <= i < |rows| - 1
        ensures ends[1..][i] <= |src.data| && ReadRow(src, ends[1..][i], fmt, ncols) == Ok((rows[1..][i], ends[1..][i + 1]))
      {
        assert ends[1..][i] == ends[i + 1] && ends[1..][i + 1] == ends[i + 2] && rows[1..][i] == rows[i + 1];
      }
      ReadRowsChain(src, fmt, ncols, rows[1..], ends[1..], ends[1], end);
      assert [rows[0]] + rows[1..] == rows;
    }
  }

  /** Where each row of an encoded image starts, and where the last ends. */
  function RowEnds(fmt: Format, rows: seq<seq<byte>>, pos: nat): (ends: seq<nat>)
    requires BilevelFormat(fmt) && forall i :: 0 <= i < |rows| ==> Bilevel(rows[i])
    ensures |ends| == |rows| + 1 && ends[0] == pos
    decreases |rows|
  {
    if |rows| == 0 then [pos]
    else [pos] + RowEnds(fmt, rows[1..], pos + |EncodeRow(fmt, rows[0])|)
  }

  /** The last end is just past the whole encoding. */
  lemma {:induction false} LastEnd(fmt: Format, rows: seq<seq<byte>>, ncols: nat, pos: nat)
    requires BilevelFormat(fmt) && BilevelImage(rows, ncols)
    ensures RowEnds(fmt, rows, pos)[|rows|] == pos + |EncodeImage(fmt, rows)|
    decreases |rows|
  {
    if |rows| > 0 {
      BilevelImageTail(rows, ncols);
      var next := pos + |EncodeRow(fmt, rows[0])|;
      LastEnd(fmt, rows[1..], ncols, next);
      var tail := RowEnds(fmt, rows[1..], next);
      assert RowEnds(fmt, rows, pos) == [pos] + tail;
      assert EncodeImage(fmt, rows) == EncodeRow(fmt, rows[0]) + EncodeImage(fmt, rows[1..]);
    }
  }

  /** Row i's encoding sits at its end, and the next end is just past it. */
  lemma {:induction false} RowPlaced(fmt: Format, rows: seq<seq<byte>>, ncols: nat, src: Source, pos: nat, i: nat)
    requires BilevelFormat(fmt) && BilevelImage(rows, ncols) && Holds(src.data, pos, EncodeImage(fmt, rows))
    requires i < |rows|
    ensures var ends := RowEnds(fmt, rows, pos);
      Holds(src.data, ends[i], EncodeRow(fmt, rows[i])) && ends[i + 1] == ends[i] + |EncodeRow(fmt, rows[i])|
    decreases i
  {
    BilevelImageTail(rows, ncols);
    EncodeImageSplit(fmt, rows, ncols, src, pos);
    var next := pos + |EncodeRow(fmt, rows[0])|;
    var tail := RowEnds(fmt, rows[1..], next);
    assert RowEnds(fmt, rows, pos) == [pos] + tail;
    if i > 0 {
      RowPlaced(fmt, rows[1..], ncols, src, next, i - 1);
      assert rows[i] == rows[1..][i - 1];
    } else {
      assert tail[0] == next;
    }
  }

  /** The rows after the first of a bilevel image form a bilevel image. */
  lemma BilevelImageTail(rows: seq<seq<byte>>, ncols: nat)
    requires |rows| > 0 && BilevelImage(rows, ncols)
    ensures Bilevel(rows[0]) && |rows[0]| == ncols && BilevelImage(rows[1..], ncols)
  {
    forall i | 0 <= i < |rows| - 1
      ensures Bilevel(rows[1..][i]) && |rows[1..][i]| == ncols
    {
      assert rows[1..][i] == rows[i + 1];
    }
  }

  /** An encoded image is its first row's encoding, then the rest's. */
  lemma {:induction false} EncodeImageSplit(fmt: Format, rows: seq<seq<byte>>, ncols: nat, src: Source, pos: nat)
    requires BilevelFormat(fmt) && |rows| > 0 && BilevelImage(rows, ncols) && Holds(src.data, pos, EncodeImage(fmt, rows))
    ensures Holds(src.data, pos, EncodeRow(fmt, rows[0]))
    ensures Holds(src.data, pos + |EncodeRow(fmt, rows[0])|, EncodeImage(fmt, rows[1..]))
    ensures |EncodeImage(fmt, rows)| == |EncodeRow(fmt, rows[0])| + |EncodeImage(fmt, rows[1..])|
  {
    BilevelImageTail(rows, ncols);
    HoldsSplit(src.data, pos, EncodeRow(fmt, rows[0]), EncodeImage(fmt, rows[1..]));
  }

  /** Each row of an encoded image is read back between its two ends. */
  lemma RowsReadAtEnds(fmt: Format, rows: seq<seq<byte>>, ncols: nat, src: Source, pos: nat) returns (ends: seq<nat>)
    requires BilevelFormat(fmt) && BilevelImage(rows, ncols) && Holds(src.data, pos, EncodeImage(fmt, rows))
    ensures Chained(src, fmt, ncols, rows, ends)
    ensures ends[0] == pos && ends[|rows|] == pos + |EncodeImage(fmt, rows)|
  {
    LastEnd(fmt, rows, ncols, pos);
    ends := RowEnds(fmt, rows, pos);
    forall i | 0 <= i < |rows|
      ensures ends[i] <= |src.data| && ReadRow(src, ends[i], fmt, ncols) == Ok((rows[i], ends[i + 1]))
    {
      RowPlaced(fmt, rows, ncols, src, pos, i);
      ReadRowReadsEncoding(fmt, rows[i], ncols, src, ends[i], ends[i + 1]);
    }
  }

  /** The row loop reads an encoded image back, row after row. */
  lemma {:induction false} ReadRowsReadsImage(fmt: Format, rows: seq<seq<byte>>, ncols: nat, src: Source, pos: nat, end: nat)
    requires BilevelFormat(fmt) && BilevelImage(rows, ncols) && Holds(src.data, pos, EncodeImage(fmt, rows))
    requires end == pos + |EncodeImage(fmt, rows)|
    ensures ReadRows(src, pos, fmt, ncols, |rows|) == Ok((rows, end))
  {
    var ends := RowsReadAtEnds(fmt, rows, ncols, src, pos);
    ReadRowsChain(src, fmt, ncols, rows, ends, pos, end);
  }

  /** The rows read into a bitmap of the right size are its pixels. */
  lemma {:induction false} ReadImageReadsEncoding(fmt: Format, rows: seq<seq<byte>>, b: Bitmap, src: Source, pos: nat)
    requires Valid(b) && b.nrows == |rows| && BilevelFormat(fmt) && BilevelImage(rows, b.ncols)
    requires Holds(src.data, pos, EncodeImage(fmt, rows))
    ensures Fits(b, rows) && ReadImage(src, pos, b, fmt) == Ok(StoreAsWritten(b, rows, fmt.RleRaw?))
  {
    ReadRowsReadsImage(fmt, rows, b.ncols, src, pos, pos + |EncodeImage(fmt, rows)|);
  }

  // ---------------------------------------------------------------------
  // The decoder on written streams.

  /** The magic bytes that select a bilevel format. */
  function MagicOf(fmt: Format): (m: seq<byte>)
    requires BilevelFormat(fmt)
    ensures m in {P1, P4, R4}
  {
    if fmt.PbmText? then P1 else if fmt.PbmRaw? then P4 else R4
  }

  /** A header as a writer lays it out: magic, width, a blank, height, a newline. */
  function HeaderBytes(magic: seq<byte>, cols: nat, rows: nat): seq<byte> {
    magic + Decimal(cols) + [SPACE] + Decimal(rows) + [LF]
  }

  /** A written header is read back: its magic, both sizes, and an
      error-free Reader just past the newline. */
  lemma ReadHeaderReadsHeader(magic: seq<byte>, cols: nat, rows: nat, after: seq<byte>, failsAtEnd: bool)
    requires |magic| == 2 && cols < TWO_TO_THE_16 && rows < TWO_TO_THE_16
    ensures var head := HeaderBytes(magic, cols, rows);
      ReadHeader(Source(head + after, failsAtEnd))
        == Ok(Some(Header(magic, cols, rows, IntReaders.Reader(|head|, None))))
  {
    var head := HeaderBytes(magic, cols, rows);
    var src := Source(head + after, failsAtEnd);
    assert src.data[0..2] == magic;
    WidthScan(magic, cols, rows, after, failsAtEnd);
    HeightScan(magic, cols, rows, after, failsAtEnd);
  }

  /** The first scan of a written header reads the width, from just
      after the magic to just after the blank. */
  lemma {:induction false} WidthScan(magic: seq<byte>, cols: nat, rows: nat, after: seq<byte>, failsAtEnd: bool)
    requires |magic| == 2 && cols < TWO_TO_THE_32
    ensures var src := Source(HeaderBytes(magic, cols, rows) + after, failsAtEnd);
      IntReaders.ExpectedScan(src, 2) == (2 + |Decimal(cols)| + 1, Ok(cols as uint32))
  {
    var data := HeaderBytes(magic, cols, rows) + after;
    assert data == magic + Decimal(cols) + [SPACE] + (Decimal(rows) + [LF] + after);
    IntReaders.ScanReadsDecimal(cols, magic, SPACE, Decimal(rows) + [LF] + after, failsAtEnd);
  }

  /** The second scan reads the height and stops just past the header. */
  lemma {:induction false} HeightScan(magic: seq<byte>, cols: nat, rows: nat, after: seq<byte>, failsAtEnd: bool)
    requires |magic| == 2 && rows < TWO_TO_THE_32
    ensures var src := Source(HeaderBytes(magic, cols, rows) + after, failsAtEnd);
      IntReaders.ExpectedScan(src, 2 + |Decimal(cols)| + 1) == (|HeaderBytes(magic, cols, rows)|, Ok(rows as uint32))
  {
    var data := HeaderBytes(magic, cols, rows) + after;
    var before := magic + Decimal(cols) + [SPACE];
    assert data == before + Decimal(rows) + [LF] + after;
    assert |before| == 2 + |Decimal(cols)| + 1;
    assert |HeaderBytes(magic, cols, rows)| == |before| + |Decimal(rows)| + 1;
    IntReaders.ScanReadsDecimal(rows, before, LF, after, failsAtEnd);
  }

  /** A width of 65536 or more ends the decoder with neither a bitmap nor
      an error, whatever follows it. */
  lemma WideHeaderGivesNothing(magic: seq<byte>, cols: nat, rows: nat, after: seq<byte>, failsAtEnd: bool, border: uint16)
    requires |magic| == 2 && TWO_TO_THE_16 <= cols < TWO_TO_THE_32
    ensures NewBitmapFromStream(Source(HeaderBytes(magic, cols, rows) + after, failsAtEnd), border) == Ok(None)
  {
    WidthScan(magic, cols, rows, after, failsAtEnd);
  }

  /** So does a height of 65536 or more under an acceptable width. */
  lemma TallHeaderGivesNothing(magic: seq<byte>, cols: nat, rows: nat, after: seq<byte>, failsAtEnd: bool, border: uint16)
    requires |magic| == 2 && cols < TWO_TO_THE_16 && TWO_TO_THE_16 <= rows < TWO_TO_THE_32
    ensures NewBitmapFromStream(Source(HeaderBytes(magic, cols, rows) + after, failsAtEnd), border) == Ok(None)
  {
    WidthScan(magic, cols, rows, after, failsAtEnd);
    HeightScan(magic, cols, rows, after, failsAtEnd);
  }

  /** Magic bytes other than P1, P2, P4, P5 and R4 are rejected once the
      bitmap is allocated, whatever follows the header. */
  lemma UnknownMagicRejected(magic: seq<byte>, cols: nat, rows: nat, after: seq<byte>, failsAtEnd: bool)
    requires |magic| == 2 && magic !in {P1, P2, P4, P5, R4}
    requires cols + rows < TWO_TO_THE_16
    ensures NewBitmapFromStream(Source(HeaderBytes(magic, cols, rows) + after, failsAtEnd), rows as uint16)
      == Err(InvalidMagic(magic))
  {
    ReadHeaderReadsHeader(magic, cols, rows, after, failsAtEnd);
  }

  /** A bilevel header with no rows fails, whatever follows it. */
  lemma NoRowsRejected(fmt: Format, cols: nat, after: seq<byte>, failsAtEnd: bool)
    requires BilevelFormat(fmt) && cols < TWO_TO_THE_16
    ensures NewBitmapFromStream(Source(HeaderBytes(MagicOf(fmt), cols, 0) + after, failsAtEnd), 0) == Err(NoRows)
  {
    ReadHeaderReadsHeader(MagicOf(fmt), cols, 0, after, failsAtEnd);
  }

  /** The round trip: a bilevel image written as a P1, P4 or R4 stream
      decodes to the bitmap NewBitmap allocates with those rows stored in
      it at the readers' indices, which are the intended offsets when no
      index wraps (StoreAsWritten). NewBitmap succeeds only when the
      border equals the height. */
  lemma {:induction false} BilevelStreamRoundTrip(fmt: Format, rows: seq<seq<byte>>, ncols: nat, after: seq<byte>, failsAtEnd: bool)
    requires BilevelFormat(fmt) && BilevelImage(rows, ncols)
    requires 1 <= |rows| && ncols + |rows| < TWO_TO_THE_16
    ensures var nb := NewBitmap(W16, |rows|, ncols, |rows|);
      var src := Source(HeaderBytes(MagicOf(fmt), ncols, |rows|) + EncodeImage(fmt, rows) + after, failsAtEnd);
      && nb.Ok? && Fits(nb.value, rows)
      && NewBitmapFromStream(src, |rows| as uint16) == Ok(Some(StoreAsWritten(nb.value, rows, fmt.RleRaw?)))
  {
    var head := HeaderBytes(MagicOf(fmt), ncols, |rows|);
    var body := EncodeImage(fmt, rows);
    var src := Source(head + body + after, failsAtEnd);
    assert src.data == head + (body + after);
    ReadHeaderReadsHeader(MagicOf(fmt), ncols, |rows|, body + after, failsAtEnd);
    var h := Header(MagicOf(fmt), ncols, |rows|, IntReaders.Reader(|head|, None));
    assert NewBitmapFromStream(src, |rows| as uint16) == Allocate(src, h, |rows| as uint16);
    var b := NewBitmap(W16, |rows|, ncols, |rows|).value;
    DispatchBilevel(src, fmt, h.rd, b);
    assert src.data[|head|..|head| + |body|] == body;
    ReadImageReadsEncoding(fmt, rows, b, src, |head|);
  }

  /** The switch sends each bilevel magic to its own reader. */
  lemma DispatchBilevel(src: Source, fmt: Format, rd: IntReaders.Reader, b: Bitmap)
    requires Valid(b) && b.width == W16 && b.grays == 2 && rd.pos <= |src.data| && BilevelFormat(fmt)
    ensures Dispatch(src, MagicOf(fmt), rd, b) == Decode(src, rd.pos, b, fmt)
  {
  }

  /** The wrap at stream level: "P1 1 256", then 256 one-pixel rows,
      decoded with border 256 (the only border NewBitmap accepts), gives
      a bitmap whose border byte 255 holds the first pixel of the file. */
  lemma P1WrapWritesBorder(rows: seq<seq<byte>>, after: seq<byte>, failsAtEnd: bool)
    requires |rows| == 256 && BilevelImage(rows, 1)
    ensures var src := Source(HeaderBytes(P1, 1, 256) + EncodeImage(PbmText, rows) + after, failsAtEnd);
      var r := NewBitmapFromStream(src, 256);
      && r.Ok? && r.value.Some?
      && 255 < r.value.value.border && Target(r.value.value, 255).None?
      && r.value.value.bytes[255] == rows[0][0]
  {
    BilevelStreamRoundTrip(PbmText, rows, 1, after, failsAtEnd);
    WrapWritesBorder(rows);
  }
}

=== FILE: bounded.dfy ===
/** Fixed-width integer types of the Go source and the wrap-around of
    its arithmetic, written out explicitly because Dafny integers are
    unbounded. */
module BoundedInts {

  const TWO_TO_THE_8: int := 0x100
  const TWO_TO_THE_16: int := 0x1_0000
  const TWO_TO_THE_32: int := 0x1_0000_0000
  const MIN_INT32: int := -0x8000_0000
  const MAX_INT32: int := 0x7fff_ffff

  type byte = x: int | 0 <= x < TWO_TO_THE_8
  type uint16 = x: int | 0 <= x < TWO_TO_THE_16
  type uint32 = x: int | 0 <= x < TWO_TO_THE_32
  type int32 = x: int | MIN_INT32 <= x <= MAX_INT32

  /** Two's-complement truncation to 32 bits, as Go's int32 arithmetic
      and `int32(...)` conversions do. */
  function Wrap32(x: int): (r: int32)
    ensures MIN_INT32 <= x <= MAX_INT32 ==> r == x
    ensures (x - r) % TWO_TO_THE_32 == 0
  {
    var m := x % TWO_TO_THE_32;
    if m <= MAX_INT32 then m else m - TWO_TO_THE_32
  }

  /** Go's unary minus on an int32: -MinInt32 wraps to MinInt32. */
  function Neg32(x: int32): (r: int32)
    ensures x != MIN_INT32 ==> r == -x
    ensures x == MIN_INT32 ==> r == MIN_INT32
  {
    Wrap32(-(x as int))
  }

  /** Unsigned arithmetic modulo 2^32. */
  function U32(x: int): (r: uint32)
    ensures 0 <= x < TWO_TO_THE_32 ==> r == x
  {
    x % TWO_TO_THE_32
  }

  /** Go's `/` on integers: truncation toward zero (Dafny's `/` is Euclidean). */
  function Quo(a: int, b: int): (r: int)
    requires b != 0
    ensures a >= 0 && b > 0 ==> r == a / b
    ensures a < 0 && b > 0 ==> r == -((-a) / b)
  {
    var q := (if a < 0 then -a else a) / (if b < 0 then -b else b);
    if (a < 0) == (b < 0) then q else -q
  }
}

=== FILE: byte_reader.dfy ===
/** The single-byte readers of internal/bytestream/byte_reader.go and of
    image/io.go: a current byte B, a sticky error E, and a position in
    the underlying stream. */
module ByteReaders {
  import opened BoundedInts
  import opened Results
  import opened Sources

  /** What a reader leaves in B when a read fails. */
  datatype FailedRead =
    | KeepsBuffer  // internal ByteReader: B is reloaded from its one-byte buffer, i.e. the previous byte
    | ZeroesByte   // image bytereader: bufio's ReadByte hands back 0 with the error

  datatype ByteReader = ByteReader(onFailure: FailedRead, pos: nat, buf: byte, B: byte, E: Option<Fault>)

  /** A reader at stream position pos that has read nothing yet. */
  function Fresh(onFailure: FailedRead, pos: nat): (br: ByteReader)
    ensures br.E == None && br.B == 0 && br.pos == pos && br.onFailure == onFailure
  {
    ByteReader(onFailure, pos, 0, 0, None)
  }

  /** The healthy state right after reading byte d from position q. */
  function AfterRead(onFailure: FailedRead, q: nat, d: byte): ByteReader {
    ByteReader(onFailure, q + 1, d, d, None)
  }

  /** `NewByteReader`: B starts at 0 and no error is recorded. */
  function NewByteReader(pos: nat): (br: ByteReader)
    ensures br.E == None && br.B == 0 && br.pos == pos && br.onFailure == KeepsBuffer
  {
    Fresh(KeepsBuffer, pos)
  }

  /** `Advance` (and image/io.go's `advance`): read one byte into B, or
      record the failure in E; do nothing once E is set. */
  function Advance(src: Source, br: ByteReader): (r: ByteReader)
    ensures r.onFailure == br.onFailure
    ensures br.E.Some? ==> r == br
    ensures br.E.None? ==> (r.E.None? <==> br.pos < |src.data|)
    ensures br.E.None? && r.E.None? ==> r.pos == br.pos + 1 && r.B == src.data[br.pos] && r.buf == r.B
    ensures br.E.None? && r.E.Some? ==> r.pos == br.pos && r.E == Some(src.EndFault())
    ensures br.E.None? && r.E.Some? ==> r.B == (if br.onFailure == KeepsBuffer then br.buf else 0)
  {
    if br.E.Some? then br
    else match ReadByte(src, br.pos)
      case Ok(v) => br.(pos := br.pos + 1, buf := v, B := v)
      case Err(f) => br.(B := if br.onFailure == KeepsBuffer then br.buf else 0, E := Some(f))
  }

  /** k calls of Advance in a row. */
  function AdvanceTimes(src: Source, br: ByteReader, k: nat): (r: ByteReader)
    decreases k
  {
    if k == 0 then br else AdvanceTimes(src, Advance(src, br), k - 1)
  }

  /** Once a read has failed, no later Advance reads or changes anything. */
  lemma {:induction false} FailureIsSticky(src: Source, br: ByteReader, k: nat)
    requires br.E.Some?
    ensures AdvanceTimes(src, br, k) == br
    decreases k
  {
    if k > 0 {
      FailureIsSticky(src, Advance(src, br), k - 1);
    }
  }

  /** k advances from a healthy reader deliver the next k bytes of the
      stream in order; running past the data leaves the end-of-data fault
      in E, the position at the end, and in B either the last byte
      delivered (internal reader) or 0 (image reader). */
  lemma {:induction false} AdvanceTimesDelivers(src: Source, br: ByteReader, k: nat)
    requires br.E.None? && br.pos <= |src.data|
    ensures var r := AdvanceTimes(src, br, k);
      if br.pos + k <= |src.data| then
        r.E.None? && r.pos == br.pos + k && (k > 0 ==> r.B == src.data[br.pos + k - 1])
      else
        r.E == Some(src.EndFault()) && r.pos == |src.data| &&
        r.B == (if br.onFailure == ZeroesByte then 0
                else if br.pos < |src.data| then src.data[|src.data| - 1]
                else br.buf)
    decreases k
  {
    if k > 0 {
      var a := Advance(src, br);
      if br.pos < |src.data| {
        AdvanceTimesDelivers(src, a, k - 1);
      } else {
        FailureIsSticky(src, a, k - 1);
      }
    }
  }
}

=== FILE: image_io.dfy ===
/** image/io.go: a buffered byte reader and the integer scan built on it. */
module ImageIo {
  import opened BoundedInts
  import opened Results
  import opened Sources
  import opened ByteReaders
  import opened IntReaders
  import opened Ascii

  /** `newBytereader`: nothing read, no error, B = 0. */
  function NewBytereader(pos: nat): (br: ByteReader)
    ensures br.E == None && br.B == 0 && br.pos == pos && br.onFailure == ZeroesByte
  {
    Fresh(ZeroesByte, pos)
  }

  /** `readInteger`: the same scan as the internal Reader's, returning
      the value (or error) and the position after the bytes it consumed. */
  function ReadInteger(src: Source, pos: nat): (r: (Result<uint32, IntError>, nat))
    ensures (r.1, r.0) == ExpectedScan(src, pos)
  {
    ScanMatchesGrammar(src, ZeroesByte, pos);
    var s := ScanInteger(src, NewBytereader(pos));
    (s.1, s.0.pos)
  }

  /** Although the two byte readers leave different bytes behind after a
      failed read, the two integer scans return the same value or error
      and consume the same bytes on every input. */
  lemma ScannersAgree(src: Source, pos: nat)
    ensures ReadInteger(src, pos).0 == IntReaders.ReadInteger(src, NewReader(pos)).1
    ensures ReadInteger(src, pos).1 == IntReaders.ReadInteger(src, NewReader(pos)).0.pos
  {
  }

  /** A worked example: a comment line, blanks, then "42" and its terminator. */
  lemma ReadsPastComment()
    ensures var src := Source([HASH, 0x78, LF, SPACE, 0x34, 0x32, SPACE, 0x39], false);
      ReadInteger(src, 0) == (Ok(42), 7)
  {
    var src := Source([HASH, 0x78, LF, SPACE, 0x34, 0x32, SPACE, 0x39], false);
    assert EolFrom(src.data, 1) == 2;
    assert DigitsEnd(src.data, 6) == 6;
    assert DigitsEnd(src.data, 5) == 6;
    assert DigitsEnd(src.data, 4) == 6;
    assert src.data[4..6] == [0x34, 0x32];
    assert DecimalValue([0x34, 0x32]) == 42 by {
      assert [0x34, 0x32][..1] == [0x34];
      assert [0x34][..0] == [];
    }
    assert ExpectedScan(src, 4) == (7, Ok(42));
    assert ExpectedScan(src, 3) == (7, Ok(42));
  }
}

=== FILE: info.dfy ===
/** info.go: the INFO chunk of a DjVu file (image size, format version,
    resolution, gamma and orientation) and its ten-byte binary form. */
module InfoChunk {
  import opened BoundedInts
  import opened Results
  import opened Sources
  import Writers

  const DJVUVERSION: uint16 := 26
  const DJVUVERSION_FOR_OUTPUT: uint16 := 24
  const DJVUVERSION_ORIENTATION: uint16 := 22
  const DJVUVERSION_TOO_OLD: uint16 := 15
  const DJVUVERSION_TOO_NEW: uint16 := 50

  /** Orientations, in degrees counterclockwise, as three-bit codes. */
  const ORIENTATION_0: byte := 1
  const ORIENTATION_90: byte := 6
  const ORIENTATION_180: byte := 2
  const ORIENTATION_270: byte := 5

  const DEFAULT_DPI: uint16 := 300
  const MIN_DPI: uint16 := 25
  const MAX_DPI: uint16 := 6000

  /** Gamma is kept in tenths: Decode produces 0.1 * b for a byte b and
      Encode writes back 10 * gamma rounded to the nearest integer. */
  const DEFAULT_GAMMA_TENTHS: byte := 22
  const MIN_GAMMA_TENTHS: byte := 3
  const MAX_GAMMA_TENTHS: byte := 50

  /** The size of the chunk in bytes. */
  const INFO_SIZE: nat := 10

  datatype Info = Info(width: uint16, height: uint16, version: uint16, dpi: uint16,
                       gammaTenths: byte, orientation: byte)

  /** `NewInfo`: Go's zero value. */
  function NewInfo(): (i: Info)
    ensures i.width == 0 && i.height == 0 && i.version == 0 && i.dpi == 0
    ensures i.gammaTenths == 0 && i.orientation == 0
  {
    Info(0, 0, 0, 0, 0, 0)
  }

  /** The values Decode starts from and keeps when the read fails. */
  function Defaults(): Info {
    Info(0, 0, DJVUVERSION, DEFAULT_DPI, DEFAULT_GAMMA_TENTHS, ORIENTATION_0)
  }

  predicate IsNamedOrientation(o: byte) {
    o == ORIENTATION_0 || o == ORIENTATION_90 || o == ORIENTATION_180 || o == ORIENTATION_270
  }

  /** `bytesToUint16(b0, b1)`: b0 is the high byte. */
  function BytesToUint16(b0: byte, b1: byte): (v: uint16)
    ensures Writers.High(v) == b0 && Writers.Low(v) == b1
  {
    b0 * 256 + b1
  }

  /** Splitting a 16-bit value into its bytes and joining them back gives the value. */
  lemma JoinSplit(v: uint16)
    ensures BytesToUint16(Writers.High(v), Writers.Low(v)) == v
  {
  }

  /** The low three bits of the flags byte as an orientation; codes
      without a name read as ORIENTATION_0. */
  function OrientationOfFlags(flags: byte): (o: byte)
    ensures IsNamedOrientation(o)
    ensures IsNamedOrientation(flags % 8) ==> o == flags % 8
    ensures !IsNamedOrientation(flags % 8) ==> o == ORIENTATION_0
  {
    var code := flags % 8;
    if code == ORIENTATION_90 then ORIENTATION_90
    else if code == ORIENTATION_180 then ORIENTATION_180
    else if code == ORIENTATION_270 then ORIENTATION_270
    else ORIENTATION_0
  }

  /** Decoding the ten bytes once they were read. */
  function DecodeBuffer(b: seq<byte>): (i: Info)
    requires |b| == INFO_SIZE
    ensures i.width == b[0] as int * 256 + b[1] as int && i.height == b[2] as int * 256 + b[3] as int
    ensures i.version == (if b[5] != 0xff then b[5] as int * 256 + b[4] as int else b[4] as int)
    ensures var raw := if b[7] != 0xff then b[7] as int * 256 + b[6] as int else DEFAULT_DPI as int;
      i.dpi == (if MIN_DPI <= raw <= MAX_DPI then raw else DEFAULT_DPI)
    ensures MIN_DPI <= i.dpi <= MAX_DPI
    ensures MIN_GAMMA_TENTHS <= i.gammaTenths <= MAX_GAMMA_TENTHS
    ensures MIN_GAMMA_TENTHS <= b[8] <= MAX_GAMMA_TENTHS ==> i.gammaTenths == b[8]
    ensures b[8] < MIN_GAMMA_TENTHS ==> i.gammaTenths == MIN_GAMMA_TENTHS
    ensures b[8] > MAX_GAMMA_TENTHS ==> i.gammaTenths == MAX_GAMMA_TENTHS
    ensures IsNamedOrientation(i.orientation)
    ensures IsNamedOrientation(b[9] % 8) ==> i.orientation == b[9] % 8
    ensures !IsNamedOrientation(b[9] % 8) ==> i.orientation == ORIENTATION_0
  {
    var width := BytesToUint16(b[0], b[1]);
    var height := BytesToUint16(b[2], b[3]);
    var version := if b[5] != 0xff then BytesToUint16(b[5], b[4]) else b[4];
    var dpi0 := if b[7] != 0xff then BytesToUint16(b[7], b[6]) else DEFAULT_DPI;
    var dpi := if dpi0 < MIN_DPI || dpi0 > MAX_DPI then DEFAULT_DPI else dpi0;
    var gamma := if b[8] < MIN_GAMMA_TENTHS then MIN_GAMMA_TENTHS
                 else if b[8] > MAX_GAMMA_TENTHS then MAX_GAMMA_TENTHS
                 else b[8];
    Info(width, height, version, dpi, gamma, OrientationOfFlags(b[9]))
  }

  /** `Decode`: read ten bytes from the stream at pos and decode them. The
      result is the decoded Info, the read failure if any, and the
      position after the read. On a failure the Info holds the defaults
      and io.ReadAtLeast has consumed whatever bytes were left. */
  function Decode(src: Source, pos: nat): (r: (Info, Option<Fault>, nat))
    ensures r.1.None? <==> pos + INFO_SIZE <= |src.data|
    ensures r.1.Some? ==> r.0 == Defaults() && r.2 == (if pos <= |src.data| then |src.data| else pos)
    ensures r.1.None? ==> r.0 == DecodeBuffer(src.data[pos..pos + INFO_SIZE]) && r.2 == pos + INFO_SIZE
    ensures r.1.None? ==> MIN_DPI <= r.0.dpi <= MAX_DPI
    ensures IsNamedOrientation(r.0.orientation) && OrientationName(r.0.orientation) != "unknown"
  {
    match ReadFull(src, pos, INFO_SIZE)
    case Err(f) => (Defaults(), Some(f), if pos <= |src.data| then |src.data| else pos)
    case Ok(b) => (DecodeBuffer(b), None, pos + INFO_SIZE)
  }

  /** The flags byte Encode writes: the orientation code, or ORIENTATION_0
      for a value without a name. */
  function FlagsOf(o: byte): (flags: byte)
    ensures IsNamedOrientation(flags)
    ensures IsNamedOrientation(o) ==> flags == o
  {
    if o == ORIENTATION_90 then ORIENTATION_90
    else if o == ORIENTATION_180 then ORIENTATION_180
    else if o == ORIENTATION_270 then ORIENTATION_270
    else ORIENTATION_0
  }

  /** The chain of writes Encode issues. */
  function EncodeOps(i: Info): seq<Writers.Op> {
    [Writers.Word(i.width), Writers.Word(i.height),
     Writers.Byte(Writers.Low(i.version)), Writers.Byte(Writers.High(i.version)),
     Writers.Byte(Writers.Low(i.dpi)), Writers.Byte(Writers.High(i.dpi)),
     Writers.Byte(i.gammaTenths), Writers.Byte(FlagsOf(i.orientation))]
  }

  /** The ten bytes Encode writes: width and height high byte first,
      version and resolution low byte first, then gamma and flags. */
  function EncodedBytes(i: Info): (b: seq<byte>)
    ensures |b| == INFO_SIZE
    ensures BytesToUint16(b[0], b[1]) == i.width && BytesToUint16(b[2], b[3]) == i.height
    ensures BytesToUint16(b[5], b[4]) == i.version && BytesToUint16(b[7], b[6]) == i.dpi
    ensures b[8] == i.gammaTenths && b[9] == FlagsOf(i.orientation)
  {
    [Writers.High(i.width), Writers.Low(i.width), Writers.High(i.height), Writers.Low(i.height),
     Writers.Low(i.version), Writers.High(i.version), Writers.Low(i.dpi), Writers.High(i.dpi),
     i.gammaTenths, FlagsOf(i.orientation)]
  }

  /** `Encode`: write the chunk through a chaining writer and return it
      with its error. On a writer that already holds an error nothing is
      written and that error is returned. Otherwise all ten bytes are
      written when they fit, and when they do not the writer holds the
      part that fit and an error is returned. */
  function Encode(i: Info, w: Writers.Writer): (r: (Writers.Writer, Option<Writers.WriteFault>))
    requires w.Valid()
    ensures r.0.Valid()
    ensures r.1 == r.0.e
    ensures w.e.Some? ==> r == (w, w.e)
    ensures w.e.None? ==> (r.1.None? <==> (w.capacity.None? || |w.out| + INFO_SIZE <= w.capacity.value))
    ensures w.e.None? && r.1.None? ==> r.0.out == w.out + EncodedBytes(i)
    ensures w.e.None? && r.1.Some? ==> r.0.out == (w.out + EncodedBytes(i))[..w.capacity.value]
  {
    var ops := EncodeOps(i);
    if w.e.Some? then
      Writers.ErrorIsSticky(w, ops);
      var w' := Writers.Run(w, ops);
      (w', Writers.Error(w'))
    else
      Writers.RunStoresPrefix(w, ops);
      EncodingOfInfo(i);
      var w' := Writers.Run(w, ops);
      (w', Writers.Error(w'))
  }

  lemma EncodingOfInfo(i: Info)
    ensures Writers.Encoding(EncodeOps(i)) == EncodedBytes(i)
  {
    var o := EncodeOps(i);
    var t7 := [o[7]];
    var t6 := [o[6]] + t7;
    var t5 := [o[5]] + t6;
    var t4 := [o[4]] + t5;
    var t3 := [o[3]] + t4;
    var t2 := [o[2]] + t3;
    var t1 := [o[1]] + t2;
    assert o == [o[0]] + t1;
    Writers.EncodingCons(o[7], []);
    Writers.EncodingCons(o[6], t7);
    Writers.EncodingCons(o[5], t6);
    Writers.EncodingCons(o[4], t5);
    Writers.EncodingCons(o[3], t4);
    Writers.EncodingCons(o[2], t3);
    Writers.EncodingCons(o[1], t2);
    Writers.EncodingCons(o[0], t1);
  }

  /** A chunk cut short by the end of data fails with io.ErrUnexpectedEOF
      after consuming the bytes that were there, and leaves the defaults. */
  lemma ShortChunkIsConsumed(data: seq<byte>)
    requires 0 < |data| < INFO_SIZE
    ensures Decode(Source(data, false), 0) == (Defaults(), Some(UnexpectedEnd), |data|)
  {
  }

  /** Decoding what Encode wrote restores width, height and every named
      orientation; the version unless its high byte is 0xff; the
      resolution when it lies in [25, 6000] (otherwise 300); and the gamma
      clamped to [0.3, 5.0]. */
  lemma DecodeEncode(i: Info, rest: seq<byte>, failsAtEnd: bool)
    ensures var src := Sources.Source(EncodedBytes(i) + rest, failsAtEnd);
      var d := Decode(src, 0);
      d.1.None? && d.2 == INFO_SIZE &&
      d.0.width == i.width && d.0.height == i.height &&
      (IsNamedOrientation(i.orientation) ==> d.0.orientation == i.orientation) &&
      (!IsNamedOrientation(i.orientation) ==> d.0.orientation == ORIENTATION_0) &&
      (Writers.High(i.version) != 0xff ==> d.0.version == i.version) &&
      (Writers.High(i.version) == 0xff ==> d.0.version == Writers.Low(i.version)) &&
      (MIN_DPI <= i.dpi <= MAX_DPI ==> d.0.dpi == i.dpi) &&
      (!(MIN_DPI <= i.dpi <= MAX_DPI) ==> d.0.dpi == DEFAULT_DPI) &&
      (MIN_GAMMA_TENTHS <= i.gammaTenths <= MAX_GAMMA_TENTHS ==> d.0.gammaTenths == i.gammaTenths)
  {
    var b := EncodedBytes(i);
    var src := Sources.Source(b + rest, failsAtEnd);
    assert src.data[0..INFO_SIZE] == b;
    if Writers.High(i.dpi) == 0xff {
      assert i.dpi >= 0xff00;
    }
  }

  /** `Orientation.String`. */
  function OrientationName(o: byte): (s: string)
    ensures IsNamedOrientation(o) <==> s != "unknown"
  {
    if o == ORIENTATION_0 then "0"
    else if o == ORIENTATION_90 then "90"
    else if o == ORIENTATION_180 then "180"
    else if o == ORIENTATION_270 then "270"
    else "unknown"
  }
}

=== FILE: pbm.dfy ===
/** The bilevel Netpbm readers of image/bitmap_stream.go: plain PBM (P1),
    one '0' or '1' character per pixel, and raw PBM (P4), eight pixels
    per byte. A pixel value of 1 is black. */
module Pbm {
  import opened BoundedInts
  import opened Results
  import opened Sources
  import opened Ascii
  import opened ByteReaders
  import opened PixelStore

  // ---------------------------------------------------------------------
  // P1

  /** The first index at or after i that is not a blank, or |s|. */
  function NonBlankFrom(s: seq<byte>, i: nat): (j: nat)
    requires i <= |s|
    ensures i <= j <= |s|
    ensures forall k :: i <= k < j ==> IsBlank(s[k])
    ensures j < |s| ==> !IsBlank(s[j])
    decreases |s| - i
  {
    if i == |s| || !IsBlank(s[i]) then i else NonBlankFrom(s, i + 1)
  }

  /** The blank-skipping loop of readPbmText. */
  function SkipBlanks(src: Source, br: ByteReader): (r: ByteReader)
    requires br.E.None?
    ensures r.onFailure == br.onFailure && r.pos >= br.pos
    decreases |src.data| - br.pos
  {
    if !IsBlank(br.B) then br
    else
      var a := Advance(src, br);
      if a.E.Some? then a else SkipBlanks(src, a)
  }

  lemma {:induction false} SkipBlanksFinds(src: Source, onFailure: FailedRead, q: nat, j: nat)
    requires q < |src.data| && q <= j <= |src.data|
    requires forall k :: q <= k < j ==> IsBlank(src.data[k])
    requires j < |src.data| ==> !IsBlank(src.data[j])
    ensures var r := SkipBlanks(src, AfterRead(onFailure, q, src.data[q]));
      (j < |src.data| ==> r == AfterRead(onFailure, j, src.data[j])) &&
      (j == |src.data| ==> r.E == Some(src.EndFault()))
    decreases j - q
  {
    if q < j {
      var br := AfterRead(onFailure, q, src.data[q]);
      var a := Advance(src, br);
      if q + 1 < |src.data| {
        assert a == AfterRead(onFailure, q + 1, src.data[q + 1]);
        SkipBlanksFinds(src, onFailure, q + 1, j);
      }
    }
  }

  /** One pixel of `readPbmText`: advance, skip blanks, then '1' is black
      and '0' white. The reader is kept across the whole image, but as
      every pixel starts with an Advance, all that carries over from one
      pixel to the next is the stream position. Equivalently: the pixel is
      the first non-blank byte from pos on, and anything but '0' or '1'
      there is a bad PBM. */
  function TextPixel(src: Source, pos: nat): (r: Result<(byte, nat), PixelError>)
    requires pos <= |src.data|
    ensures var j := NonBlankFrom(src.data, pos);
      if j == |src.data| then r == Err(ReadFailed(src.EndFault()))
      else if src.data[j] == ONE then r == Ok((1, j + 1))
      else if src.data[j] == ZERO then r == Ok((0, j + 1))
      else r == Err(BadPbm)
  {
    var a := Advance(src, NewByteReader(pos));
    if a.E.Some? then Err(ReadFailed(a.E.value))
    else
      SkipBlanksFinds(src, KeepsBuffer, pos, NonBlankFrom(src.data, pos));
      var s := SkipBlanks(src, a);
      if s.E.Some? then Err(ReadFailed(s.E.value))
      else if s.B == ONE then Ok((1, s.pos))
      else if s.B == ZERO then Ok((0, s.pos))
      else Err(BadPbm)
  }

  // ---------------------------------------------------------------------
  // P4

  /** `B & mask != 0`. */
  predicate BitSet(b: byte, mask: byte) {
    (b as bv8) & (mask as bv8) != 0
  }

  /** The mask for column c of a row is MASKS[c % 8]: most significant bit first. */
  const MASKS: seq<byte> := [0x80, 0x40, 0x20, 0x10, 0x08, 0x04, 0x02, 0x01]

  /** Bit k of byte b counting from the most significant one. */
  function MsbBit(b: byte, k: nat): (v: byte)
    requires k < 8
    ensures v == 0 || v == 1
  {
    (b / MASKS[k]) % 2
  }

  /** Testing a single-bit mask with `&` reads that bit. */
  lemma MaskTest(b: byte, k: nat)
    requires k < 8
    ensures BitSet(b, MASKS[k]) <==> MsbBit(b, k) == 1
  {
    if k == 0 { assert BitSet(b, 0x80) == ((b / 0x80) % 2 == 1); }
    else if k == 1 { assert BitSet(b, 0x40) == ((b / 0x40) % 2 == 1); }
    else if k == 2 { assert BitSet(b, 0x20) == ((b / 0x20) % 2 == 1); }
    else if k == 3 { assert BitSet(b, 0x10) == ((b / 0x10) % 2 == 1); }
    else if k == 4 { assert BitSet(b, 0x08) == ((b / 0x08) % 2 == 1); }
    else if k == 5 { assert BitSet(b, 0x04) == ((b / 0x04) % 2 == 1); }
    else if k == 6 { assert BitSet(b, 0x02) == ((b / 0x02) % 2 == 1); }
    else { assert BitSet(b, 0x01) == ((b / 0x01) % 2 == 1); }
  }

  /** `mask >>= 1` walks MASKS and then reaches 0. */
  lemma MaskShift(k: nat)
    requires k < 8
    ensures MASKS[k] / 2 == (if k < 7 then MASKS[k + 1] else 0)
  {
  }

  /** Bytes per row of a P4 image: ceil(ncols / 8). */
  function RowBytes(ncols: nat): nat {
    (ncols + 7) / 8
  }

  /** The row a P4 file stores from byte start on: pixel c is bit c % 8,
      most significant first, of byte c / 8. */
  function PackedBits(s: seq<byte>, start: nat, ncols: nat): (row: seq<byte>)
    requires start + RowBytes(ncols) <= |s|
    ensures |row| == ncols && Bilevel(row)
  {
    if ncols == 0 then []
    else PackedBits(s, start, ncols - 1) + [MsbBit(s[start + (ncols - 1) / 8], (ncols - 1) % 8)]
  }

  /** Pixel c of PackedBits is bit c % 8 of byte c / 8. */
  lemma {:induction false} PackedBitsAt(s: seq<byte>, start: nat, ncols: nat, c: nat)
    requires start + RowBytes(ncols) <= |s| && c < ncols
    ensures start + c / 8 < |s| && PackedBits(s, start, ncols)[c] == MsbBit(s[start + c / 8], c % 8)
    decreases ncols
  {
    if c < ncols - 1 {
      PackedBitsAt(s, start, ncols - 1, c);
    }
  }

  /** A row equals PackedBits when every pixel is its bit. */
  lemma {:induction false} PackedBitsEqual(s: seq<byte>, start: nat, ncols: nat, row: seq<byte>)
    requires start + RowBytes(ncols) <= |s| && |row| == ncols
    requires forall c :: 0 <= c < ncols ==> row[c] == MsbBit(s[start + c / 8], c % 8)
    ensures PackedBits(s, start, ncols) == row
  {
    forall c | 0 <= c < ncols
      ensures PackedBits(s, start, ncols)[c] == row[c]
    {
      PackedBitsAt(s, start, ncols, c);
    }
  }

  /** The column loop of `readPbmRaw`: a new byte whenever the mask runs out. */
  function PackedRow(src: Source, br: ByteReader, mask: byte, c: nat, ncols: nat, acc: seq<byte>)
    : (r: Result<(seq<byte>, ByteReader), PixelError>)
    requires br.E.None?
    ensures r.Ok? ==> |r.value.0| == |acc| + (if c < ncols then ncols - c else 0)
    ensures r.Ok? ==> br.pos <= r.value.1.pos && (br.pos <= |src.data| ==> r.value.1.pos <= |src.data|)
    decreases ncols - c
  {
    if c >= ncols then Ok((acc, br))
    else
      var br1 := if mask == 0 then Advance(src, br) else br;
      if br1.E.Some? then Err(ReadFailed(br1.E.value))
      else
        var m: byte := if mask == 0 then 0x80 else mask;
        var v: byte := if BitSet(br1.B, m) then 1 else 0;
        PackedRow(src, br1, m / 2, c + 1, ncols, acc + [v])
  }

  /** The loop state at column c of a row starting at byte start. */
  predicate PackedState(src: Source, start: nat, br: ByteReader, mask: byte, c: nat, acc: seq<byte>) {
    br.E.None? && br.pos <= |src.data| &&
    |acc| == c &&
    (c % 8 == 0 ==> mask == 0 && br.pos == start + c / 8) &&
    (c % 8 != 0 ==> mask == MASKS[c % 8] && br.pos == start + c / 8 + 1 && br.B == src.data[start + c / 8]) &&
    (forall k :: 0 <= k < c ==> start + k / 8 < |src.data| && acc[k] == MsbBit(src.data[start + k / 8], k % 8))
  }

  /** One column of the loop: when the byte for column c is there, the
      loop reads bit c % 8 of it and reaches the state for column c + 1. */
  lemma PackedStep(src: Source, start: nat, br: ByteReader, mask: byte, c: nat, acc: seq<byte>)
    requires PackedState(src, start, br, mask, c, acc) && start + c / 8 < |src.data|
    ensures var br1 := if mask == 0 then Advance(src, br) else br;
      var m: byte := if mask == 0 then 0x80 else mask;
      br1.E.None? && m == MASKS[c % 8] &&
      PackedState(src, start, br1, m / 2, c + 1, acc + [if BitSet(br1.B, m) then 1 else 0])
  {
    var br1 := if mask == 0 then Advance(src, br) else br;
    var m: byte := if mask == 0 then 0x80 else mask;
    assert br1.B == src.data[start + c / 8];
    MaskTest(br1.B, c % 8);
    MaskShift(c % 8);
  }

  /** When the byte for column c is missing, the loop's read fails. */
  lemma PackedRunsOut(src: Source, start: nat, br: ByteReader, mask: byte, c: nat, acc: seq<byte>)
    requires PackedState(src, start, br, mask, c, acc) && start + c / 8 >= |src.data|
    ensures mask == 0 && Advance(src, br).E == Some(src.EndFault())
  {
  }

  lemma {:induction false} PackedRowReads(src: Source, start: nat, br: ByteReader, mask: byte, c: nat, ncols: nat, acc: seq<byte>)
    requires c <= ncols && PackedState(src, start, br, mask, c, acc)
    ensures var r := PackedRow(src, br, mask, c, ncols, acc);
      if start + RowBytes(ncols) <= |src.data| then
        r.Ok? && r.value.0 == PackedBits(src.data, start, ncols) &&
        r.value.1.E.None? && r.value.1.pos == start + RowBytes(ncols)
      else r == Err(ReadFailed(src.EndFault()))
    decreases ncols - c
  {
    if c == ncols {
      PackedBitsEqual(src.data, start, ncols, acc);
    } else if start + c / 8 < |src.data| {
      PackedStep(src, start, br, mask, c, acc);
      var br1 := if mask == 0 then Advance(src, br) else br;
      var m: byte := if mask == 0 then 0x80 else mask;
      PackedRowReads(src, start, br1, m / 2, c + 1, ncols, acc + [if BitSet(br1.B, m) then 1 else 0]);
    } else {
      PackedRunsOut(src, start, br, mask, c, acc);
    }
  }

  /** One row of `readPbmRaw`: the mask restarts at 0, so the row takes
      ceil(ncols / 8) fresh bytes, and fails exactly when they are not there. */
  function RawRow(src: Source, pos: nat, ncols: nat): (r: Result<(seq<byte>, nat), PixelError>)
    requires pos <= |src.data|
    ensures r.Ok? ==> |r.value.0| == ncols && pos <= r.value.1 <= |src.data|
  {
    match PackedRow(src, Fresh(ZeroesByte, pos), 0, 0, ncols, [])
    case Err(e) => Err(e)
    case Ok((vals, end)) => Ok((vals, end.pos))
  }

  /** What RawRow does: it succeeds exactly when the row's ceil(ncols / 8)
      bytes are there, returns their bits and stops right after them, and
      otherwise fails the way the stream does. */
  lemma {:induction false} RawRowReads(src: Source, pos: nat, ncols: nat)
    requires pos <= |src.data|
    ensures var r := RawRow(src, pos, ncols);
      && (r.Ok? <==> pos + RowBytes(ncols) <= |src.data|)
      && (r.Ok? ==> r.value == (PackedBits(src.data, pos, ncols), pos + RowBytes(ncols)))
      && (r.Err? ==> r.error == ReadFailed(src.EndFault()))
  {
    PackedRowReads(src, pos, Fresh(ZeroesByte, pos), 0, 0, ncols, []);
  }

  // ---------------------------------------------------------------------
  // Writing P4 rows: the reference the reader is checked against.

  /** Pixel i of a row, 0 past its end (the padding bits of a P4 row). */
  function PixelAt(row: seq<byte>, i: nat): (v: nat)
    requires Bilevel(row)
    ensures v <= 1
  {
    if i < |row| then row[i] as nat else 0
  }

  /** Eight bits, most significant first, as a number. */
  function Byte8(b0: nat, b1: nat, b2: nat, b3: nat, b4: nat, b5: nat, b6: nat, b7: nat): nat {
    128 * b0 + 64 * b1 + 32 * b2 + 16 * b3 + 8 * b4 + 4 * b5 + 2 * b6 + b7
  }

  /** Dividing by a power of two and taking the parity recovers each bit. */
  lemma Unpack8(b0: nat, b1: nat, b2: nat, b3: nat, b4: nat, b5: nat, b6: nat, b7: nat)
    requires b0 <= 1 && b1 <= 1 && b2 <= 1 && b3 <= 1 && b4 <= 1 && b5 <= 1 && b6 <= 1 && b7 <= 1
    ensures var b := Byte8(b0, b1, b2, b3, b4, b5, b6, b7);
      b < 256 &&
      (b / 128) % 2 == b0 && (b / 64) % 2 == b1 && (b / 32) % 2 == b2 && (b / 16) % 2 == b3 &&
      (b / 8) % 2 == b4 && (b / 4) % 2 == b5 && (b / 2) % 2 == b6 && (b / 1) % 2 == b7
  {
    var b := Byte8(b0, b1, b2, b3, b4, b5, b6, b7);
    assert b / 128 == b0;
    assert b / 64 == 2 * b0 + b1;
    assert b / 32 == 4 * b0 + 2 * b1 + b2;
    assert b / 16 == 8 * b0 + 4 * b1 + 2 * b2 + b3;
    assert b / 8 == 16 * b0 + 8 * b1 + 4 * b2 + 2 * b3 + b4;
    assert b / 4 == 32 * b0 + 16 * b1 + 8 * b2 + 4 * b3 + 2 * b4 + b5;
    assert b / 2 == 64 * b0 + 32 * b1 + 16 * b2 + 8 * b3 + 4 * b4 + 2 * b5 + b6;
  }

  /** The byte holding pixels 8k .. 8k+7 of a bilevel row, most
      significant bit first; the padding bits past the row's end are 0. */
  function PackByte(row: seq<byte>, k: nat): (b: byte)
    requires Bilevel(row)
  {
    var i := 8 * k;
    Byte8(PixelAt(row, i), PixelAt(row, i + 1), PixelAt(row, i + 2), PixelAt(row, i + 3),
          PixelAt(row, i + 4), PixelAt(row, i + 5), PixelAt(row, i + 6), PixelAt(row, i + 7)) as byte
  }

  /** Bit t of a packed byte is pixel 8k+t of the row. */
  lemma UnpackByte(row: seq<byte>, k: nat, t: nat)
    requires Bilevel(row) && t < 8
    ensures MsbBit(PackByte(row, k), t) == PixelAt(row, 8 * k + t)
  {
    var i := 8 * k;
    Unpack8(PixelAt(row, i), PixelAt(row, i + 1), PixelAt(row, i + 2), PixelAt(row, i + 3),
            PixelAt(row, i + 4), PixelAt(row, i + 5), PixelAt(row, i + 6), PixelAt(row, i + 7));
  }

  /** A bilevel row packed eight pixels to a byte, as a P4 file stores it. */
  function PackRow(row: seq<byte>): (s: seq<byte>)
    requires Bilevel(row)
    ensures |s| == RowBytes(|row|)
  {
    PackFrom(row, 0)
  }

  /** The packed bytes k, k+1, ... of a row. */
  function PackFrom(row: seq<byte>, k: nat): (s: seq<byte>)
    requires Bilevel(row) && k <= RowBytes(|row|)
    ensures |s| == RowBytes(|row|) - k
    decreases RowBytes(|row|) - k
  {
    if k == RowBytes(|row|) then [] else [PackByte(row, k)] + PackFrom(row, k + 1)
  }

  /** Byte j of the packed row is the packing of pixels 8j .. 8j+7. */
  lemma {:induction false} PackFromAt(row: seq<byte>, k: nat, j: nat)
    requires Bilevel(row) && k <= j < RowBytes(|row|)
    ensures PackFrom(row, k)[j - k] == PackByte(row, j)
    decreases j - k
  {
    if k < j {
      PackFromAt(row, k + 1, j);
    }
  }

  /** Unpacking a packed row gives the row back, wherever it sits. */
  lemma {:induction false} PackedBitsOfPackRow(row: seq<byte>, data: seq<byte>, pos: nat)
    requires Bilevel(row) && Holds(data, pos, PackRow(row))
    ensures PackedBits(data, pos, |row|) == row
  {
    forall c | 0 <= c < |row|
      ensures row[c] == MsbBit(data[pos + c / 8], c % 8)
    {
      var k, t := c / 8, c % 8;
      assert k < RowBytes(|row|);
      PackFromAt(row, 0, k);
      assert data[pos + k] == data[pos..pos + |PackRow(row)|][k] == PackRow(row)[k];
      UnpackByte(row, k, t);
      assert 8 * k + t == c;
    }
    PackedBitsEqual(data, pos, |row|, row);
  }

  /** Reading back a packed row gives the row, wherever it sits in the data. */
  lemma RawRowReadsPackedRow(row: seq<byte>, src: Source, pos: nat)
    requires Bilevel(row) && Holds(src.data, pos, PackRow(row))
    ensures RawRow(src, pos, |row|) == Ok((row, pos + |PackRow(row)|))
  {
    PackedBitsOfPackRow(row, src.data, pos);
    RawRowAt(src, pos, |row|, row, |PackRow(row)|);
  }

  /** RawRow in terms of the bits found at pos and the bytes they take. */
  lemma {:induction false} RawRowAt(src: Source, pos: nat, ncols: nat, row: seq<byte>, n: nat)
    requires n == RowBytes(ncols) && pos + n <= |src.data|
    requires PackedBits(src.data, pos, ncols) == row
    ensures RawRow(src, pos, ncols) == Ok((row, pos + n))
  {
    RawRowReads(src, pos, ncols);
  }
}

=== FILE: pgm.dfy ===
/** The gray-level Netpbm readers of image/bitmap_stream.go: plain PGM
    (P2), one decimal sample per pixel, and raw PGM (P5), binary samples.
    Samples run from 0 (black) to maxval (white) and are mapped through a
    ramp onto the bitmap's scale, where 0 is white and grays-1 black. */
module Pgm {
  import opened BoundedInts
  import opened Results
  import opened Sources
  import opened ByteReaders
  import opened PixelStore
  import IntReaders
  import Arith

  /** The largest maxval the readers accept: 16-bit samples. */
  const MAX_MAXVAL: nat := 65535

  /** `grays` for a PGM file: one level per sample value, at most 256. */
  function GraysFor(maxval: nat): (g: nat)
    ensures g == (if maxval < 255 then maxval else 255) + 1
    ensures 1 <= g <= 256
  {
    if maxval > 255 then 256 else maxval + 1
  }

  /** `maxbin` of readPgmRaw: the number of distinct 8- or 16-bit samples. */
  function MaxBin(maxval: nat): (m: nat)
    ensures m == TWO_TO_THE_8 || m == TWO_TO_THE_16
    ensures maxval <= MAX_MAXVAL ==> maxval < m
  {
    if maxval > 255 then 65536 else 256
  }

  /** The rounded quotient a ramp entry computes: the sample's distance
      from white, rescaled from 0..maxval to 0..grays-1, rounded to nearest. */
  function RampQuotient(grays: nat, maxval: nat, ii: nat): int
    requires ii < maxval
  {
    ((grays - 1) * (maxval - ii) + maxval / 2) / maxval
  }

  /** Ramp entry ii < maxval as the source computes it, with the uint32
      arithmetic and the final byte conversion written out. */
  function RampEntry(grays: nat, maxval: nat, ii: nat): byte
    requires 1 <= grays <= 256 && ii < maxval <= MAX_MAXVAL
  {
    var prod := U32((grays - 1) * (maxval - ii));
    var num := U32(prod + maxval / 2);
    ((num / maxval) % TWO_TO_THE_8) as byte
  }

  /** A ramp of len entries: entries below maxval computed, the rest left
      at the zero value make gives them. */
  function Ramp(grays: nat, maxval: nat, len: nat): (ramp: seq<byte>)
    requires 1 <= grays <= 256 && maxval <= MAX_MAXVAL && maxval <= len
    ensures |ramp| == len
  {
    seq(len, i requires 0 <= i < len => if i < maxval then RampEntry(grays, maxval, i) else 0)
  }

  /** The P2 ramp: maxval + 1 entries. */
  function TextRamp(maxval: nat): (ramp: seq<byte>)
    requires maxval <= MAX_MAXVAL
    ensures |ramp| == maxval + 1
  {
    Ramp(GraysFor(maxval), maxval, maxval + 1)
  }

  /** The P5 ramp: maxbin - 1 entries, one fewer than there are samples. */
  function RawRamp(maxval: nat): (ramp: seq<byte>)
    requires maxval <= MAX_MAXVAL
    ensures |ramp| == MaxBin(maxval) - 1
  {
    Ramp(GraysFor(maxval), maxval, MaxBin(maxval) - 1)
  }

  /** The numerator of a ramp entry with k = grays - 1 and d = maxval - ii
      stays below 2^32 and below (k + 1) * maxval. */
  lemma RampNumerator(k: int, m: int, d: int)
    requires 0 <= k <= 255 && 1 <= d <= m <= MAX_MAXVAL
    ensures 0 <= k * d + m / 2 < TWO_TO_THE_32
    ensures k * d + m / 2 < k * m + m
  {
    Arith.MulMonoLeft(k, d, m);
    Arith.MulMono(k, 255, m);
  }

  /** A quotient below (k + 1) * m divided by m is at most k, and fits a byte when k does. */
  lemma QuotientFits(n: int, m: int, k: int)
    requires 0 <= k <= 255 && 0 < m && 0 <= n < k * m + m
    ensures 0 <= n / m <= k && (n / m) % TWO_TO_THE_8 == n / m
  {
    Arith.MulSucc(k, m);
    Arith.DivBelow(n, m, k + 1);
  }

  /** No arithmetic in a ramp entry wraps: it is the rounded quotient, at most grays-1. */
  lemma RampEntryExact(grays: nat, maxval: nat, ii: nat)
    requires 1 <= grays <= 256 && ii < maxval <= MAX_MAXVAL
    ensures RampEntry(grays, maxval, ii) as int == RampQuotient(grays, maxval, ii)
    ensures RampEntry(grays, maxval, ii) as int <= grays - 1
  {
    var k, d := grays - 1, maxval - ii;
    RampNumerator(k, maxval, d);
    var n := k * d + maxval / 2;
    assert U32(k * d) == k * d;
    assert U32(n) == n;
    QuotientFits(n, maxval, k);
    assert RampEntry(grays, maxval, ii) as int == n / maxval;
  }

  /** The rounded quotient does not grow as the distance d shrinks. */
  lemma QuotientMonoInt(k: int, m: int, dj: int, di: int)
    requires 0 <= k && 0 <= dj <= di && 0 < m
    ensures (k * dj + m / 2) / m <= (k * di + m / 2) / m
  {
    Arith.MulMonoLeft(k, dj, di);
    Arith.MulMonoLeft(k, 0, dj);
    Arith.DivMono(k * dj + m / 2, k * di + m / 2, m);
  }

  /** Larger samples are lighter: the rounded quotient does not increase. */
  lemma QuotientMono(grays: nat, maxval: nat, i: nat, j: nat)
    requires 1 <= grays <= 256 && i <= j < maxval
    ensures RampQuotient(grays, maxval, j) <= RampQuotient(grays, maxval, i)
  {
    QuotientMonoInt(grays - 1, maxval, maxval - j, maxval - i);
  }

  lemma RampEntryMono(grays: nat, maxval: nat, i: nat, j: nat)
    requires 1 <= grays <= 256 && i <= j < maxval <= MAX_MAXVAL
    ensures RampEntry(grays, maxval, j) <= RampEntry(grays, maxval, i)
  {
    RampEntryExact(grays, maxval, i);
    RampEntryExact(grays, maxval, j);
    QuotientMono(grays, maxval, i, j);
  }

  /** The shape of every ramp: entries non-increasing and at most
      grays-1, the first entry black (grays-1) when there is any sample
      range, and entries from maxval on white (0). */
  lemma RampShape(grays: nat, maxval: nat, len: nat)
    requires 1 <= grays <= 256 && maxval <= MAX_MAXVAL && maxval <= len
    ensures var ramp := Ramp(grays, maxval, len);
      (forall i :: 0 <= i < len ==> ramp[i] as int <= grays - 1) &&
      (forall i, j :: 0 <= i <= j < len ==> ramp[j] <= ramp[i]) &&
      (maxval >= 1 ==> ramp[0] as int == grays - 1) &&
      (forall i :: maxval <= i < len ==> ramp[i] == 0)
  {
    var ramp := Ramp(grays, maxval, len);
    forall i | 0 <= i < len
      ensures ramp[i] as int <= grays - 1
    {
      if i < maxval { RampEntryExact(grays, maxval, i); }
    }
    forall i, j | 0 <= i <= j < len
      ensures ramp[j] <= ramp[i]
    {
      if j < maxval { RampEntryMono(grays, maxval, i, j); }
    }
    if maxval >= 1 {
      RampEntryExact(grays, maxval, 0);
      Arith.DivModUnique((grays - 1) * (maxval - 0) + maxval / 2, maxval, grays - 1, maxval / 2);
    }
  }

  /** The P2 ramp ends in white: the sample maxval maps to 0. */
  lemma TextRampEndsWhite(maxval: nat)
    requires maxval <= MAX_MAXVAL
    ensures TextRamp(maxval)[maxval] == 0
    ensures maxval >= 1 ==> TextRamp(maxval)[0] as int == GraysFor(maxval) - 1
  {
    RampShape(GraysFor(maxval), maxval, maxval + 1);
  }

  // ---------------------------------------------------------------------
  // P2

  /** A failed integer scan as a pixel error: read failures stay read failures. */
  function OfIntError(e: IntReaders.IntError): (r: PixelError)
    ensures e.ReadFailed? <==> r.ReadFailed?
    ensures e.ReadFailed? ==> r.fault == e.fault
    ensures e.NoInteger? ==> r == MissingInteger
  {
    if e.ReadFailed? then ReadFailed(e.fault) else MissingInteger
  }

  /** One pixel of `readPgmText`: the next integer of the stream, looked up
      in the ramp; a sample beyond the ramp is Go's index panic. The Reader
      starts each ReadInteger afresh, so only the position carries over. */
  function TextGray(src: Source, pos: nat, ramp: seq<byte>): (r: Result<(byte, nat), PixelError>)
    ensures var (q, s) := IntReaders.ExpectedScan(src, pos);
      if s.Err? then r == Err(OfIntError(s.error))
      else r == if s.value as nat < |ramp| then Ok((ramp[s.value], q)) else Err(RampOutOfRange(s.value as nat))
  {
    var (rd, s) := IntReaders.ReadInteger(src, IntReaders.NewReader(pos));
    if s.Err? then Err(OfIntError(s.error))
    else if s.value as nat < |ramp| then Ok((ramp[s.value], rd.pos))
    else Err(RampOutOfRange(s.value as nat))
  }

  // ---------------------------------------------------------------------
  // P5

  /** One pixel of `readPgmRaw`. With maxbin above 255 (always, since
      maxbin is 256 or 65536) a big-endian pair of bytes indexes the ramp;
      the one-byte branch below it is kept as written but never taken. */
  function RawGray(src: Source, pos: nat, ramp: seq<byte>, maxbin: nat): (r: Result<(byte, nat), PixelError>)
    requires pos <= |src.data|
    ensures maxbin > 255 ==>
      if pos + 2 > |src.data| then r == Err(ReadFailed(src.EndFault()))
      else
        var ind := src.data[pos] as nat * 256 + src.data[pos + 1] as nat;
        r == if ind < |ramp| then Ok((ramp[ind], pos + 2)) else Err(RampOutOfRange(ind))
    ensures maxbin <= 255 ==>
      if pos + 1 > |src.data| then r == Err(ReadFailed(src.EndFault()))
      else
        var ind := src.data[pos] as nat;
        r == if ind < |ramp| then Ok((ramp[ind], pos + 1)) else Err(RampOutOfRange(ind))
  {
    var a := Advance(src, Fresh(ZeroesByte, pos));
    if a.E.Some? then Err(ReadFailed(a.E.value))
    else if maxbin > 255 then
      var b1 := a.B;
      var a2 := Advance(src, a);
      if a2.E.Some? then Err(ReadFailed(a2.E.value))
      else
        var b2 := a2.B;
        // uint16(b1)*256 + uint16(b2) is at most 0xFFFF: the uint16 arithmetic cannot wrap
        var ind := (b1 as nat * 256 + b2 as nat) % TWO_TO_THE_16;
        if ind < |ramp| then Ok((ramp[ind], a2.pos)) else Err(RampOutOfRange(ind))
    else
      var ind := a.B as nat;
      if ind < |ramp| then Ok((ramp[ind], a.pos)) else Err(RampOutOfRange(ind))
  }

  /** A 16-bit sample as P5 stores it: high byte first. */
  function SampleBytes(v: uint16): (s: seq<byte>)
    ensures |s| == 2 && s[0] as nat * 256 + s[1] as nat == v as nat
  {
    [(v / 256) as byte, (v % 256) as byte]
  }

  /** Reading a stored sample gives its ramp entry and moves past its two
      bytes; the largest sample, 65535, lies beyond the ramp of
      maxbin - 1 entries. */
  lemma RawGrayReadsSample(v: uint16, maxval: nat, before: seq<byte>, after: seq<byte>, failsAtEnd: bool)
    requires maxval <= MAX_MAXVAL
    ensures var src := Source(before + SampleBytes(v) + after, failsAtEnd);
      var ramp := RawRamp(maxval);
      RawGray(src, |before|, ramp, MaxBin(maxval)) ==
        if (v as nat) < |ramp| then Ok((ramp[v], |before| + 2)) else Err(RampOutOfRange(v as nat))
  {
    var data := before + SampleBytes(v) + after;
    assert data[|before|] == SampleBytes(v)[0] && data[|before| + 1] == SampleBytes(v)[1];
  }

  /** With an 8-bit maxval the reader still takes two bytes per sample, so
      the two 8-bit samples 0 and 255 are read as the single index 255,
      one past the end of the 255-entry ramp. */
  lemma EightBitSamplesReadAsPairs(maxval: nat)
    requires maxval <= 255
    ensures RawGray(Source([0, 255], false), 0, RawRamp(maxval), MaxBin(maxval)) == Err(RampOutOfRange(255))
  {
  }
}

=== FILE: pixel_store.dfy ===
/** How the stream readers of image/bitmap_stream.go place pixels: the
    file lists rows top first, and row i of the file goes to bitmap row
    nrows-1-i (row 0 is the bottom line), at byte
    `row*bytesPerRow + border + column`. */
module PixelStore {
  import opened BoundedInts
  import opened Results
  import opened Bitmaps
  import opened Sources
  import Arith

  /** Why a pixel reader stopped. */
  datatype PixelError =
    | ReadFailed(fault: Fault)                // the stream failed or ended
    | MissingInteger                          // a P2 sample does not start with a digit
    | BadPbm                                  // a P1 pixel is neither '0' nor '1'
    | LostSync                                // an R4 run overshoots the row
    | RampOutOfRange(index: nat)              // a gray sample beyond the ramp: a Go index panic

  /** A bilevel row, as the PBM and RLE readers produce: every pixel 0 or 1. */
  predicate Bilevel(row: seq<byte>) {
    forall k :: 0 <= k < |row| ==> row[k] <= 1
  }

  /** The byte holding pixel (row r from the bottom, column c). */
  function Offset(b: Bitmap, r: nat, c: nat): nat {
    r * b.bytesPerRow + b.border + c
  }

  /** An image as the file lists it: nrows rows of ncols pixels, top row first. */
  predicate Fits(b: Bitmap, rows: seq<seq<byte>>) {
    |rows| == b.nrows && forall i :: 0 <= i < |rows| ==> |rows[i]| == b.ncols
  }

  /** The file row and column whose pixel lives at byte j, or None for a border byte. */
  function Target(b: Bitmap, j: nat): (t: Option<(nat, nat)>)
    requires b.bytesPerRow == b.ncols + b.border
    ensures t.Some? ==> t.value.0 < b.nrows && t.value.1 < b.ncols
  {
    if b.ncols == 0 || j < b.border then None
    else
      var q := (j - b.border) / b.bytesPerRow;
      var m := (j - b.border) % b.bytesPerRow;
      if m < b.ncols && q < b.nrows then Some((b.nrows - 1 - q, m)) else None
  }

  /** Pixel (r, c) lies inside the store, and Target maps its byte back to it. */
  lemma OffsetTarget(b: Bitmap, r: nat, c: nat)
    requires Valid(b) && r < b.nrows && c < b.ncols
    ensures Offset(b, r, c) < |b.bytes|
    ensures Target(b, Offset(b, r, c)) == Some((b.nrows - 1 - r, c))
  {
    Arith.MulMono(r + 1, b.nrows, b.bytesPerRow);
    assert Offset(b, r, c) < (r + 1) * b.bytesPerRow + b.border;
    Arith.DivModUnique(Offset(b, r, c) - b.border, b.bytesPerRow, r, c);
  }

  /** A byte that Target maps to a pixel is that pixel's offset. */
  lemma TargetOffset(b: Bitmap, j: nat)
    requires Valid(b) && Target(b, j).Some?
    ensures Offset(b, b.nrows - 1 - Target(b, j).value.0, Target(b, j).value.1) == j
  {
    var q := (j - b.border) / b.bytesPerRow;
    var m := (j - b.border) % b.bytesPerRow;
    assert j - b.border == q * b.bytesPerRow + m;
  }

  /** The bitmap bytes once every pixel of the image is in place: pixel
      bytes hold their pixel, border bytes keep their old value. */
  function Layout(b: Bitmap, rows: seq<seq<byte>>): (s: seq<byte>)
    requires Valid(b) && Fits(b, rows)
    ensures |s| == |b.bytes|
  {
    seq(|b.bytes|, j requires 0 <= j < |b.bytes| =>
      match Target(b, j)
      case Some((i, c)) => rows[i][c]
      case None => b.bytes[j])
  }

  /** The inner column loop: write vals[c..] at start + c onwards. */
  function StoreRow(bytes: seq<byte>, start: nat, vals: seq<byte>, c: nat): (r: seq<byte>)
    requires c <= |vals| && start + |vals| <= |bytes|
    ensures |r| == |bytes|
    decreases |vals| - c
  {
    if c == |vals| then bytes else StoreRow(bytes[start + c := vals[c]], start, vals, c + 1)
  }

  lemma {:induction false} StoreRowWrites(bytes: seq<byte>, start: nat, vals: seq<byte>, c: nat, j: nat)
    requires c <= |vals| && start + |vals| <= |bytes| && j < |bytes|
    ensures StoreRow(bytes, start, vals, c)[j] ==
      if start + c <= j < start + |vals| then vals[j - start] else bytes[j]
    decreases |vals| - c
  {
    if c < |vals| {
      StoreRowWrites(bytes[start + c := vals[c]], start, vals, c + 1, j);
    }
  }

  /** The outer row loop: rows[i..] written from bitmap row nrows-1-i downwards. */
  function StoreRows(b: Bitmap, bytes: seq<byte>, rows: seq<seq<byte>>, i: nat): (r: seq<byte>)
    requires Valid(b) && Fits(b, rows) && i <= |rows| && |bytes| == |b.bytes|
    ensures |r| == |bytes|
    decreases |rows| - i
  {
    if i == |rows| then bytes
    else
      var r := b.nrows - 1 - i;
      Arith.MulMono(r + 1, b.nrows, b.bytesPerRow);
      StoreRows(b, StoreRow(bytes, Offset(b, r, 0), rows[i], 0), rows, i + 1)
  }

  /** The bytes of file row i are those from Offset(row, 0) on for ncols bytes. */
  lemma RowSpan(b: Bitmap, i: nat, j: nat)
    requires Valid(b) && i < b.nrows && j < |b.bytes|
    ensures var start := Offset(b, b.nrows - 1 - i, 0);
      (start <= j < start + b.ncols) <==> (Target(b, j).Some? && Target(b, j).value.0 == i)
    ensures var start := Offset(b, b.nrows - 1 - i, 0);
      start <= j < start + b.ncols ==> Target(b, j).value.1 == j - start
  {
    var start := Offset(b, b.nrows - 1 - i, 0);
    if start <= j < start + b.ncols {
      OffsetTarget(b, b.nrows - 1 - i, j - start);
    }
    if Target(b, j).Some? && Target(b, j).value.0 == i {
      TargetOffset(b, j);
    }
  }

  lemma {:induction false} StoreRowsWrites(b: Bitmap, bytes: seq<byte>, rows: seq<seq<byte>>, i: nat, j: nat)
    requires Valid(b) && Fits(b, rows) && i <= |rows| && |bytes| == |b.bytes| && j < |b.bytes|
    ensures StoreRows(b, bytes, rows, i)[j] ==
      match Target(b, j)
      case Some((fi, c)) => if fi >= i then rows[fi][c] else bytes[j]
      case None => bytes[j]
    decreases |rows| - i
  {
    if i < |rows| {
      var r := b.nrows - 1 - i;
      Arith.MulMono(r + 1, b.nrows, b.bytesPerRow);
      var start := Offset(b, r, 0);
      var next := StoreRow(bytes, start, rows[i], 0);
      assert StoreRows(b, bytes, rows, i) == StoreRows(b, next, rows, i + 1);
      StoreRowsWrites(b, next, rows, i + 1, j);
      StoreRowWrites(bytes, start, rows[i], 0, j);
      RowSpan(b, i, j);
    }
  }

  /** `Store`: write an image into the bitmap at the intended offsets,
      Offset(nrows-1-i, c) for file row i and column c. */
  function Store(b: Bitmap, rows: seq<seq<byte>>): (r: Bitmap)
    requires Valid(b) && Fits(b, rows)
    ensures Valid(r) && r == b.(bytes := r.bytes)
    ensures r.bytes == Layout(b, rows)
  {
    var bytes := StoreRows(b, b.bytes, rows, 0);
    forall j | 0 <= j < |bytes|
      ensures bytes[j] == Layout(b, rows)[j]
    {
      StoreRowsWrites(b, b.bytes, rows, 0, j);
    }
    b.(bytes := bytes)
  }

  /** After Store, pixel (file row i, column c) sits at bitmap row
      nrows-1-i, column c; the only bytes that change are pixel bytes,
      so the border stays white. */
  lemma StorePlacesPixels(b: Bitmap, rows: seq<seq<byte>>, i: nat, c: nat)
    requires Valid(b) && Fits(b, rows) && i < b.nrows && c < b.ncols
    ensures Offset(b, b.nrows - 1 - i, c) < |b.bytes|
    ensures Store(b, rows).bytes[Offset(b, b.nrows - 1 - i, c)] == rows[i][c]
  {
    OffsetTarget(b, b.nrows - 1 - i, c);
  }

  lemma StoreOnlyWritesPixels(b: Bitmap, rows: seq<seq<byte>>, j: nat)
    requires Valid(b) && Fits(b, rows) && j < |b.bytes|
    ensures Store(b, rows).bytes[j] != b.bytes[j] ==>
      exists r, c :: 0 <= r < b.nrows && 0 <= c < b.ncols && Offset(b, r, c) == j
  {
    if Target(b, j).Some? {
      TargetOffset(b, j);
      var (i, c) := Target(b, j).value;
      assert Offset(b, b.nrows - 1 - i, c) == j;
    }
  }

  // ---------------------------------------------------------------------
  // The store as the readers compute their indices.

  /** No pixel offset reaches the field width: the last pixel byte,
      nrows*bytesPerRow - 1, is below 2^16 (2^8 for 8-bit fields). */
  predicate NoWrap(b: Bitmap) {
    b.nrows * b.bytesPerRow <= Modulus(b.width)
  }

  /** The byte the readers write pixel (row r from the bottom, column c)
      to. `row` is r*bytesPerRow + border in the field width; the PBM and
      PGM readers add the column in the field width too (`row+cc`), the
      RLE reader adds it as a uint32 (`uint32(row)+c`). */
  function GoIndex(b: Bitmap, r: nat, c: nat, rle: bool): (j: nat)
    requires Valid(b) && r < b.nrows && c < b.ncols
    ensures j < |b.bytes|
    ensures Offset(b, r, c) < Modulus(b.width) ==> j == Offset(b, r, c)
  {
    var m := Modulus(b.width);
    var x := r * b.bytesPerRow + b.border;
    var row := x % m;
    OffsetTarget(b, r, c);
    assert Offset(b, r, c) == x + c;
    Arith.ModBelow(x, m);
    Arith.ModBelow(row + c, m);
    if rle then row + c else (row + c) % m
  }

  /** Without the wrap, every reader's index is the pixel's offset. */
  lemma GoIndexUnwrapped(b: Bitmap, r: nat, c: nat, rle: bool)
    requires Valid(b) && NoWrap(b) && r < b.nrows && c < b.ncols
    ensures GoIndex(b, r, c, rle) == Offset(b, r, c)
  {
    Arith.MulMono(r + 1, b.nrows, b.bytesPerRow);
    Arith.MulSucc(r, b.bytesPerRow);
    assert Offset(b, r, c) < (r + 1) * b.bytesPerRow;
  }

  /** The column loop as the readers run it: vals[c..] written one after
      the other at their indices. */
  function PutRow(b: Bitmap, bytes: seq<byte>, r: nat, vals: seq<byte>, c: nat, rle: bool): (s: seq<byte>)
    requires Valid(b) && r < b.nrows && |vals| == b.ncols && c <= |vals| && |bytes| == |b.bytes|
    ensures |s| == |bytes|
    decreases |vals| - c
  {
    if c == |vals| then bytes
    else PutRow(b, bytes[GoIndex(b, r, c, rle) := vals[c]], r, vals, c + 1, rle)
  }

  /** The row loop as the readers run it: rows[i..] from bitmap row nrows-1-i down. */
  function PutRows(b: Bitmap, bytes: seq<byte>, rows: seq<seq<byte>>, i: nat, rle: bool): (s: seq<byte>)
    requires Valid(b) && Fits(b, rows) && i <= |rows| && |bytes| == |b.bytes|
    ensures |s| == |bytes|
    decreases |rows| - i
  {
    if i == |rows| then bytes
    else PutRows(b, PutRow(b, bytes, b.nrows - 1 - i, rows[i], 0, rle), rows, i + 1, rle)
  }

  /** Without the wrap, the readers' column loop is the intended one. */
  lemma {:induction false} PutRowUnwrapped(b: Bitmap, bytes: seq<byte>, r: nat, vals: seq<byte>, c: nat, rle: bool)
    requires Valid(b) && NoWrap(b) && r < b.nrows && |vals| == b.ncols && c <= |vals| && |bytes| == |b.bytes|
    ensures Offset(b, r, 0) + |vals| <= |bytes|
    ensures PutRow(b, bytes, r, vals, c, rle) == StoreRow(bytes, Offset(b, r, 0), vals, c)
    decreases |vals| - c
  {
    var start := Offset(b, r, 0);
    Arith.MulMono(r + 1, b.nrows, b.bytesPerRow);
    Arith.MulSucc(r, b.bytesPerRow);
    assert start + |vals| <= |bytes|;
    if c < |vals| {
      GoIndexUnwrapped(b, r, c, rle);
      assert GoIndex(b, r, c, rle) == start + c;
      var next := bytes[start + c := vals[c]];
      PutRowUnwrapped(b, next, r, vals, c + 1, rle);
      assert StoreRow(bytes, start, vals, c) == StoreRow(next, start, vals, c + 1);
    }
  }

  /** Without the wrap, the readers' row loop is the intended one. */
  lemma {:induction false} PutRowsUnwrapped(b: Bitmap, bytes: seq<byte>, rows: seq<seq<byte>>, i: nat, rle: bool)
    requires Valid(b) && Fits(b, rows) && i <= |rows| && |bytes| == |b.bytes|
    ensures NoWrap(b) ==> PutRows(b, bytes, rows, i, rle) == StoreRows(b, bytes, rows, i)
    decreases |rows| - i
  {
    if NoWrap(b) && i < |rows| {
      var r := b.nrows - 1 - i;
      PutRowUnwrapped(b, bytes, r, rows[i], 0, rle);
      PutRowsUnwrapped(b, PutRow(b, bytes, r, rows[i], 0, rle), rows, i + 1, rle);
    }
  }

  /** Pixel (file row i, column c) has index j and value v. */
  predicate WrittenBy(b: Bitmap, rows: seq<seq<byte>>, rle: bool, j: nat, v: byte)
    requires Valid(b) && Fits(b, rows)
  {
    exists i, c :: 0 <= i < |rows| && 0 <= c < b.ncols && rows[i][c] == v &&
      GoIndex(b, b.nrows - 1 - i, c, rle) == j
  }

  /** A byte the column loop changes holds a pixel of the row written at that byte. */
  lemma {:induction false} PutRowSource(b: Bitmap, bytes: seq<byte>, r: nat, vals: seq<byte>, c: nat, rle: bool, j: nat)
    requires Valid(b) && r < b.nrows && |vals| == b.ncols && c <= |vals| && |bytes| == |b.bytes| && j < |bytes|
    ensures var s := PutRow(b, bytes, r, vals, c, rle);
      s[j] == bytes[j] || exists k :: c <= k < |vals| && vals[k] == s[j] && GoIndex(b, r, k, rle) == j
    decreases |vals| - c
  {
    if c < |vals| {
      var g := GoIndex(b, r, c, rle);
      PutRowSource(b, bytes[g := vals[c]], r, vals, c + 1, rle, j);
    }
  }

  /** A byte the row loop changes holds a pixel of rows[i..] written at that byte. */
  lemma {:induction false} PutRowsSource(b: Bitmap, bytes: seq<byte>, rows: seq<seq<byte>>, i: nat, rle: bool, j: nat)
    requires Valid(b) && Fits(b, rows) && i <= |rows| && |bytes| == |b.bytes| && j < |bytes|
    ensures var s := PutRows(b, bytes, rows, i, rle);
      || s[j] == bytes[j]
      || exists fi, c :: i <= fi < |rows| && 0 <= c < b.ncols && rows[fi][c] == s[j] &&
           GoIndex(b, b.nrows - 1 - fi, c, rle) == j
    decreases |rows| - i
  {
    if i < |rows| {
      var r := b.nrows - 1 - i;
      var next := PutRow(b, bytes, r, rows[i], 0, rle);
      PutRowsSource(b, next, rows, i + 1, rle, j);
      PutRowSource(b, bytes, r, rows[i], 0, rle, j);
    }
  }

  /** The readers' store as the code computes it: pixel (file row i,
      column c) goes to GoIndex of bitmap row nrows-1-i, and a later pixel
      with the same index overwrites an earlier one. Without the wrap it
      is the intended Store; every byte it changes holds a pixel written
      there. */
  function StoreAsWritten(b: Bitmap, rows: seq<seq<byte>>, rle: bool): (r: Bitmap)
    requires Valid(b) && Fits(b, rows)
    ensures Valid(r) && r == b.(bytes := r.bytes)
    ensures NoWrap(b) ==> r == Store(b, rows)
    ensures forall j :: 0 <= j < |r.bytes| ==> r.bytes[j] == b.bytes[j] || WrittenBy(b, rows, rle, j, r.bytes[j])
  {
    var bytes := PutRows(b, b.bytes, rows, 0, rle);
    PutRowsUnwrapped(b, b.bytes, rows, 0, rle);
    forall j | 0 <= j < |bytes|
      ensures bytes[j] == b.bytes[j] || WrittenBy(b, rows, rle, j, bytes[j])
    {
      PutRowsSource(b, b.bytes, rows, 0, rle, j);
    }
    b.(bytes := bytes)
  }

  /** The wrap on a 256-row, one-column image with border 256, which
      NewBitmap accepts: file row 0 goes to bitmap row 255, whose index
      (255*257 + 256) mod 2^16 is 255, a border byte. No later row writes
      there, so the border byte keeps that pixel, where the intended
      Store leaves it white. */
  lemma WrapWritesBorder(rows: seq<seq<byte>>)
    requires |rows| == 256 && forall i :: 0 <= i < 256 ==> |rows[i]| == 1
    ensures var nb := NewBitmap(W16, 256, 1, 256);
      && nb.Ok? && Fits(nb.value, rows) && !NoWrap(nb.value)
      && Target(nb.value, 255).None? && nb.value.bytes[255] == 0
      && Store(nb.value, rows).bytes[255] == 0
      && StoreAsWritten(nb.value, rows, false).bytes[255] == rows[0][0]
  {
    var b := NewBitmap(W16, 256, 1, 256).value;
    assert b.bytesPerRow == 257 && |b.bytes| == 256 * 257 + 256;
    assert GoIndex(b, 255, 0, false) == 255;
    var first := PutRow(b, b.bytes, 255, rows[0], 0, false);
    assert |rows[0]| == 1;
    assert first == PutRow(b, b.bytes[255 := rows[0][0]], 255, rows[0], 1, false);
    assert first == b.bytes[255 := rows[0][0]];
    forall fi, c {:trigger rows[fi][c]} | 1 <= fi < 256 && 0 <= c < 1
      ensures GoIndex(b, b.nrows - 1 - fi, c, false) != 255
    {
      assert Offset(b, 255 - fi, 0) < 65536;
    }
    PutRowsSource(b, first, rows, 1, false, 255);
    assert PutRows(b, b.bytes, rows, 0, false) == PutRows(b, first, rows, 1, false);
  }
}

=== FILE: ratio.dfy ===
/** Exact ratios and the rounding scaled multiply/divide of
    djvu/image/rect_mapper.go (`ratio`, `newRatio`, `rmul`, `rdiv`). */
module Ratios {
  import opened BoundedInts
  import opened Arith

  /** `ratio{p, q}`: the fraction p/q with int32 parts. */
  datatype Ratio = Ratio(p: int32, q: int32)

  /** The loop of `newRatio` that runs Euclid's algorithm on (g2, g1):
      `for g1 > 0 { gcd = g1; g1 = g2 % g1; g2 = gcd }`. */
  function EuclidLoop(g1: int, g2: int, gcd: int): (r: int)
    requires g1 > 0 ==> g2 >= 0
    ensures g1 > 0 ==> r > 0 && r == Gcd(g2, g1)
    ensures g1 <= 0 ==> r == gcd
    decreases if g1 > 0 then g1 else 0
  {
    if g1 > 0 then EuclidLoop(g2 % g1, g1, g1) else gcd
  }

  /** The sign normalisation of `newRatio`: a zero numerator gets
      denominator 1, and a negative denominator negates both parts
      (with int32 wrap-around, so MinInt32 stays negative). */
  function Normalize(p: int32, q: int32): (r: (int32, int32))
    requires q != 0
    ensures r.1 != 0
    ensures q != MIN_INT32 ==> r.1 > 0
    ensures p == 0 ==> r == (0, 1)
    ensures p != 0 && q > 0 ==> r == (p, q)
    ensures p != 0 && q < 0 && q != MIN_INT32 && p != MIN_INT32 ==> r == (-p, -q)
  {
    var q1: int32 := if p == 0 then 1 else q;
    if q1 < 0 then (Neg32(p), Neg32(q1)) else (p, q1)
  }

  /** The reduction step of `newRatio`: the Euclid loop runs on the
      smaller and the larger part, and both parts are divided by the
      result (1 when the loop never runs). */
  function Reduce(p2: int32, q2: int32): (r: Ratio)
    requires q2 != 0
    ensures r.p as int * q2 == p2 as int * r.q
    ensures q2 > 0 ==> r.q > 0
    ensures r.q != 0
    ensures q2 > 0 && r.p > 0 ==> Gcd(r.p, r.q) == 1
    ensures p2 <= 0 ==> r == Ratio(p2, q2)
  {
    var g1: int32 := if p2 > q2 then q2 else p2;
    var g2: int32 := if p2 > q2 then p2 else q2;
    var gcd := EuclidLoop(g1, g2, 1);
    if p2 > 0 && q2 > 0 then
      GcdSymmetric(g2, g1);
      ReduceByGcd(p2, q2, gcd);
      Ratio(Quo(p2, gcd), Quo(q2, gcd))
    else
      QuoByOne(p2);
      QuoByOne(q2);
      Ratio(Quo(p2, gcd), Quo(q2, gcd))
  }

  lemma QuoByOne(a: int)
    ensures Quo(a, 1) == a
  {
  }

  /** Dividing two positive numbers by their gcd keeps their ratio and
      leaves them coprime. */
  lemma {:induction false} ReduceByGcd(a: int32, b: int32, g: int)
    requires a > 0 && b > 0 && g == Gcd(a, b)
    ensures g > 0
    ensures Quo(a, g) == a / g && Quo(b, g) == b / g
    ensures 0 < a / g <= a && 0 < b / g <= b
    ensures (a / g) * b == a * (b / g)
    ensures Gcd(a / g, b / g) == 1
  {
    ReducedIsCoprime(a, b);
    CrossDivide(a, b, g);
  }

  lemma CrossDivide(a: int, b: int, g: int)
    requires g > 0 && a > 0 && b > 0 && a % g == 0 && b % g == 0
    ensures 0 < a / g <= a && 0 < b / g <= b
    ensures (a / g) * b == a * (b / g)
  {
    var x, y := a / g, b / g;
    assert a == x * g;
    assert b == y * g;
    PositiveQuotient(a, g, x);
    PositiveQuotient(b, g, y);
    assert x * b == x * (y * g) == (x * g) * y == a * y;
  }

  lemma PositiveQuotient(a: int, g: int, x: int)
    requires g > 0 && a > 0 && a == x * g
    ensures 0 < x <= a
  {
    MulAtLeast(g, x);
  }

  /** `newRatio(p, q)`; q == 0 is the source's panic and is excluded.
      Whenever the sign-normalised numerator is positive the fraction is
      reduced by its gcd; when it is negative the loop never runs and the
      fraction is left unreduced. */
  function NewRatio(p: int32, q: int32): (r: Ratio)
    requires q != 0
    ensures p == 0 ==> r == Ratio(0, 1)
    ensures q != MIN_INT32 ==> r.q > 0
    ensures q > 0 || (q != MIN_INT32 && p != MIN_INT32) ==> r.p as int * q == p as int * r.q
    ensures q != MIN_INT32 && r.p > 0 ==> Gcd(r.p, r.q) == 1
    ensures Normalize(p, q).0 < 0 ==> r == Ratio(Normalize(p, q).0, Normalize(p, q).1)
  {
    var (p2, q2) := Normalize(p, q);
    var r := Reduce(p2, q2);
    if q > 0 || (q != MIN_INT32 && p != MIN_INT32) then
      ValueKept(p, q, p2, q2, r);
      r
    else
      r
  }

  /** The two cross-multiplications chain into one. */
  lemma ValueKept(p: int32, q: int32, p2: int32, q2: int32, r: Ratio)
    requires q != 0 && q2 != 0
    requires (p2 == p && q2 == q) || (p2 as int == -(p as int) && q2 as int == -(q as int)) || (p == 0 && p2 == 0 && q2 == 1)
    requires r.p as int * q2 == p2 as int * r.q
    ensures r.p as int * q == p as int * r.q
  {
    if p == 0 && p2 == 0 && q2 == 1 {
      assert r.p == 0;
    } else if p2 as int == -(p as int) && q2 as int == -(q as int) {
      assert r.p as int * q2 == -(r.p as int * q);
      assert p2 as int * r.q == -(p as int * r.q);
    }
  }

  /** The unwrapped value of the rounding division of |x| by d. */
  predicate NoOverflow(x: int, d: int)
    requires d > 0
  {
    ((if x < 0 then -x else x) + d / 2) / d <= MAX_INT32
  }

  /** Shared by `rmul` and `rdiv`: x / d rounded half away from zero on
      64-bit intermediates, then truncated to int32. */
  function RoundDiv(x: int, d: int32): int32
    requires d != 0
  {
    var half := Quo(d, 2);
    if x >= 0 then Wrap32(Quo(half + x, d)) else Neg32(Wrap32(Quo(half - x, d)))
  }

  /** Rounding a non-negative y by d: the result is floor(y/d + 1/2). */
  lemma RoundNonNegative(y: int, d: int)
    requires y >= 0 && d > 0
    ensures var m := (d / 2 + y) / d;
      && m >= 0
      && m * d <= y + d / 2 < m * d + d
      && -(d / 2) <= m * d - y <= d / 2
      && (y % d == 0 ==> m * d == y)
  {
    var m := (d / 2 + y) / d;
    assert d / 2 + y == m * d + (d / 2 + y) % d;
    if y % d == 0 {
      assert y == (y / d) * d;
      DivModUnique(d / 2 + y, d, y / d, d / 2);
    }
  }

  lemma Neg32Twice(v: int32)
    ensures Neg32(Neg32(v)) == v
  {
  }

  /** Half of the divisor, rounded toward zero, divides to zero. */
  lemma HalfQuotientIsZero(d: int32)
    requires d != 0
    ensures Quo(Quo(d, 2), d) == 0
  {
    var h := Quo(d, 2);
    var ad := if d < 0 then -(d as int) else d as int;
    var ah := if h < 0 then -h else h;
    assert ah == ad / 2;
    assert ah < ad;
    assert ah / ad == 0;
  }

  /** `RoundDiv` is odd: negating the dividend negates the result. */
  lemma RoundDivIsOdd(x: int, d: int32)
    requires d != 0
    ensures RoundDiv(-x, d) == Neg32(RoundDiv(x, d))
  {
    var half := Quo(d, 2);
    if x == 0 {
      HalfQuotientIsZero(d);
      assert RoundDiv(x, d) == Wrap32(0);
    } else if x > 0 {
      assert half - (-x) == half + x;
    } else {
      assert half + (-x) == half - x;
      Neg32Twice(Wrap32(Quo(half - x, d)));
    }
  }

  /** For a positive divisor and no overflow, `RoundDiv` is the rounded
      quotient of |x| carrying the sign of x. */
  lemma RoundDivPositive(x: int, d: int32)
    requires d > 0 && NoOverflow(x, d)
    ensures var y := if x < 0 then -x else x;
      RoundDiv(x, d) == (if x >= 0 then (d / 2 + y) / d else -((d / 2 + y) / d))
  {
    if x >= 0 {
      RoundDivOfNonNegative(x, d);
    } else {
      RoundDivOfNegative(x, d);
    }
  }

  lemma RoundDivOfNonNegative(x: int, d: int32)
    requires d > 0 && x >= 0 && NoOverflow(x, d)
    ensures RoundDiv(x, d) == (d / 2 + x) / d
  {
    var a := d / 2 + x;
    assert a / d <= MAX_INT32 by {
      assert x + d / 2 == a;
    }
    RoundedQuotient(a, d);
  }

  lemma RoundDivOfNegative(x: int, d: int32)
    requires d > 0 && x < 0 && NoOverflow(x, d)
    ensures RoundDiv(x, d) == -((d / 2 - x) / d)
  {
    var a := d / 2 - x;
    assert a / d <= MAX_INT32 by {
      assert -x + d / 2 == a;
    }
    RoundedQuotient(a, d);
  }

  /** The quotient both branches of `RoundDiv` compute, when it fits. */
  lemma RoundedQuotient(a: int, d: int32)
    requires d > 0 && a >= 0 && a / d <= MAX_INT32
    ensures Quo(d, 2) == d / 2 && Quo(a, d) == a / d
    ensures Wrap32(a / d) == a / d
  {
    assert 0 <= a / d;
  }

  /** Error bound and exactness of `RoundDiv` for a positive divisor. */
  lemma RoundDivBounds(x: int, d: int32)
    requires d != 0
    ensures d > 0 && NoOverflow(x, d) ==>
      && -(d / 2) <= RoundDiv(x, d) * d - x <= d / 2
      && (x % d == 0 ==> RoundDiv(x, d) * d == x)
      && (x >= 0 ==> RoundDiv(x, d) * d <= x + d / 2 < RoundDiv(x, d) * d + d)
  {
    if d > 0 && NoOverflow(x, d) {
      var y := if x < 0 then -x else x;
      var m := (d / 2 + y) / d;
      RoundDivPositive(x, d);
      RoundNonNegative(y, d);
      if x < 0 {
        assert RoundDiv(x, d) * d == -(m * d);
        if x % d == 0 {
          assert x == (x / d) * d;
          assert y == (-(x / d)) * d;
          MultipleMod(-(x / d), d);
        }
      }
    }
  }

  /** `rmul(n, r)`: n*p/q rounded half away from zero; q == 0 is a
      division panic in the source and is excluded. */
  function RMul(n: int32, r: Ratio): (m: int32)
    requires r.q != 0
    ensures r.q > 0 && NoOverflow(n * r.p, r.q) ==>
              -(r.q / 2) <= m * r.q - n * r.p <= r.q / 2
    ensures r.q > 0 && NoOverflow(n * r.p, r.q) && (n * r.p) % r.q == 0 ==> m * r.q == n * r.p
    ensures r.q > 0 && NoOverflow(n * r.p, r.q) && n * r.p >= 0 ==>
              m * r.q <= n * r.p + r.q / 2 < m * r.q + r.q
  {
    var x := n as int * r.p as int;
    RoundDivBounds(x, r.q);
    RoundDiv(x, r.q)
  }

  /** `rdiv(n, r)`: n*q/p rounded half away from zero; p == 0 is a
      division panic in the source and is excluded. */
  function RDiv(n: int32, r: Ratio): (m: int32)
    requires r.p != 0
    ensures r.p > 0 && NoOverflow(n * r.q, r.p) ==>
              -(r.p / 2) <= m * r.p - n * r.q <= r.p / 2
    ensures r.p > 0 && NoOverflow(n * r.q, r.p) && (n * r.q) % r.p == 0 ==> m * r.p == n * r.q
    ensures r.p > 0 && NoOverflow(n * r.q, r.p) && n * r.q >= 0 ==>
              m * r.p <= n * r.q + r.p / 2 < m * r.p + r.p
  {
    var x := n as int * r.q as int;
    RoundDivBounds(x, r.p);
    RoundDiv(x, r.p)
  }

  /** Rounding is symmetric about zero: rmul(-n, r) == -rmul(n, r). */
  lemma RMulIsOdd(n: int32, r: Ratio)
    requires r.q != 0 && n != MIN_INT32
    ensures RMul(-n, r) == Neg32(RMul(n, r))
  {
    assert (-n) as int * r.p == -(n as int * r.p);
    RoundDivIsOdd(n as int * r.p, r.q);
  }

  /** rdiv(-n, r) == -rdiv(n, r). */
  lemma RDivIsOdd(n: int32, r: Ratio)
    requires r.p != 0 && n != MIN_INT32
    ensures RDiv(-n, r) == Neg32(RDiv(n, r))
  {
    assert (-n) as int * r.q == -(n as int * r.q);
    RoundDivIsOdd(n as int * r.q, r.p);
  }

  /** For a ratio of at least one, dividing after multiplying gives back n
      within one unit. */
  lemma DivAfterMulWithinOne(n: int32, r: Ratio)
    requires 0 < r.q <= r.p
    requires NoOverflow(n * r.p, r.q) && NoOverflow(RMul(n, r) * r.q, r.p)
    ensures -1 <= RDiv(RMul(n, r), r) - n <= 1
  {
    var m := RMul(n, r);
    var k := RDiv(m, r);
    var a, b := k as int * r.p, m as int * r.q;
    assert -(r.p / 2) <= a - b <= r.p / 2;
    assert -(r.q / 2) <= b - n as int * r.p <= r.q / 2;
    UnitBound(k, n, r.p);
  }

  lemma UnitBound(k: int, n: int, p: int)
    requires p > 0 && -p <= k * p - n * p <= p
    ensures -1 <= k - n <= 1
  {
    assert k * p - n * p == (k - n) * p;
    if k - n >= 2 {
      assert (k - n) * p == (k - n - 1) * p + p;
      MulAtLeast(k - n - 1, p);
    } else if n - k >= 2 {
      assert (k - n) * p == -((n - k - 1) * p + p);
      MulAtLeast(n - k - 1, p);
    }
  }

  /** For a ratio below one the round trip can drift by more than a unit:
      with r = 1/5, rmul(3) == 1 and rdiv(1) == 5. */
  lemma DivAfterMulCanDrift()
    ensures RMul(3, Ratio(1, 5)) == 1
    ensures RDiv(1, Ratio(1, 5)) == 5
  {
  }
}

=== FILE: reader.dfy ===
/** internal/bytestream/reader.go: a Reader that scans decimal integers
    out of a stream and remembers the last read error, together with the
    integer scan it shares with image/io.go. */
module IntReaders {
  import opened BoundedInts
  import opened Results
  import opened Sources
  import opened Ascii
  import opened ByteReaders

  /** Why ReadInteger produced no integer. */
  datatype IntError =
    | ReadFailed(fault: Fault)  // the stream failed (or ended) mid-scan
    | NoInteger                 // the first byte after the layout is not a digit

  /** A Reader: the position of its underlying stream and the sticky error. */
  datatype Reader = Reader(pos: nat, e: Option<Fault>)

  function NewReader(pos: nat): (rd: Reader)
    ensures rd.pos == pos && rd.e == None
  {
    Reader(pos, None)
  }

  /** `Error`: the last read error recorded, if any. */
  function Error(rd: Reader): (e: Option<Fault>)
    ensures e == rd.e
  {
    rd.e
  }

  /** `ClearError` forgets the recorded error and nothing else. */
  function ClearError(rd: Reader): (r: Reader)
    ensures r.e == None && r.pos == rd.pos
  {
    rd.(e := None)
  }

  /** Bytes the scan skips before an integer: blanks and the `#` that opens a comment. */
  predicate IsLayout(b: byte) {
    IsBlank(b) || b == HASH
  }

  // ---------------------------------------------------------------------
  // The scan, step by step as the loops run.

  /** The inner comment loop: advance until B is CR or LF. */
  function SkipComment(src: Source, br: ByteReader): (r: ByteReader)
    requires br.E.None?
    ensures r.onFailure == br.onFailure && r.pos >= br.pos
    ensures r.E.None? ==> IsEol(r.B)
    decreases |src.data| - br.pos
  {
    var a := Advance(src, br);
    if a.E.Some? || IsEol(a.B) then a else SkipComment(src, a)
  }

  /** The outer "eat blank" loop. */
  function SkipLayout(src: Source, br: ByteReader): (r: ByteReader)
    requires br.E.None?
    ensures r.onFailure == br.onFailure && r.pos >= br.pos
    ensures r.E.None? ==> !IsLayout(r.B)
    decreases |src.data| - br.pos
  {
    if !IsLayout(br.B) then br
    else
      var c := if br.B == HASH then SkipComment(src, br) else br;
      if c.E.Some? then c
      else
        var a := Advance(src, c);
        if a.E.Some? then a else SkipLayout(src, a)
  }

  /** The "eat integer" loop, accumulating modulo 2^32 as Go's uint32 does. */
  function ReadDigits(src: Source, br: ByteReader, acc: uint32): (r: (ByteReader, uint32))
    requires br.E.None?
    ensures r.0.onFailure == br.onFailure && r.0.pos >= br.pos
    ensures r.0.E.None? ==> !IsDigit(r.0.B)
    decreases |src.data| - br.pos
  {
    if !IsDigit(br.B) then (br, acc)
    else
      var acc' := U32(acc * 10 + (br.B - ZERO));
      var a := Advance(src, br);
      if a.E.Some? then (a, acc') else ReadDigits(src, a, acc')
  }

  /** What follows the layout: the digit check and the digit loop. */
  function Finish(src: Source, br: ByteReader): (r: (ByteReader, Result<uint32, IntError>))
    ensures r.0.pos >= br.pos
  {
    if br.E.Some? then (br, Err(ReadFailed(br.E.value)))
    else if !IsDigit(br.B) then (br, Err(NoInteger))
    else
      var (b2, v) := ReadDigits(src, br, 0);
      if b2.E.Some? then (b2, Err(ReadFailed(b2.E.value))) else (b2, Ok(v))
  }

  /** The whole scan from a fresh byte reader whose B is preset to LF. */
  function ScanInteger(src: Source, br: ByteReader): (r: (ByteReader, Result<uint32, IntError>))
    requires br.E.None?
    ensures r.0.pos >= br.pos
  {
    Finish(src, SkipLayout(src, br.(B := LF)))
  }

  /** Where a scan from stream position pos stops and what it returns. */
  function ScanFrom(src: Source, onFailure: FailedRead, pos: nat): (nat, Result<uint32, IntError>) {
    var r := ScanInteger(src, Fresh(onFailure, pos));
    (r.0.pos, r.1)
  }

  // ---------------------------------------------------------------------
  // The same scan described by the grammar it accepts.

  /** The first index at or after i holding CR or LF, or |s| if none does. */
  function EolFrom(s: seq<byte>, i: nat): (j: nat)
    requires i <= |s|
    ensures i <= j <= |s|
    ensures forall k :: i <= k < j ==> !IsEol(s[k])
    ensures j < |s| ==> IsEol(s[j])
    decreases |s| - i
  {
    if i == |s| || IsEol(s[i]) then i else EolFrom(s, i + 1)
  }

  /** The first index at or after i that is not a digit, or |s|. */
  function DigitsEnd(s: seq<byte>, i: nat): (j: nat)
    requires i <= |s|
    ensures i <= j <= |s|
    ensures forall k :: i <= k < j ==> IsDigit(s[k])
    ensures j < |s| ==> !IsDigit(s[j])
    decreases |s| - i
  {
    if i == |s| || !IsDigit(s[i]) then i else DigitsEnd(s, i + 1)
  }

  /** The meaning of the scan: skip blanks and `#` comments that run to
      the end of a line, then read a run of digits and the one byte that
      ends it. Running out of data anywhere is a read failure; any other
      byte where the integer should start is NoInteger, with that byte
      consumed. The value is the decimal value of the digits modulo 2^32. */
  function ExpectedScan(src: Source, pos: nat): (r: (nat, Result<uint32, IntError>))
    ensures r.0 >= pos
    ensures r.1.Ok? ==> r.0 <= |src.data|
    decreases |src.data| - pos
  {
    if pos >= |src.data| then (pos, Err(ReadFailed(src.EndFault())))
    else
      var b := src.data[pos];
      if IsBlank(b) then ExpectedScan(src, pos + 1)
      else if b == HASH then
        var j := EolFrom(src.data, pos + 1);
        if j == |src.data| then (j, Err(ReadFailed(src.EndFault())))
        else ExpectedScan(src, j + 1)
      else if !IsDigit(b) then (pos + 1, Err(NoInteger))
      else
        var e := DigitsEnd(src.data, pos);
        if e == |src.data| then (e, Err(ReadFailed(src.EndFault())))
        else (e + 1, Ok(U32(DecimalValue(src.data[pos..e]))))
  }

  /** A digit run from i that stops before a non-digit at j ends at j. */
  lemma {:induction false} DigitsEndAt(s: seq<byte>, i: nat, j: nat)
    requires i <= j < |s| && !IsDigit(s[j])
    requires forall k :: i <= k < j ==> IsDigit(s[k])
    ensures DigitsEnd(s, i) == j
    decreases j - i
  {
    if i < j {
      DigitsEndAt(s, i + 1, j);
    }
  }

  /** An integer written in decimal and ended by any non-digit is scanned
      back as itself, and the scan stops just past the terminator. */
  lemma {:induction false} ScanReadsDecimal(n: nat, before: seq<byte>, sep: byte, after: seq<byte>, failsAtEnd: bool)
    requires n < TWO_TO_THE_32 && !IsDigit(sep)
    ensures var src := Source(before + Decimal(n) + [sep] + after, failsAtEnd);
      ExpectedScan(src, |before|) == (|before| + |Decimal(n)| + 1, Ok(n as uint32))
  {
    DecimalScanValue(n);
    ScanReadsDigitsIn(Source(before + Decimal(n) + [sep] + after, failsAtEnd), Decimal(n), n as uint32, before, sep, after, failsAtEnd);
  }

  /** The 32-bit value of a written decimal is the number written. */
  lemma {:induction false} DecimalScanValue(n: nat)
    requires n < TWO_TO_THE_32
    ensures n as uint32 == U32(DecimalValue(Decimal(n)))
  {
    DecimalValueOfDecimal(n);
  }

  /** A digit run ended by a non-digit is scanned as its decimal value. */
  lemma {:induction false} ScanReadsDigits(d: seq<byte>, before: seq<byte>, sep: byte, after: seq<byte>, failsAtEnd: bool)
    requires |d| >= 1 && !IsDigit(sep)
    requires forall i :: 0 <= i < |d| ==> IsDigit(d[i])
    ensures var src := Source(before + d + [sep] + after, failsAtEnd);
      ExpectedScan(src, |before|) == (|before| + |d| + 1, Ok(U32(DecimalValue(d))))
  {
    ScanReadsDigitsIn(Source(before + d + [sep] + after, failsAtEnd), d, U32(DecimalValue(d)), before, sep, after, failsAtEnd);
  }

  /** ScanReadsDigits on a source known only through its data, with the
      value v the digits denote. */
  lemma {:induction false} ScanReadsDigitsIn(src: Source, d: seq<byte>, v: uint32, before: seq<byte>, sep: byte, after: seq<byte>, failsAtEnd: bool)
    requires |d| >= 1 && !IsDigit(sep)
    requires forall i :: 0 <= i < |d| ==> IsDigit(d[i])
    requires src == Source(before + d + [sep] + after, failsAtEnd) && v == U32(DecimalValue(d))
    ensures ExpectedScan(src, |before|) == (|before| + |d| + 1, Ok(v))
  {
    DecimalLayout(src, d, before, sep, after, failsAtEnd);
    ScanReadsRun(src, |before|, d, v);
  }

  /** Where the pieces of before + d + [sep] + after sit. */
  lemma DecimalLayout(src: Source, d: seq<byte>, before: seq<byte>, sep: byte, after: seq<byte>, failsAtEnd: bool)
    requires !IsDigit(sep) && src == Source(before + d + [sep] + after, failsAtEnd)
    ensures |before| + |d| < |src.data| && !IsDigit(src.data[|before| + |d|])
    ensures forall k :: |before| <= k < |before| + |d| ==> src.data[k] == d[k - |before|]
  {
  }

  /** A scan that starts on digits d, in place and followed by a
      non-digit, reads their value v and the byte after them. */
  lemma {:induction false} ScanReadsRun(src: Source, p: nat, d: seq<byte>, v: uint32)
    requires |d| >= 1 && forall i :: 0 <= i < |d| ==> IsDigit(d[i])
    requires p + |d| < |src.data| && !IsDigit(src.data[p + |d|])
    requires forall k :: p <= k < p + |d| ==> src.data[k] == d[k - p]
    requires v == U32(DecimalValue(d))
    ensures ExpectedScan(src, p) == (p + |d| + 1, Ok(v))
  {
    var e := p + |d|;
    assert src.data[p..e] == d;
    DigitsEndAt(src.data, p, e);
    ScanDigitsAt(src, p, e);
  }

  /** A scan that starts on a digit run ended before the data's end reads that run. */
  lemma {:induction false} ScanDigitsAt(src: Source, p: nat, e: nat)
    requires p < e < |src.data| && IsDigit(src.data[p]) && DigitsEnd(src.data, p) == e
    ensures ExpectedScan(src, p) == (e + 1, Ok(U32(DecimalValue(src.data[p..e]))))
  {
  }

  // ---------------------------------------------------------------------
  // The loops implement the grammar.

  /** Starting a scan at pos reads the byte there first. */
  lemma {:induction false} ScanStart(src: Source, onFailure: FailedRead, pos: nat)
    ensures pos < |src.data| ==>
      ScanFrom(src, onFailure, pos) == Summary(Finish(src, SkipLayout(src, AfterRead(onFailure, pos, src.data[pos]))))
    ensures pos >= |src.data| ==>
      ScanFrom(src, onFailure, pos) == (pos, Err(ReadFailed(src.EndFault())))
  {
    var br0 := Fresh(onFailure, pos).(B := LF);
    var a := Advance(src, br0);
    assert SkipLayout(src, br0) == (if a.E.Some? then a else SkipLayout(src, a));
    if pos < |src.data| {
      assert a == AfterRead(onFailure, pos, src.data[pos]);
    }
  }

  function Summary(r: (ByteReader, Result<uint32, IntError>)): (nat, Result<uint32, IntError>) {
    (r.0.pos, r.1)
  }

  /** A blank after byte q is skipped: the scan continues as if it started at q + 1. */
  lemma {:induction false} LayoutAfterBlank(src: Source, onFailure: FailedRead, q: nat, d: byte)
    requires IsBlank(d)
    ensures Summary(Finish(src, SkipLayout(src, AfterRead(onFailure, q, d)))) == ScanFrom(src, onFailure, q + 1)
  {
    var br := AfterRead(onFailure, q, d);
    var a := Advance(src, br);
    assert SkipLayout(src, br) == (if a.E.Some? then a else SkipLayout(src, a));
    ScanStart(src, onFailure, q + 1);
    if q + 1 < |src.data| {
      assert a == AfterRead(onFailure, q + 1, src.data[q + 1]);
    }
  }

  /** The comment loop stops right after the first CR or LF. */
  lemma {:induction false} CommentEndsAtEol(src: Source, br: ByteReader, j: nat)
    requires br.E.None? && br.pos <= j < |src.data|
    requires forall k :: br.pos <= k < j ==> !IsEol(src.data[k])
    requires IsEol(src.data[j])
    ensures SkipComment(src, br) == AfterRead(br.onFailure, j, src.data[j])
    decreases j - br.pos
  {
    var a := Advance(src, br);
    if br.pos < j {
      CommentEndsAtEol(src, a, j);
    }
  }

  /** A comment with no line end runs into the end of the data. */
  lemma {:induction false} CommentRunsOut(src: Source, br: ByteReader)
    requires br.E.None? && br.pos <= |src.data|
    requires forall k :: br.pos <= k < |src.data| ==> !IsEol(src.data[k])
    ensures SkipComment(src, br).E == Some(src.EndFault())
    ensures SkipComment(src, br).pos == |src.data|
    decreases |src.data| - br.pos
  {
    var a := Advance(src, br);
    if br.pos < |src.data| {
      CommentRunsOut(src, a);
    }
  }

  /** A `#` read at q: the scan resumes after the line end, or fails at the end of data. */
  lemma {:induction false} LayoutAfterHash(src: Source, onFailure: FailedRead, q: nat)
    requires q < |src.data| && src.data[q] == HASH
    ensures var j := EolFrom(src.data, q + 1);
      Summary(Finish(src, SkipLayout(src, AfterRead(onFailure, q, HASH)))) ==
        if j == |src.data| then (j, Err(ReadFailed(src.EndFault()))) else ScanFrom(src, onFailure, j + 1)
  {
    var br := AfterRead(onFailure, q, HASH);
    var j := EolFrom(src.data, q + 1);
    if j == |src.data| {
      CommentRunsOut(src, br);
    } else {
      CommentEndsAtEol(src, br, j);
      var c := SkipComment(src, br);
      var a := Advance(src, c);
      assert SkipLayout(src, br) == (if a.E.Some? then a else SkipLayout(src, a));
      ScanStart(src, onFailure, j + 1);
      if j + 1 < |src.data| {
        assert a == AfterRead(onFailure, j + 1, src.data[j + 1]);
      }
    }
  }

  /** Folding one more digit into a value kept modulo 2^32. */
  lemma DigitStep(s: seq<byte>, start: nat, k: nat, acc: uint32)
    requires start <= k < |s|
    requires forall i :: start <= i <= k ==> IsDigit(s[i])
    requires acc == U32(DecimalValue(s[start..k]))
    ensures U32(acc * 10 + (s[k] - ZERO)) == U32(DecimalValue(s[start..k + 1]))
  {
    var run := s[start..k + 1];
    assert run[..|run| - 1] == s[start..k] && run[|run| - 1] == s[k];
    assert DecimalValue(run) == DecimalValue(s[start..k]) * 10 + (s[k] - ZERO);
    AccumulateMod(DecimalValue(s[start..k]), s[k] - ZERO);
  }

  /** The digit loop from just after digit k of a run that starts at
      start: it stops after the run's end e having accumulated the whole
      run, or fails at the end of the data. */
  lemma {:induction false} DigitsValue(src: Source, onFailure: FailedRead, start: nat, k: nat, acc: uint32)
    requires start <= k < |src.data| && IsDigit(src.data[k])
    requires forall i :: start <= i <= k ==> IsDigit(src.data[i])
    requires acc == U32(DecimalValue(src.data[start..k]))
    ensures var e := DigitsEnd(src.data, k);
      var r := ReadDigits(src, AfterRead(onFailure, k, src.data[k]), acc);
      r.1 == U32(DecimalValue(src.data[start..e])) &&
      (e < |src.data| ==> r.0 == AfterRead(onFailure, e, src.data[e])) &&
      (e == |src.data| ==> r.0.E == Some(src.EndFault()) && r.0.pos == e)
    decreases |src.data| - k
  {
    var br := AfterRead(onFailure, k, src.data[k]);
    var acc' := U32(acc * 10 + (src.data[k] - ZERO));
    DigitStep(src.data, start, k, acc);
    var a := Advance(src, br);
    assert ReadDigits(src, br, acc) == (if a.E.Some? then (a, acc') else ReadDigits(src, a, acc'));
    if k + 1 < |src.data| {
      assert a == AfterRead(onFailure, k + 1, src.data[k + 1]);
      if IsDigit(src.data[k + 1]) {
        DigitsValue(src, onFailure, start, k + 1, acc');
      }
    }
  }

  /** A digit read at q: the scan is the digit run and the byte after it. */
  lemma {:induction false} LayoutAfterDigit(src: Source, onFailure: FailedRead, q: nat)
    requires q < |src.data| && IsDigit(src.data[q])
    ensures var e := DigitsEnd(src.data, q);
      Summary(Finish(src, SkipLayout(src, AfterRead(onFailure, q, src.data[q])))) ==
        if e == |src.data| then (e, Err(ReadFailed(src.EndFault())))
        else (e + 1, Ok(U32(DecimalValue(src.data[q..e]))))
  {
    assert src.data[q..q] == [];
    DigitsValue(src, onFailure, q, q, 0);
  }

  /** The scan loops accept exactly the grammar ExpectedScan describes,
      whichever byte reader they run on. */
  lemma {:induction false} ScanMatchesGrammar(src: Source, onFailure: FailedRead, pos: nat)
    ensures ScanFrom(src, onFailure, pos) == ExpectedScan(src, pos)
    decreases |src.data| - pos
  {
    ScanStart(src, onFailure, pos);
    if pos < |src.data| {
      var b := src.data[pos];
      if IsBlank(b) {
        LayoutAfterBlank(src, onFailure, pos, b);
        ScanMatchesGrammar(src, onFailure, pos + 1);
      } else if b == HASH {
        LayoutAfterHash(src, onFailure, pos);
        var j := EolFrom(src.data, pos + 1);
        if j < |src.data| {
          ScanMatchesGrammar(src, onFailure, j + 1);
        }
      } else if IsDigit(b) {
        LayoutAfterDigit(src, onFailure, pos);
      }
    }
  }

  // ---------------------------------------------------------------------
  // The Reader method.

  /** `ReadInteger`: the next integer of the stream, as ExpectedScan
      describes; a read failure is also recorded in the Reader, while a
      missing integer leaves its error as it was. */
  function ReadInteger(src: Source, rd: Reader): (r: (Reader, Result<uint32, IntError>))
    ensures r.1 == ExpectedScan(src, rd.pos).1
    ensures r.0.pos == ExpectedScan(src, rd.pos).0
    ensures r.0.e == (if r.1.Err? && r.1.error.ReadFailed? then Some(r.1.error.fault) else rd.e)
  {
    ScanMatchesGrammar(src, KeepsBuffer, rd.pos);
    var s := ScanInteger(src, NewByteReader(rd.pos));
    match s.1
    case Err(ReadFailed(f)) => (Reader(s.0.pos, Some(f)), s.1)
    case _ => (rd.(pos := s.0.pos), s.1)
  }
}

=== FILE: rect.dfy ===
/** Half-open axis-aligned rectangles with signed 32-bit bounds
    (djvu/image/rect.go). A rectangle holds the points (x, y) with
    xmin <= x < xmax and ymin <= y < ymax. Every operation whose result
    would be degenerate returns the zero rectangle. */
module Rects {
  import opened BoundedInts

  datatype Rect = Rect(xmin: int32, ymin: int32, xmax: int32, ymax: int32)

  /** The zero value `Rect{}`, the canonical empty rectangle. */
  const Zero: Rect := Rect(0, 0, 0, 0)

  function Min(x: int32, y: int32): (r: int32)
    ensures r <= x && r <= y
    ensures r == x || r == y
  {
    if x > y then y else x
  }

  function Max(x: int32, y: int32): (r: int32)
    ensures r >= x && r >= y
    ensures r == x || r == y
  {
    if x > y then x else y
  }

  /** `isEmpty`: the bounds enclose no point. */
  predicate EmptyBounds(xmin: int, xmax: int, ymin: int, ymax: int) {
    xmin >= xmax || ymin >= ymax
  }

  predicate IsEmpty(r: Rect) {
    EmptyBounds(r.xmin, r.xmax, r.ymin, r.ymax)
  }

  /** Either the zero rectangle or a rectangle holding at least one point. */
  predicate Canonical(r: Rect) {
    r == Zero || !IsEmpty(r)
  }

  function Abs(x: int): nat {
    if x < 0 then -x else x
  }

  /** `NewRect`: a corner and a signed extent; the bounds are ordered
      whatever the signs of width and height. */
  function NewRect(xmin: int32, ymin: int32, width: int32, height: int32): (r: Rect)
    ensures r.xmin <= r.xmax && r.ymin <= r.ymax
    ensures r.xmin == xmin || r.xmax == xmin
    ensures r.ymin == ymin || r.ymax == ymin
    ensures MIN_INT32 <= xmin + width <= MAX_INT32 && width != MIN_INT32 ==> Width(r) == Abs(width)
    ensures MIN_INT32 <= ymin + height <= MAX_INT32 && height != MIN_INT32 ==> Height(r) == Abs(height)
  {
    var x2 := Wrap32(xmin as int + width as int);
    var y2 := Wrap32(ymin as int + height as int);
    Rect(Min(xmin, x2), Min(ymin, y2), Max(xmin, x2), Max(ymin, y2))
  }

  /** `Width`: the int32 difference of the x bounds, exact when it fits. */
  function Width(r: Rect): (w: int32)
    ensures MIN_INT32 <= r.xmax as int - r.xmin as int <= MAX_INT32 ==> w as int == r.xmax as int - r.xmin as int
    ensures !IsEmpty(r) ==> (w > 0 <==> r.xmax as int - r.xmin as int <= MAX_INT32)
  {
    Wrap32(r.xmax as int - r.xmin as int)
  }

  /** `Height`: the int32 difference of the y bounds, exact when it fits. */
  function Height(r: Rect): (h: int32)
    ensures MIN_INT32 <= r.ymax as int - r.ymin as int <= MAX_INT32 ==> h as int == r.ymax as int - r.ymin as int
    ensures !IsEmpty(r) ==> (h > 0 <==> r.ymax as int - r.ymin as int <= MAX_INT32)
  {
    Wrap32(r.ymax as int - r.ymin as int)
  }

  /** `Area`: zero for an empty rectangle, otherwise the int32 product of
      width and height, which is the exact positive area when it fits. */
  function Area(r: Rect): (a: int32)
    ensures IsEmpty(r) ==> a == 0
    ensures !IsEmpty(r) && (r.xmax - r.xmin) * (r.ymax - r.ymin) <= MAX_INT32 ==>
              a == (r.xmax - r.xmin) * (r.ymax - r.ymin) && a > 0
  {
    if IsEmpty(r) then 0
    else
      var w, h := r.xmax as int - r.xmin as int, r.ymax as int - r.ymin as int;
      ProductBound(w, h);
      Wrap32(Width(r) as int * Height(r) as int)
  }

  /** For positive w and h whose product fits in an int32, so do w and h;
      then the wrapped product is the product. */
  lemma ProductBound(w: int, h: int)
    requires w > 0 && h > 0
    ensures w * h <= MAX_INT32 ==> w <= MAX_INT32 && h <= MAX_INT32 && w * h > 0
  {
    if w * h <= MAX_INT32 {
      assert w * h >= w * 1;
      assert w * h >= 1 * h;
    }
  }

  predicate Contains(r: Rect, x: int, y: int) {
    x >= r.xmin && x < r.xmax && y >= r.ymin && y < r.ymax
  }

  /** Upper bounds are exclusive, and an empty rectangle holds no point. */
  lemma ContainsIsHalfOpen(r: Rect, x: int, y: int)
    ensures !Contains(r, r.xmax, y) && !Contains(r, x, r.ymax)
    ensures Contains(r, r.xmin, r.ymin) <==> !IsEmpty(r)
    ensures IsEmpty(r) ==> !Contains(r, x, y)
  {
  }

  /** `sanitize`: the zero rectangle for degenerate bounds. */
  function Sanitize(xmin: int32, xmax: int32, ymin: int32, ymax: int32): (r: Rect)
    ensures Canonical(r)
    ensures EmptyBounds(xmin, xmax, ymin, ymax) <==> r == Zero
    ensures !EmptyBounds(xmin, xmax, ymin, ymax) ==> r == Rect(xmin, ymin, xmax, ymax)
  {
    if EmptyBounds(xmin, xmax, ymin, ymax) then Zero else Rect(xmin, ymin, xmax, ymax)
  }

  function Inflate(r: Rect, dx: int32, dy: int32): (r': Rect)
    ensures Canonical(r')
  {
    Sanitize(Wrap32(r.xmin as int - dx as int), Wrap32(r.xmax as int + dx as int),
             Wrap32(r.ymin as int - dy as int), Wrap32(r.ymax as int + dy as int))
  }

  function Translate(r: Rect, dx: int32, dy: int32): (r': Rect)
    ensures Canonical(r')
  {
    Sanitize(Wrap32(r.xmin as int + dx as int), Wrap32(r.xmax as int + dx as int),
             Wrap32(r.ymin as int + dy as int), Wrap32(r.ymax as int + dy as int))
  }

  function Intersect(r: Rect, r2: Rect): (r': Rect)
    ensures Canonical(r')
  {
    Sanitize(Max(r.xmin, r2.xmin), Min(r.xmax, r2.xmax), Max(r.ymin, r2.ymin), Min(r.ymax, r2.ymax))
  }

  /** `ContainsRect`: the intersection with r2 is r2 itself. */
  predicate ContainsRect(r: Rect, r2: Rect) {
    Intersect(r, r2) == r2
  }

  /** Intersection is commutative. */
  lemma IntersectCommutes(a: Rect, b: Rect)
    ensures Intersect(a, b) == Intersect(b, a)
  {
  }

  /** A point lies in the intersection exactly when it lies in both. */
  lemma IntersectIsPointwiseAnd(a: Rect, b: Rect, x: int, y: int)
    ensures Contains(Intersect(a, b), x, y) <==> Contains(a, x, y) && Contains(b, x, y)
  {
  }

  /** `ContainsRect` holds exactly for the zero rectangle and for the
      non-empty rectangles whose bounds lie within r. */
  lemma ContainsRectBounds(r: Rect, r2: Rect)
    ensures ContainsRect(r, r2) <==>
              r2 == Zero ||
              (!IsEmpty(r2) && r.xmin <= r2.xmin && r2.xmax <= r.xmax && r.ymin <= r2.ymin && r2.ymax <= r.ymax)
  {
  }

  /** A non-empty r2 contained in r has all its points in r. */
  lemma ContainsRectHoldsPoints(r: Rect, r2: Rect, x: int, y: int)
    requires ContainsRect(r, r2) && !IsEmpty(r2)
    ensures Contains(r2, x, y) ==> Contains(r, x, y)
  {
    ContainsRectBounds(r, r2);
  }

  /** Conversely, a non-empty r2 whose points all lie in r is contained in r. */
  lemma PointsInsideGiveContainsRect(r: Rect, r2: Rect)
    requires !IsEmpty(r2)
    requires forall x: int, y: int :: Contains(r2, x, y) ==> Contains(r, x, y)
    ensures ContainsRect(r, r2)
  {
    assert Contains(r2, r2.xmin, r2.ymin);
    assert Contains(r2, r2.xmax - 1, r2.ymax - 1);
    ContainsRectBounds(r, r2);
  }

  /** Inflating a non-empty rectangle outward, without overflow, keeps
      every point it held. */
  lemma InflateGrows(r: Rect, dx: int32, dy: int32, x: int, y: int)
    requires !IsEmpty(r) && dx >= 0 && dy >= 0
    requires r.xmin - dx >= MIN_INT32 && r.xmax + dx <= MAX_INT32
    requires r.ymin - dy >= MIN_INT32 && r.ymax + dy <= MAX_INT32
    ensures Contains(r, x, y) ==> Contains(Inflate(r, dx, dy), x, y)
  {
  }

  /** Inflating by zero is the identity on non-empty rectangles. */
  lemma InflateByZero(r: Rect)
    requires !IsEmpty(r)
    ensures Inflate(r, 0, 0) == r
  {
  }

  /** Without overflow, translation keeps the size of a non-empty
      rectangle and moves each of its points by (dx, dy). */
  lemma TranslateKeepsSize(r: Rect, dx: int32, dy: int32, x: int, y: int)
    requires !IsEmpty(r)
    requires MIN_INT32 <= r.xmin + dx && r.xmax + dx <= MAX_INT32
    requires MIN_INT32 <= r.ymin + dy && r.ymax + dy <= MAX_INT32
    ensures Width(Translate(r, dx, dy)) == Width(r) && Height(Translate(r, dx, dy)) == Height(r)
    ensures Contains(r, x, y) <==> Contains(Translate(r, dx, dy), x + dx, y + dy)
  {
  }

  /** Without overflow, translating an empty rectangle gives the zero rectangle. */
  lemma TranslateEmpty(r: Rect, dx: int32, dy: int32)
    requires IsEmpty(r)
    requires MIN_INT32 <= r.xmin + dx <= MAX_INT32 && MIN_INT32 <= r.xmax + dx <= MAX_INT32
    requires MIN_INT32 <= r.ymin + dy <= MAX_INT32 && MIN_INT32 <= r.ymax + dy <= MAX_INT32
    ensures Translate(r, dx, dy) == Zero
  {
  }

  /** With int32 wrap-around, translating an empty rectangle can produce
      a non-empty one: xmin = 1 moves to MinInt32 while xmax = 0 moves to
      MaxInt32. */
  lemma TranslateEmptyCanWrap()
    ensures IsEmpty(Rect(1, 0, 0, 1))
    ensures Translate(Rect(1, 0, 0, 1), MAX_INT32, 0) == Rect(MIN_INT32, 0, MAX_INT32, 1)
  {
  }
}

=== FILE: rect_mapper.dfy ===
/** The constructor of `RectMapper` (djvu/image/rect_mapper.go), which
    relates a source rectangle to a destination rectangle through two
    exact ratios. */
module RectMappers {
  import opened BoundedInts
  import opened Results
  import opened Arith
  import opened Rects
  import opened Ratios

  /** Orientation code bits. */
  const MIRROR_X: byte := 1
  const MIRROR_Y: byte := 2
  const SWAP_XY: byte := 4

  datatype RectMapper = RectMapper(src: Rect, dst: Rect, code: byte, rw: Ratio, rh: Ratio)

  datatype MapperError = EmptyRectangle

  /** A non-empty rectangle has non-zero int32 width and height, so the
      ratios built from them never divide by zero. */
  lemma NonEmptyHasExtent(r: Rect)
    requires !IsEmpty(r)
    ensures Width(r) != 0 && Height(r) != 0
  {
  }

  /** Without int32 overflow, a non-empty rectangle's width and height
      are its positive extents. */
  lemma ExtentIsSize(r: Rect)
    requires !IsEmpty(r)
    ensures r.xmax - r.xmin <= MAX_INT32 ==> Width(r) as int == r.xmax - r.xmin > 0
    ensures r.ymax - r.ymin <= MAX_INT32 ==> Height(r) as int == r.ymax - r.ymin > 0
  {
  }

  /** The ratio of two positive numbers is positive, in lowest terms and
      equal in value to p / q. */
  lemma PositiveRatio(p: int32, q: int32)
    requires p > 0 && q > 0
    ensures var r := NewRatio(p, q);
      r.q > 0 && r.p > 0 && Gcd(r.p, r.q) == 1 && r.p as int * q == p as int * r.q
  {
    var r := NewRatio(p, q);
    MulAtLeast(p, r.q);
    if r.p <= 0 {
      MulMono(r.p, 0, q);
    }
  }

  /** The width ratio of a mapper between two non-empty rectangles. */
  lemma WidthRatio(src: Rect, dst: Rect)
    requires !IsEmpty(src) && !IsEmpty(dst)
    ensures Width(src) != 0
    ensures src.xmax - src.xmin <= MAX_INT32 && dst.xmax - dst.xmin <= MAX_INT32 ==>
      var rw := NewRatio(Width(dst), Width(src));
      rw.q > 0 && rw.p > 0 && Gcd(rw.p, rw.q) == 1 &&
      rw.p * (src.xmax - src.xmin) == (dst.xmax - dst.xmin) * rw.q
  {
    NonEmptyHasExtent(src);
    ExtentIsSize(src);
    ExtentIsSize(dst);
    if src.xmax - src.xmin <= MAX_INT32 && dst.xmax - dst.xmin <= MAX_INT32 {
      PositiveRatio(Width(dst), Width(src));
    }
  }

  /** The height ratio of a mapper between two non-empty rectangles. */
  lemma HeightRatio(src: Rect, dst: Rect)
    requires !IsEmpty(src) && !IsEmpty(dst)
    ensures Height(src) != 0
    ensures src.ymax - src.ymin <= MAX_INT32 && dst.ymax - dst.ymin <= MAX_INT32 ==>
      var rh := NewRatio(Height(dst), Height(src));
      rh.q > 0 && rh.p > 0 && Gcd(rh.p, rh.q) == 1 &&
      rh.p * (src.ymax - src.ymin) == (dst.ymax - dst.ymin) * rh.q
  {
    NonEmptyHasExtent(src);
    ExtentIsSize(src);
    ExtentIsSize(dst);
    if src.ymax - src.ymin <= MAX_INT32 && dst.ymax - dst.ymin <= MAX_INT32 {
      PositiveRatio(Height(dst), Height(src));
    }
  }

  /** `NewRectMapper(src, dst)`: fails exactly when either rectangle is
      empty; otherwise the code is 0 and rw, rh are the reduced ratios of
      the destination's to the source's width and height. */
  function NewRectMapper(src: Rect, dst: Rect): (r: Result<RectMapper, MapperError>)
    ensures r.Err? <==> IsEmpty(src) || IsEmpty(dst)
    ensures r.Ok? ==> r.value.src == src && r.value.dst == dst && r.value.code == 0
    ensures r.Ok? ==> r.value.rw == NewRatio(Width(dst), Width(src))
    ensures r.Ok? ==> r.value.rh == NewRatio(Height(dst), Height(src))
    ensures r.Ok? && src.xmax - src.xmin <= MAX_INT32 && dst.xmax - dst.xmin <= MAX_INT32 ==>
              r.value.rw.q > 0 && r.value.rw.p > 0 && Gcd(r.value.rw.p, r.value.rw.q) == 1 &&
              r.value.rw.p * (src.xmax - src.xmin) == (dst.xmax - dst.xmin) * r.value.rw.q
    ensures r.Ok? && src.ymax - src.ymin <= MAX_INT32 && dst.ymax - dst.ymin <= MAX_INT32 ==>
              r.value.rh.q > 0 && r.value.rh.p > 0 && Gcd(r.value.rh.p, r.value.rh.q) == 1 &&
              r.value.rh.p * (src.ymax - src.ymin) == (dst.ymax - dst.ymin) * r.value.rh.q
  {
    if IsEmpty(src) || IsEmpty(dst) then Err(EmptyRectangle)
    else
      WidthRatio(src, dst);
      HeightRatio(src, dst);
      Ok(RectMapper(src, dst, 0, NewRatio(Width(dst), Width(src)), NewRatio(Height(dst), Height(src))))
  }

  /** Mapping the 10x10 square onto the 5x5 square halves coordinates:
      (10, 10) goes to (5, 5) and (0, 0) stays put. */
  lemma HalvingExample()
    ensures NewRectMapper(Rect(0, 0, 10, 10), Rect(0, 0, 5, 5)).Ok?
    ensures var m := NewRectMapper(Rect(0, 0, 10, 10), Rect(0, 0, 5, 5)).value;
      m.rw == Ratio(1, 2) && RMul(10, m.rw) == 5 && RMul(0, m.rw) == 0 && RMul(10, m.rh) == 5
  {
    var m := NewRectMapper(Rect(0, 0, 10, 10), Rect(0, 0, 5, 5)).value;
    assert m.rw == NewRatio(5, 10);
    assert EuclidLoop(5, 10, 1) == 5;
  }
}

=== FILE: results.dfy ===
/** Failure-compatible result and option types used by every module. */
module Results {

  datatype Option<+T> = None | Some(value: T)

  datatype Result<+T, +E> = Ok(value: T) | Err(error: E) {

    predicate IsFailure() {
      Err?
    }

    function PropagateFailure<U>(): Result<U, E>
      requires Err?
    {
      Err(error)
    }

    function Extract(): T
      requires Ok?
    {
      value
    }
  }
}

=== FILE: rle.dfy ===
/** The run-length reader of image/bitmap_stream.go (`R4`): each row is a
    sequence of runs of alternating colour, starting white; a run length
    below 0xC0 takes one byte and a longer one two. Constants are those of
    image/bitmap_const.go. */
module Rle {
  import opened BoundedInts
  import opened Results
  import opened Sources
  import opened ByteReaders
  import opened PixelStore

  /** `_MAXRUNSIZE`: the longest run two bytes can hold. */
  const MAX_RUN_SIZE: nat := 0x3fff
  /** `_RUNOVERFLOWVALUE`: first bytes from here on start a two-byte length. */
  const RUN_OVERFLOW_VALUE: byte := 0xc0
  /** `_RUNMSBMASK` and `_RUNLSBMASK`: the bits of a long length in its two bytes. */
  const RUN_MSB_MASK: byte := 0x3f
  const RUN_LSB_MASK: byte := 0xff

  // ---------------------------------------------------------------------
  // Reading

  /** One run length: advance to x; if x >= 0xC0, advance to x2 and the
      length is x2 + ((x - 0xC0) << 8). The reader is kept across the
      image, but every run starts with an advance, so only the position
      carries over. */
  function RunLength(src: Source, pos: nat): (r: Result<(nat, nat), PixelError>)
    ensures pos >= |src.data| ==> r == Err(ReadFailed(src.EndFault()))
    ensures pos < |src.data| && src.data[pos] < RUN_OVERFLOW_VALUE ==>
      r == Ok((src.data[pos] as nat, pos + 1))
    ensures pos < |src.data| && src.data[pos] >= RUN_OVERFLOW_VALUE ==>
      if pos + 1 >= |src.data| then r == Err(ReadFailed(src.EndFault()))
      else r == Ok(((src.data[pos] - RUN_OVERFLOW_VALUE) as nat * 256 + src.data[pos + 1] as nat, pos + 2))
    ensures r.Ok? ==> r.value.0 <= MAX_RUN_SIZE && pos < r.value.1 <= |src.data|
  {
    var a := Advance(src, Fresh(ZeroesByte, pos));
    if a.E.Some? then Err(ReadFailed(a.E.value))
    else if a.B < RUN_OVERFLOW_VALUE then Ok((a.B as nat, a.pos))
    else
      var a2 := Advance(src, a);
      if a2.E.Some? then Err(ReadFailed(a2.E.value))
      else
        // uint32(x2) + ((x - 0xC0) << 8): at most 0x3F << 8 | 0xFF, so nothing wraps
        Ok((a2.B as nat + (a.B - RUN_OVERFLOW_VALUE) as nat * 256, a2.pos))
  }

  /** n copies of the pixel value p. */
  function Repeat(p: byte, n: nat): (s: seq<byte>)
    ensures |s| == n
  {
    seq(n, _ => p)
  }

  /** The rest of a row from column c, with the current run colour p:
      read a run, fail with lost sync if it overshoots the row, append it,
      flip the colour, and stop once the row is full. */
  function RunRow(src: Source, pos: nat, ncols: nat, c: nat, p: byte, acc: seq<byte>)
    : (r: Result<(seq<byte>, nat), PixelError>)
    requires c <= ncols && |acc| == c && p <= 1
    ensures r.Ok? ==> |r.value.0| == ncols && pos < r.value.1 <= |src.data|
    decreases |src.data| - pos
  {
    match RunLength(src, pos)
    case Err(e) => Err(e)
    case Ok((x, q)) =>
      if c + x > ncols then Err(LostSync)
      else
        var acc' := acc + Repeat(p, x);
        if c + x >= ncols then Ok((acc', q))
        else RunRow(src, q, ncols, c + x, 1 - p, acc')
  }

  /** The loop only appends to the row so far, and only the two colours. */
  lemma {:induction false} RunRowExtends(src: Source, pos: nat, ncols: nat, c: nat, p: byte, acc: seq<byte>)
    requires c <= ncols && |acc| == c && p <= 1
    requires Bilevel(acc)
    ensures var r := RunRow(src, pos, ncols, c, p, acc);
      r.Ok? ==> r.value.0[..c] == acc && Bilevel(r.value.0)
    decreases |src.data| - pos
  {
    match RunLength(src, pos)
    case Err(e) =>
    case Ok((x, q)) =>
      if c + x <= ncols {
        var acc' := acc + Repeat(p, x);
        assert acc'[..c] == acc;
        if c + x < ncols {
          RunRowExtends(src, q, ncols, c + x, 1 - p, acc');
          var r := RunRow(src, q, ncols, c + x, 1 - p, acc');
          if r.Ok? {
            assert r.value.0[..c] == r.value.0[..c + x][..c];
          }
        }
      }
  }

  /** One row of `readRleRaw`: column 0, colour white. */
  function RleRow(src: Source, pos: nat, ncols: nat): (r: Result<(seq<byte>, nat), PixelError>)
    ensures r.Ok? ==> |r.value.0| == ncols && pos < r.value.1 <= |src.data|
  {
    RunRow(src, pos, ncols, 0, 0, [])
  }

  /** A row RleRow reads holds only the two colours. */
  lemma RleRowBilevel(src: Source, pos: nat, ncols: nat)
    ensures RleRow(src, pos, ncols).Ok? ==> Bilevel(RleRow(src, pos, ncols).value.0)
  {
    RunRowExtends(src, pos, ncols, 0, 0, []);
  }

  // ---------------------------------------------------------------------
  // Writing: the encoder the reader is checked against.

  /** The bytes of a run length n <= 0x3FFF. */
  function RunBytes(n: nat): (s: seq<byte>)
    requires n <= MAX_RUN_SIZE
    ensures |s| == (if n < RUN_OVERFLOW_VALUE as nat then 1 else 2)
  {
    if n < RUN_OVERFLOW_VALUE as nat then [n as byte]
    else [(RUN_OVERFLOW_VALUE as nat + n / 256) as byte, (n % 256) as byte]
  }

  /** Reading the bytes of a run length gives it back. */
  lemma RunLengthReadsRunBytes(n: nat, src: Source, pos: nat)
    requires n <= MAX_RUN_SIZE && Holds(src.data, pos, RunBytes(n))
    ensures RunLength(src, pos) == Ok((n, pos + |RunBytes(n)|))
  {
    assert src.data[pos] == src.data[pos..pos + |RunBytes(n)|][0] == RunBytes(n)[0];
    if n >= RUN_OVERFLOW_VALUE as nat {
      assert src.data[pos + 1] == src.data[pos..pos + 2][1] == RunBytes(n)[1];
    }
  }

  /** Pixel value v has colour p: the encoder counts any nonzero pixel
      as black. */
  predicate SameColour(v: byte, p: byte) {
    (v == 0) == (p == 0)
  }

  /** The length of the run of colour p starting at column c. */
  function RunAt(row: seq<byte>, c: nat, p: byte): (n: nat)
    requires c <= |row|
    ensures c + n <= |row|
    decreases |row| - c
  {
    if c == |row| || !SameColour(row[c], p) then 0 else 1 + RunAt(row, c + 1, p)
  }

  /** RunAt measures a maximal run: every pixel in it has colour p, and
      the one after it (if any) does not. */
  lemma {:induction false} RunAtIsMaximal(row: seq<byte>, c: nat, p: byte)
    requires c <= |row|
    ensures var n := RunAt(row, c, p);
      (forall k :: c <= k < c + n ==> SameColour(row[k], p)) && (c + n < |row| ==> !SameColour(row[c + n], p))
    decreases |row| - c
  {
    if c < |row| && SameColour(row[c], p) {
      RunAtIsMaximal(row, c + 1, p);
    }
  }

  /** The runs of a row from column c on, current colour p: each maximal
      run is written as one length, an empty one where the colour is
      absent, and a run too long for two bytes is cut after 0x3FFF pixels
      with an empty run of the other colour between the pieces. */
  function EncodeFrom(row: seq<byte>, c: nat, p: byte): seq<byte>
    requires c <= |row| && p <= 1
    decreases |row| - c, if c < |row| && SameColour(row[c], p) then 0 else 1
  {
    if c == |row| then []
    else
      var n := RunAt(row, c, p);
      if n > MAX_RUN_SIZE then RunBytes(MAX_RUN_SIZE) + RunBytes(0) + EncodeFrom(row, c + MAX_RUN_SIZE, p)
      else RunBytes(n) + EncodeFrom(row, c + n, 1 - p)
  }

  /** A row as R4 stores it; an empty row still takes one (empty) run. */
  function EncodeRow(row: seq<byte>): seq<byte>
  {
    if |row| == 0 then RunBytes(0) else EncodeFrom(row, 0, 0)
  }

  /** The last turn of the run loop: the run read fills the row. */
  lemma {:induction false} RunRowLast(src: Source, pos: nat, ncols: nat, c: nat, p: byte, acc: seq<byte>, x: nat, q: nat, acc': seq<byte>)
    requires c <= ncols && |acc| == c && p <= 1
    requires RunLength(src, pos) == Ok((x, q)) && c + x == ncols && acc' == acc + Repeat(p, x)
    ensures RunRow(src, pos, ncols, c, p, acc) == Ok((acc', q))
  {
  }

  /** Any other turn of the run loop: the run read fits, and the loop goes
      on with the other colour. */
  lemma RunRowNext(src: Source, pos: nat, ncols: nat, c: nat, p: byte, acc: seq<byte>, x: nat, q: nat, acc': seq<byte>)
    requires c <= ncols && |acc| == c && p <= 1
    requires RunLength(src, pos) == Ok((x, q)) && c + x < ncols && acc' == acc + Repeat(p, x)
    ensures RunRow(src, pos, ncols, c, p, acc) == RunRow(src, q, ncols, c + x, 1 - p, acc')
  {
  }

  /** The encoding of a run of n <= 0x3FFF pixels is its length, then the rest. */
  lemma EncodeShortRun(row: seq<byte>, c: nat, p: byte, n: nat)
    requires c < |row| && p <= 1 && n == RunAt(row, c, p) <= MAX_RUN_SIZE
    ensures EncodeFrom(row, c, p) == RunBytes(n) + EncodeFrom(row, c + n, 1 - p)
  {
  }

  /** The encoding of a longer run cuts it after 0x3FFF pixels. */
  lemma EncodeLongRun(row: seq<byte>, c: nat, p: byte)
    requires c < |row| && p <= 1 && RunAt(row, c, p) > MAX_RUN_SIZE
    ensures EncodeFrom(row, c, p) == RunBytes(MAX_RUN_SIZE) + RunBytes(0) + EncodeFrom(row, c + MAX_RUN_SIZE, p)
  {
  }

  /** Appending the first m pixels of the run at c extends the prefix. */
  lemma RunExtendsPrefix(row: seq<byte>, c: nat, p: byte, m: nat)
    requires Bilevel(row) && c <= |row| && p <= 1 && m <= RunAt(row, c, p)
    ensures row[..c] + Repeat(p, m) == row[..c + m]
  {
    RunAtIsMaximal(row, c, p);
    assert forall k :: c <= k < c + m ==> row[k] == p by {
      forall k | c <= k < c + m ensures row[k] == p {
        assert SameColour(row[k], p) && row[k] <= 1;
      }
    }
  }

  /** A run length in place that fills the row ends the loop right after it. */
  lemma {:induction false} ReadLastRun(src: Source, pos: nat, ncols: nat, c: nat, p: byte, acc: seq<byte>, n: nat, acc': seq<byte>)
    requires c <= ncols && |acc| == c && p <= 1 && n <= MAX_RUN_SIZE && c + n == ncols
    requires Holds(src.data, pos, RunBytes(n)) && acc' == acc + Repeat(p, n)
    ensures RunRow(src, pos, ncols, c, p, acc) == Ok((acc', pos + |RunBytes(n)|))
  {
    RunLengthReadsRunBytes(n, src, pos);
    RunRowLast(src, pos, ncols, c, p, acc, n, pos + |RunBytes(n)|, acc');
  }

  /** A run length in place that leaves part of the row moves the loop on
      past it, with the other colour. */
  lemma ReadNextRun(src: Source, pos: nat, ncols: nat, c: nat, p: byte, acc: seq<byte>, n: nat, acc': seq<byte>)
    requires c <= ncols && |acc| == c && p <= 1 && n <= MAX_RUN_SIZE && c + n < ncols
    requires Holds(src.data, pos, RunBytes(n)) && acc' == acc + Repeat(p, n)
    ensures RunRow(src, pos, ncols, c, p, acc) == RunRow(src, pos + |RunBytes(n)|, ncols, c + n, 1 - p, acc')
  {
    RunLengthReadsRunBytes(n, src, pos);
    RunRowNext(src, pos, ncols, c, p, acc, n, pos + |RunBytes(n)|, acc');
  }

  /** A cut long run, 0x3FFF pixels and an empty run of the other colour,
      moves the loop on past both lengths with the same colour. */
  lemma ReadCutRun(src: Source, pos: nat, ncols: nat, c: nat, p: byte, acc: seq<byte>, acc': seq<byte>)
    requires c <= ncols && |acc| == c && p <= 1 && c + MAX_RUN_SIZE < ncols
    requires Holds(src.data, pos, RunBytes(MAX_RUN_SIZE) + RunBytes(0)) && acc' == acc + Repeat(p, MAX_RUN_SIZE)
    ensures RunRow(src, pos, ncols, c, p, acc) ==
      RunRow(src, pos + |RunBytes(MAX_RUN_SIZE) + RunBytes(0)|, ncols, c + MAX_RUN_SIZE, p, acc')
  {
    var e1 := RunBytes(MAX_RUN_SIZE);
    HoldsSplit(src.data, pos, e1, RunBytes(0));
    ReadNextRun(src, pos, ncols, c, p, acc, MAX_RUN_SIZE, acc');
    assert acc' + Repeat(1 - p, 0) == acc';
    ReadNextRun(src, pos + |e1|, ncols, c + MAX_RUN_SIZE, 1 - p, acc', 0, acc');
  }

  /** Reading the encoding of the rest of a row, wherever it sits in the
      stream, completes the row and stops right after the encoding. */
  lemma {:induction false} RunRowReadsEncoding(row: seq<byte>, c: nat, p: byte, src: Source, pos: nat, end: nat)
    requires Bilevel(row) && c < |row| && p <= 1
    requires Holds(src.data, pos, EncodeFrom(row, c, p)) && end == pos + |EncodeFrom(row, c, p)|
    ensures RunRow(src, pos, |row|, c, p, row[..c]) == Ok((row, end))
    decreases |row| - c, if SameColour(row[c], p) then 0 else 1, 1
  {
    var n := RunAt(row, c, p);
    if n > MAX_RUN_SIZE {
      CutRunReadsBack(row, c, p, src, pos, end);
    } else if c + n < |row| {
      NextRunReadsBack(row, c, p, n, src, pos, end);
    } else {
      LastRunReadsBack(row, c, p, n, src, pos, end);
    }
  }

  /** Where the pieces of the encoding of a run of n <= 0x3FFF pixels
      sit, and the row prefix that reading it builds. */
  lemma ShortRunLayout(row: seq<byte>, c: nat, p: byte, n: nat, src: Source, pos: nat)
    requires Bilevel(row) && c < |row| && p <= 1 && n == RunAt(row, c, p) <= MAX_RUN_SIZE
    requires Holds(src.data, pos, EncodeFrom(row, c, p))
    ensures |EncodeFrom(row, c, p)| == |RunBytes(n)| + |EncodeFrom(row, c + n, 1 - p)|
    ensures Holds(src.data, pos, RunBytes(n))
    ensures Holds(src.data, pos + |RunBytes(n)|, EncodeFrom(row, c + n, 1 - p))
    ensures row[..c] + Repeat(p, n) == row[..c + n]
  {
    EncodeShortRun(row, c, p, n);
    HoldsSplit(src.data, pos, RunBytes(n), EncodeFrom(row, c + n, 1 - p));
    RunExtendsPrefix(row, c, p, n);
  }

  /** The same for a run cut after 0x3FFF pixels. */
  lemma CutRunLayout(row: seq<byte>, c: nat, p: byte, src: Source, pos: nat)
    requires Bilevel(row) && c < |row| && p <= 1 && RunAt(row, c, p) > MAX_RUN_SIZE
    requires Holds(src.data, pos, EncodeFrom(row, c, p))
    ensures var e := RunBytes(MAX_RUN_SIZE) + RunBytes(0);
      |EncodeFrom(row, c, p)| == |e| + |EncodeFrom(row, c + MAX_RUN_SIZE, p)| &&
      Holds(src.data, pos, e) && Holds(src.data, pos + |e|, EncodeFrom(row, c + MAX_RUN_SIZE, p))
    ensures row[..c] + Repeat(p, MAX_RUN_SIZE) == row[..c + MAX_RUN_SIZE]
  {
    EncodeLongRun(row, c, p);
    HoldsSplit(src.data, pos, RunBytes(MAX_RUN_SIZE) + RunBytes(0), EncodeFrom(row, c + MAX_RUN_SIZE, p));
    RunExtendsPrefix(row, c, p, MAX_RUN_SIZE);
  }

  /** The row goes on after a run too long for two bytes: its first 0x3FFF
      pixels and an empty run are read, then the rest of the row. */
  lemma {:induction false} CutRunReadsBack(row: seq<byte>, c: nat, p: byte, src: Source, pos: nat, end: nat)
    requires Bilevel(row) && c < |row| && p <= 1 && RunAt(row, c, p) > MAX_RUN_SIZE
    requires Holds(src.data, pos, EncodeFrom(row, c, p)) && end == pos + |EncodeFrom(row, c, p)|
    ensures RunRow(src, pos, |row|, c, p, row[..c]) == Ok((row, end))
    decreases |row| - c, if SameColour(row[c], p) then 0 else 1, 0
  {
    CutRunLayout(row, c, p, src, pos);
    RunRowReadsEncoding(row, c + MAX_RUN_SIZE, p, src, pos + |RunBytes(MAX_RUN_SIZE) + RunBytes(0)|, end);
    ReadCutRun(src, pos, |row|, c, p, row[..c], row[..c + MAX_RUN_SIZE]);
  }

  /** The row goes on after a run of n <= 0x3FFF pixels: it is read, then
      the rest of the row with the other colour. */
  lemma {:induction false} NextRunReadsBack(row: seq<byte>, c: nat, p: byte, n: nat, src: Source, pos: nat, end: nat)
    requires Bilevel(row) && c < |row| && p <= 1 && n == RunAt(row, c, p) <= MAX_RUN_SIZE && c + n < |row|
    requires Holds(src.data, pos, EncodeFrom(row, c, p)) && end == pos + |EncodeFrom(row, c, p)|
    ensures RunRow(src, pos, |row|, c, p, row[..c]) == Ok((row, end))
    decreases |row| - c, if SameColour(row[c], p) then 0 else 1, 0
  {
    ShortRunLayout(row, c, p, n, src, pos);
    RunRowReadsEncoding(row, c + n, 1 - p, src, pos + |RunBytes(n)|, end);
    ReadNextRun(src, pos, |row|, c, p, row[..c], n, row[..c + n]);
  }

  /** The run of n <= 0x3FFF pixels that ends the row is read, and the
      reading stops after it. */
  lemma {:induction false} LastRunReadsBack(row: seq<byte>, c: nat, p: byte, n: nat, src: Source, pos: nat, end: nat)
    requires Bilevel(row) && c < |row| && p <= 1 && n == RunAt(row, c, p) <= MAX_RUN_SIZE && c + n == |row|
    requires Holds(src.data, pos, EncodeFrom(row, c, p)) && end == pos + |EncodeFrom(row, c, p)|
    ensures RunRow(src, pos, |row|, c, p, row[..c]) == Ok((row, end))
  {
    ShortRunLayout(row, c, p, n, src, pos);
    assert row[..c + n] == row;
    ReadLastRun(src, pos, |row|, c, p, row[..c], n, row);
  }

  /** Reading an encoded row gives the row back and stops right after its encoding. */
  lemma RleRowReadsEncodedRow(row: seq<byte>, src: Source, pos: nat)
    requires Bilevel(row) && Holds(src.data, pos, EncodeRow(row))
    ensures RleRow(src, pos, |row|) == Ok((row, pos + |EncodeRow(row)|))
  {
    if |row| == 0 {
      RunLengthReadsRunBytes(0, src, pos);
    } else {
      RunRowReadsEncoding(row, 0, 0, src, pos, pos + |EncodeRow(row)|);
      assert row[..0] == [];
    }
  }

  /** A run that overshoots the row is lost sync, not a truncated row. */
  lemma OvershootLosesSync(ncols: nat, x: byte, failsAtEnd: bool)
    requires ncols < x < RUN_OVERFLOW_VALUE
    ensures RleRow(Source([x], failsAtEnd), 0, ncols) == Err(LostSync)
  {
  }

  /** Two white pixels then two black: the bytes [2, 2] make the row [0, 0, 1, 1]. */
  lemma TwoWhiteTwoBlack()
    ensures RleRow(Source([2, 2], false), 0, 4) == Ok(([0, 0, 1, 1], 2))
  {
    var src := Source([2, 2], false);
    assert RunLength(src, 0) == Ok((2, 1));
    assert RunLength(src, 1) == Ok((2, 2));
    assert [] + Repeat(0, 2) == [0, 0];
    assert [0, 0] + Repeat(1, 2) == [0, 0, 1, 1];
    RunRowNext(src, 0, 4, 0, 0, [], 2, 1, [0, 0]);
    RunRowLast(src, 1, 4, 2, 1, [0, 0], 2, 2, [0, 0, 1, 1]);
  }
}

=== FILE: source.dfy ===
/** The input stream the decoders read from, abstracted as the bytes it
    delivers followed by a failure: either the ordinary end of data
    (`io.EOF`) or an injected I/O error. */
module Sources {
  import opened BoundedInts
  import opened Results

  /** Why a read returned no byte. */
  datatype Fault =
    | EndOfData      // io.EOF
    | UnexpectedEnd  // io.ErrUnexpectedEOF: the stream ended inside a fixed-size read
    | IoFault        // any other failure of the underlying reader

  datatype Source = Source(data: seq<byte>, failsAtEnd: bool) {
    /** The failure of a single-byte read past the data. */
    function EndFault(): Fault {
      if failsAtEnd then IoFault else EndOfData
    }
  }

  /** One single-byte `Read` at stream position pos. */
  function ReadByte(src: Source, pos: nat): (r: Result<byte, Fault>)
    ensures r.Ok? <==> pos < |src.data|
    ensures r.Ok? ==> r.value == src.data[pos]
    ensures r.Err? ==> r.error == src.EndFault()
  {
    if pos < |src.data| then Ok(src.data[pos]) else Err(src.EndFault())
  }

  /** `io.ReadAtLeast(r, buf, n)` with an n-byte buffer: exactly n bytes,
      or EOF when none was available, ErrUnexpectedEOF when some but not
      all were, and the reader's own error when it fails. */
  function ReadFull(src: Source, pos: nat, n: nat): (r: Result<seq<byte>, Fault>)
    requires n > 0
    ensures r.Ok? <==> pos + n <= |src.data|
    ensures r.Ok? ==> |r.value| == n && r.value == src.data[pos..pos + n]
    ensures r.Err? && !src.failsAtEnd ==> (r.error == EndOfData <==> pos >= |src.data|)
    ensures r.Err? && !src.failsAtEnd ==> (r.error == UnexpectedEnd <==> pos < |src.data|)
    ensures r.Err? && src.failsAtEnd ==> r.error == IoFault
  {
    if pos + n <= |src.data| then Ok(src.data[pos..pos + n])
    else if src.failsAtEnd then Err(IoFault)
    else if pos >= |src.data| then Err(EndOfData)
    else Err(UnexpectedEnd)
  }

  /** The bytes e sit in data at position pos. */
  predicate Holds(data: seq<byte>, pos: nat, e: seq<byte>) {
    pos + |e| <= |data| && data[pos..pos + |e|] == e
  }

  /** Bytes a + b in place means a in place, followed by b. */
  lemma HoldsSplit(data: seq<byte>, pos: nat, a: seq<byte>, b: seq<byte>)
    requires Holds(data, pos, a + b)
    ensures Holds(data, pos, a) && Holds(data, pos + |a|, b)
  {
    var w := data[pos..pos + |a| + |b|];
    assert data[pos..pos + |a|] == w[..|a|];
    assert data[pos + |a|..pos + |a| + |b|] == w[|a|..];
  }
}

=== FILE: writer.dfy ===
/** The chaining writers of internal/bytestream/writer.go and
    bytestream/bytestream.go. The two behave identically: a write is
    skipped once an error is recorded, and a failed write records it. */
module Writers {
  import opened BoundedInts
  import opened Results

  /** The failure of the underlying io.Writer: it accepted fewer bytes than offered. */
  datatype WriteFault = ShortWrite

  /** The bytes the underlying writer holds, how many it can take in all
      (None when unlimited), and the recorded error. */
  datatype Writer = Writer(out: seq<byte>, capacity: Option<nat>, e: Option<WriteFault>) {
    ghost predicate Valid() {
      capacity.Some? ==> |out| <= capacity.value
    }

    /** How many more bytes the underlying writer accepts, if limited. */
    function Room(): nat
      requires Valid() && capacity.Some?
    {
      capacity.value - |out|
    }
  }

  function NewWriter(out: seq<byte>, capacity: Option<nat>): (w: Writer)
    requires capacity.Some? ==> |out| <= capacity.value
    ensures w.Valid() && w.e == None && w.out == out
  {
    Writer(out, capacity, None)
  }

  /** One call of the underlying `Write`: it stores the prefix of bs that
      fits and reports an error when that is not all of bs. */
  function Put(w: Writer, bs: seq<byte>): (r: Writer)
    requires w.Valid() && w.e.None?
    ensures r.Valid() && r.capacity == w.capacity
    ensures |r.out| <= |w.out| + |bs| && r.out == (w.out + bs)[..|r.out|]
    ensures r.e.None? <==> (w.capacity.None? || |bs| <= w.Room())
    ensures r.e.Some? ==> r.e == Some(ShortWrite) && r.out == w.out + bs[..w.Room()]
  {
    if w.capacity.None? || |bs| <= w.Room() then w.(out := w.out + bs)
    else w.(out := w.out + bs[..w.Room()], e := Some(ShortWrite))
  }

  /** `Write8`: append one byte unless an error is already recorded. */
  function Write8(w: Writer, v: byte): (r: Writer)
    requires w.Valid()
    ensures r.Valid()
    ensures w.e.Some? ==> r == w
    ensures w.e.None? && (w.capacity.None? || w.Room() >= 1) ==> r.out == w.out + [v] && r.e == None
    ensures w.e.None? && w.capacity.Some? && w.Room() == 0 ==> r.out == w.out && r.e == Some(ShortWrite)
  {
    if w.e.Some? then w else Put(w, [v])
  }

  /** The high byte `(v >> 8) & 0xff` and low byte `v & 0xff` of a 16-bit value. */
  function High(v: uint16): byte { v / 256 }
  function Low(v: uint16): byte { v % 256 }

  /** `Write16`: append v big-endian unless an error is already recorded;
      the two bytes appended read back as v. */
  function Write16(w: Writer, v: uint16): (r: Writer)
    requires w.Valid()
    ensures r.Valid()
    ensures w.e.Some? ==> r == w
    ensures w.e.None? && (w.capacity.None? || w.Room() >= 2) ==>
      r.e == None && |r.out| == |w.out| + 2 && r.out[..|w.out|] == w.out &&
      r.out[|w.out|] as int * 256 + r.out[|w.out| + 1] as int == v
    ensures w.e.None? && w.capacity.Some? && w.Room() < 2 ==> r.e == Some(ShortWrite)
  {
    if w.e.Some? then w else Put(w, [High(v), Low(v)])
  }

  /** `Error`. */
  function Error(w: Writer): (e: Option<WriteFault>)
    ensures e.None? <==> w.e.None?
  {
    w.e
  }

  /** `ClearError` forgets the error and keeps what was written. */
  function ClearError(w: Writer): (r: Writer)
    requires w.Valid()
    ensures r.Valid() && r.e == None && r.out == w.out && r.capacity == w.capacity
  {
    w.(e := None)
  }

  /** Writing 16 bits is writing the high byte, then the low byte, even
      when the underlying writer fills up in between. */
  lemma Write16IsTwoWrite8(w: Writer, v: uint16)
    requires w.Valid()
    ensures Write16(w, v) == Write8(Write8(w, High(v)), Low(v))
  {
    if w.e.None? && w.capacity.Some? && w.Room() == 1 {
      assert [High(v), Low(v)][..1] == [High(v)];
    }
  }

  /** A sequence of chained writes. */
  datatype Op = Byte(b: byte) | Word(v: uint16)

  function Apply(w: Writer, op: Op): (r: Writer)
    requires w.Valid()
    ensures r.Valid() && r.capacity == w.capacity
  {
    match op
    case Byte(b) => Write8(w, b)
    case Word(v) => Write16(w, v)
  }

  function Run(w: Writer, ops: seq<Op>): (r: Writer)
    requires w.Valid()
    ensures r.Valid() && r.capacity == w.capacity
    decreases |ops|
  {
    if |ops| == 0 then w else Run(Apply(w, ops[0]), ops[1..])
  }

  /** The bytes one write offers. */
  function OpBytes(op: Op): seq<byte> {
    match op
    case Byte(b) => [b]
    case Word(v) => [High(v), Low(v)]
  }

  /** The bytes a sequence of writes offers, in order. */
  function Encoding(ops: seq<Op>): seq<byte>
    decreases |ops|
  {
    if |ops| == 0 then [] else OpBytes(ops[0]) + Encoding(ops[1..])
  }

  lemma {:induction false} EncodingCons(op: Op, ops: seq<Op>)
    ensures Encoding([op] + ops) == OpBytes(op) + Encoding(ops)
  {
    assert ([op] + ops)[1..] == ops;
  }

  /** Once an error is recorded, a chain of writes changes nothing. */
  lemma {:induction false} ErrorIsSticky(w: Writer, ops: seq<Op>)
    requires w.Valid() && w.e.Some?
    ensures Run(w, ops) == w
    decreases |ops|
  {
    if |ops| > 0 {
      ErrorIsSticky(Apply(w, ops[0]), ops[1..]);
    }
  }

  /** A chain of writes on a healthy writer stores exactly the longest
      prefix of its encoding that fits, and ends in error exactly when
      the encoding does not fit. */
  lemma {:induction false} RunStoresPrefix(w: Writer, ops: seq<Op>)
    requires w.Valid() && w.e.None?
    ensures var r := Run(w, ops);
      var all := w.out + Encoding(ops);
      (r.e.None? <==> (w.capacity.None? || |all| <= w.capacity.value)) &&
      (w.capacity.None? || |all| <= w.capacity.value ==> r.out == all) &&
      (w.capacity.Some? && |all| > w.capacity.value ==> r.out == all[..w.capacity.value])
    decreases |ops|
  {
    if |ops| > 0 {
      var a := Apply(w, ops[0]);
      var head := OpBytes(ops[0]);
      assert Encoding(ops) == head + Encoding(ops[1..]);
      var all := w.out + Encoding(ops);
      assert all == (w.out + head) + Encoding(ops[1..]);
      if a.e.None? {
        assert a.out == w.out + head;
        RunStoresPrefix(a, ops[1..]);
      } else {
        ErrorIsSticky(a, ops[1..]);
        assert a.out == w.out + head[..w.Room()];
        assert a.out == all[..w.capacity.value];
      }
    }
  }
}
